=== FILE: README.md ===
# go-musicbot: browser clients, web front end and tag utilities in Dafny

This project models the pure logic of go-musicbot, a music bot that plays a
shared playlist, takes votes and track requests over IRC and the web, and
streams the result. It covers the following parts.

- **The browser clients.**
  - `webassets/js/site.js` has the quote codec for artist names, the
    paginator, the duration formatter, the artist lookup, the
    message handler and the stream toggle.
  - `webui_assets/js/player.js` has the file-name helpers, the commands the
    page sends and the effect of every server reply.
- **The web front end in `lib/webui/webui.go`.**
  - Response construction.
  - The asset lookup and HTTP routing.
  - The dispatch of WebSocket requests.
  - The asset embedder `scripts/embed-assets.go`, which produces the map
    that the front end reads.
- **The Go-side string, queue and rating utilities.**
  - Video ids and the configuration fallback (`lib/utils`).
  - Query sanitising (`lib/albumart`, `lib/discogs`).
  - The MPD request stack, the playlist lookups and the artist list
    (`lib/mpdclient`).
  - The play queue (`lib/manager`).
  - The two rating stores: `pkg/id3tags`, which uses the `id3v2` tool's
    listing, and `lib/mp3lib`, which uses the year frame.
  - The tag fixer (`cmd/mbfixtags`).
  - IRC command recognition and channel-name cleaning (`cmd/musicbot`).

Everything is stated with pure functions over immutable data. A few
operations are written as loop methods and checked against those functions.
The following are parameters of the model:

- the order in which a Go map is visited;
- the file system;
- the output of the `id3v2` tool;
- base64 and URI encoding;
- the art handler.

One Dafny module corresponds to one source file or a small group of files.
`Wrappers`, `Strings` and `Numeric` are shared helpers:

- `Option` and `Result`;
- sub-string search, replacement, splitting, trimming;
- JavaScript slicing;
- decimal conversion as `strconv` does it;
- truncating division;
- 32- and 64-bit wrap-around.

## Model

| member | source | states |
|---|---|---|
| QuoteCodec.EncodeString | webassets/js/site.js:59-66 | the encoded artist name contains no double quote, single quote or backtick |
| QuoteCodec.EncodeEscapesQuotes | webassets/js/site.js:59-66 | the three replace passes together replace each quote character of the name by its three-character escape, and leave every other character as it is |
| QuoteCodec.EncodeCounterexample | webassets/js/site.js:59-66 | the three-character name quote, d, quote is sent as the escape of the quote, a d and the escape of the quote again |
| QuoteCodec.DecodeCounterexampleFirstPass | webassets/js/site.js:68-75 | on that wire text, the first decoding pass finds an escape of the double quote that straddles the two escapes of the single quote, and replaces it |
| QuoteCodec.DecodeCounterexampleLaterPasses | webassets/js/site.js:68-75 | the single-quote and backtick passes then find nothing left to undo |
| QuoteCodec.AsWrittenRoundTripFails | webassets/js/site.js:59-75 | decoding the encoding of the name quote, d, quote does not give back the name |
| QuoteCodec.EncodeListedCounterexample | webassets/js/site.js:59-66 | the name a, quote, d, quote is sent as an a followed by the escape of the quote, a d and the escape of the quote again |
| QuoteCodec.DecodeListedCounterexample | webassets/js/site.js:68-75 | on that wire text the first pass replaces the straddling escape of the double quote behind the a, and the later passes find nothing |
| QuoteCodec.ListedRoundTripFails | webassets/js/site.js:59-75 | the name a, quote, d, quote, which does not start with a quote, decodes as a, bar, s, double quote, s, bar |
| QuoteCodec.EscapePass | webassets/js/site.js:61-64 | one replace pass of the encoder adds the escape of one more character to a partly escaped name |
| QuoteCodec.UnescapePass | webassets/js/site.js:70-73 | one replace pass of the decoder removes exactly the escapes of one character, provided no escape of the character spans two others |
| QuoteCodec.AsWrittenRoundTrip | webassets/js/site.js:59-75 | the codec as written does give back every name that has no bar character and in which no quote, one of the escape letters d, s, b and a quote follow each other |
| QuoteCodec.EncodeStringFixed | webassets/js/site.js:59-66 | the corrected encoder also escapes the bar character itself, so each character maps to its own escape |
| QuoteCodec.FixedRoundTrip | webassets/js/site.js:59-75 | with the corrected codec, decoding the encoding gives back every name |
| QuoteCodec.UnescapeEscaped | webassets/js/site.js:68-75 | the single left-to-right decoding pass undoes the corrected escaping of any name |
| Paginator.FilterObjects | webassets/js/site.js:77-79 | the current page holds the items from the page index on, in order, at most a page's worth, and none past the end |
| Paginator.GotoPage | webassets/js/site.js:81-98 | navigation keeps the page size and points the index at the first item of the page |
| Paginator.GotoPageEffect | webassets/js/site.js:81-98 | "next" adds a page without an upper bound; "previous" subtracts one but never goes below zero; any other number jumps to that page |
| Paginator.BackUndoesNext | webassets/js/site.js:81-98 | "previous" after "next" returns to the page and index started from |
| Paginator.NavigationStaysNonNegative | webassets/js/site.js:81-98 | from page zero or later, the three kinds of navigation never reach a negative page or index |
| Paginator.ItemOnItsPage | webassets/js/site.js:77-98 | with a positive page size, item `i` is shown at row `i mod size` of page `i div size` |
| Duration.Split | webassets/js/site.js:160-172 | for a duration below 2^31 hours, the hours, minutes and seconds are non-negative, the last two are below 60, and together they make up the duration |
| Duration.PrettyDuration | webassets/js/site.js:160-172 | the text always ends in the seconds unit |
| Duration.PrettyDurationRoundTrip | webassets/js/site.js:160-172 | reading the text back as digit-unit groups gives the duration |
| Duration.PrettyDurationUnits | webassets/js/site.js:160-172 | hours are shown exactly from one hour up, and minutes exactly from one minute up |
| PlaylistView.FilterTracks | webassets/js/site.js:219-235 | the tracks found are a subsequence of the playlist, and each one matches the query |
| PlaylistView.FilterTracksCounts | webassets/js/site.js:219-235 | a track occurs among those found exactly as often as in the playlist when it matches, and never when it does not |
| PlaylistView.FilterTracksCount | webassets/js/site.js:219-235 | the same count statement for a single track |
| PlaylistView.SearchFieldFallback | webassets/js/site.js:221-229 | the artist field is searched; when it is empty the title is searched; when both are empty the file name is searched |
| PlaylistView.ShowLookup | webassets/js/site.js:218-264 | the tracks whose search field holds the query are kept in playlist order, the pager goes back to page zero and the first page of them is shown |
| PlaylistView.LookupTracksForArtist | webassets/js/site.js:215-264 | the lookup decodes the artist with the codec as written and upper-cases it; it resets the pager to page zero and shows the first page of the tracks found |
| PlaylistView.LookupTracksForArtistFixed | webassets/js/site.js:215-264 | the same lookup with the corrected decoder |
| PlaylistView.FirstPageShown | webassets/js/site.js:239-242 | at page zero the paginator shows the first page's worth of tracks |
| PlaylistView.FilterFindsExactly | webassets/js/site.js:218-235 | the filter keeps exactly the tracks whose search field contains the name, ignoring case, each as often as the playlist holds it and in playlist order |
| PlaylistView.LookupFindsArtist | webassets/js/site.js:215-264 | looking up a name encoded by the codec as written finds exactly that artist's tracks, for every name the codec as written gives back |
| PlaylistView.LookupFindsArtistFixed | webassets/js/site.js:215-264 | with the corrected codec, looking up any encoded name finds exactly the tracks whose search field contains the name, ignoring case |
| PlaylistView.Listed | webassets/js/site.js:174-187 | the names the artist list shows are a subsequence of the list, none starting with a single quote |
| PlaylistView.ListedCount | webassets/js/site.js:174-187 | every name not starting with a single quote is shown as often as the list holds it, and no other name is shown |
| PlaylistView.ArtistLinks | webassets/js/site.js:174-187 | the artist list has one link per shown name, in list order and with repeats, each to the name encoded as written; so it links exactly the names that do not start with a single quote |
| PlaylistView.ClickedLinkFindsArtist | webassets/js/site.js:174-264 | clicking a link of the artist list finds exactly that artist's tracks whenever the codec as written gives the name back |
| PlaylistView.ListedLinkMissesArtist | webassets/js/site.js:174-264 | the artist a, quote, d, quote is listed, and clicking it searches for a, bar, s, double quote, s, bar instead of the name |
| PlaylistView.NowPlayingLine | webassets/js/site.js:277-282 | the title alone without an artist; otherwise artist, separator and title |
| PlaylistView.OnMessage | webassets/js/site.js:390-431 | a playlist or artists reply replaces that list and draws it only when the list was empty before; a now-playing reply sets the line and the queue count, and redraws the results when the page size changed; replies with other codes change nothing |
| PlaylistView.PlaylistDrawnOnce | webassets/js/site.js:394-404 | a second playlist reply is stored, but it does not redraw the results again |
| PlaylistView.NowPlayingSettles | webassets/js/site.js:417-425 | two now-playing replies in a row, with the same viewport, redraw the results at most once |
| StreamToggle.Toggle | webassets/js/site.js:449-483 | without a stream address nothing happens; a playing player stops and is rewound; a stopped player starts the remembered stream, which loading sets back to its start; the icon follows the player |
| StreamToggle.ToggleConsistent | webassets/js/site.js:449-483 | a click keeps the icon opposite to the player's state, and a playing player always plays the remembered stream |
| StreamToggle.StopThenPlay | webassets/js/site.js:449-483 | two clicks on a playing player restore it, playing the same stream from the start |
| StreamToggle.PlayThenStop | webassets/js/site.js:449-483 | two clicks on a stopped player leave it stopped and rewound, with the same stream remembered |
| Protocol.ReplyCodes | lib/webui/webui.go:30-44 | every reply code is its request code plus 100, and no other code is a reply code |
| WebUi.NewResponse | lib/webui/webui.go:197-206 | the response carries the given code, data, status and message |
| WebUi.NewSuccessResponse | lib/webui/webui.go:208-221 | a success response has a true status, the content and no message |
| WebUi.NewFailedResponseAsWritten | lib/webui/webui.go:223-236 | the failure response as written has a false status and no data, and its message is empty whatever is passed in |
| WebUi.FailedResponseLosesMessage | lib/webui/webui.go:223-236 | as written, two different error messages give the same response; corrected, they give different ones |
| WebUi.NewFailedResponse | lib/webui/webui.go:223-236 | the corrected failure response carries the message it is given |
| WebUi.AssetKey | lib/webui/webui.go:521-527 | `/` means the index page; any other path loses its leading slash and is mangled as the embedder mangles file names: each slash and dot becomes an underscore and every other character stays |
| WebUi.ServerKeyMatchesEmbeddedName | lib/webui/webui.go:521-527 | the key the server looks up for `/p` is the name the embedder stored the file `p` under |
| WebUi.IndexPageKey | lib/webui/webui.go:521-524 | the key for `/` is the name the embedder gives `html/index.html` |
| WebUi.FetchGeneratedAsset | lib/webui/webui.go:520-551 | an unknown key is "asset not found"; an undecodable entry is "failed to decode asset"; otherwise the result is the decoded data with the stored content type |
| WebUi.AssetHandler | lib/webui/webui.go:570-617 | only GET is served (otherwise 405); `/` and the css, js and img paths come from the embedded assets, and `/art` goes to the art handler; a failed fetch is 500 and any other path is an empty plain-text 200 |
| WebUi.ServesEmbeddedFile | lib/webui/webui.go:570-617 | a request for a file the embedder stored under css, js or img is answered 200 with its decoded contents and its recorded content type |
| WebUi.GetSource | lib/webui/webui.go:469-476 | the forwarded-for header when it is set, otherwise the peer address |
| WebUi.Dispatch | lib/webui/webui.go:665-880 | the seven request codes go to their handlers and are answered under the request code plus 100; any other code closes the connection |
| WebUi.FailureText | lib/webui/webui.go:251-450 | the text a failed API call puts in the reply is never empty: the skip, downvote and upvote handlers' own messages, or the handler's name and its fixed error for search and track requests |
| WebUi.Respond | lib/webui/webui.go:251-880 | for a parsed request whose handler finds its inputs (see `Turn`): a known code gets exactly one reply under its code plus 100 and an unknown code none, closing the connection; now-playing and queue send the server's state; a successful API call sends its payload; a failed one sends the failure text (message corrected), and for skip, downvote and upvote the handler then panics on the nil API reply |
| WebUi.ApiErrorTextOnlyLogged | lib/webui/webui.go:251-450 | the API's error text does not reach the client: two failures of the same call give the same replies |
| WebUi.RespondAsWritten | lib/webui/webui.go:223-224 | as written, every failure reply reaches the client with an empty message; the replies otherwise and the panics are those of `Respond`, on the same inputs |
| WebUi.Turn | lib/webui/webui.go:635-880 | one frame: an unparsable one gets no reply and the loop reads on; an unknown code closes the connection; a search or track request whose `d` is not a string, and a now-playing request before the first fetch has stored a track, panic with no reply; every other request is answered as `Respond` says, and only those get a reply |
| WebUi.TurnAsWritten | lib/webui/webui.go:223-224 | as written, a frame gets the same number of replies and the same ending, and a failure reply loses its text |
| WebUi.SessionSkipsUnparsable | lib/webui/webui.go:653-663 | a frame `json.Unmarshal` rejects changes nothing in what the connection sends |
| WebUi.SessionAnswersEach | lib/webui/webui.go:635-880 | a run of parsed known requests whose handlers find their inputs, none of which panics after a failed API call, is answered one reply per request, in order, under each request's code plus 100 |
| WebUi.SessionStopsAt | lib/webui/webui.go:251-880 | no request after one that closes the connection or panics its handler is answered |
| EmbedAssets.Mangle | scripts/embed-assets.go:55-56 | the path keeps its length, and every slash and dot becomes an underscore |
| EmbedAssets.MangledFileName | scripts/embed-assets.go:55-56 | `dir/base.ext` becomes `dir_base_ext` |
| EmbedAssets.Embed | scripts/embed-assets.go:50-79 | one entry per file in walk order and none for directories; each entry has the mangled name, the encoded contents and the content type |
| EmbedAssets.ContentTypeOfExtension | scripts/embed-assets.go:64-75 | html, css, js, ico and png files get their content types |
| EmbedAssets.AssetNameBelowDir | scripts/embed-assets.go:55-57 | a file below the asset directory is stored under the mangled path relative to that directory |
| PlayerClient.FilenameToTrack | webui_assets/js/player.js:26-28 | the name without its 16-character id-and-extension tail; a shorter name gives the empty text |
| PlayerClient.SearchId | webui_assets/js/player.js:84 | the 11 characters that come before the 4-character extension |
| PlayerClient.ClientAgreesWithServerId | webui_assets/js/player.js:79-89 | whenever the server extracts an id from a file name, the page extracts the same id, and the name is the track, a dash, the id and the extension |
| PlayerClient.BuiltNameSplits | webui_assets/js/player.js:26-28 | a downloaded file name splits back into the track name and the id it was built from |
| PlayerClient.SearchHits | webui_assets/js/player.js:79-89 | one search hit per file name, in order, with its id and track name |
| PlayerClient.QueueLines | webui_assets/js/player.js:91-98 | one numbered line per queue entry, in order, showing the track name |
| PlayerClient.ClearSearch | webui_assets/js/player.js:74-77 | clears the query and the results and keeps the rest of the page |
| PlayerClient.OnReply | webui_assets/js/player.js:154-211 | a failure warns with the server's message (a failed search also clears the search); each success updates its part of the page; unknown codes change nothing |
| PlayerClient.SendCommand | webui_assets/js/player.js:100-103 | a request with the code and no data |
| PlayerClient.SendCommandWithData | webui_assets/js/player.js:105-111 | a request with the code and the data |
| PlayerClient.SearchClick | webui_assets/js/player.js:143-152 | a non-empty query is sent as a search; an empty one only clears the search |
| PlayerClient.RequestTrackClick | webui_assets/js/player.js:66-72 | a click on a hit requests its id and clears the search |
| PlayerClient.SentRequestsAreHandled | webui_assets/js/player.js:100-152 | every request the page sends has a handler on the server, and searches and track requests carry their data |
| PlayerClient.ClicksSendSendable | webui_assets/js/player.js:66-152 | the search and request clicks only send such requests |
| PlayerClient.HitRequestsItsFile | webui_assets/js/player.js:66-89 | clicking the i-th hit of a search reply requests the id of the i-th file |
| PlayerClient.FailureReachesUser | webui_assets/js/player.js:158-209 | with the corrected server, every failed API call is shown to the user as a warning with the failure text; after a failed skip, downvote or upvote the handler panics, and only then |
| PlayerClient.FailureLostAsWritten | webui_assets/js/player.js:158-209 | with the server as written, a failed API call gives the user a warning with empty text |
| PlayerClient.NowPlayingShown | webui_assets/js/player.js:158-164 | a now-playing success shows the track name, the rating and the formatted duration |
| PlayerClient.StartHandler | webui_assets/js/player.js:120-216 | starting the handler gives a socket that is not closed |
| PlayerClient.RestartSettles | webui_assets/js/player.js:218-220 | after the disconnect check the socket is never missing or closed, and a live socket is left alone |
| Utils.GetYidFromFilename | lib/utils/utils.go:22-30 | an id is a valid 11-character id taken from just before the 4-character extension of a `-<id>.mp3` ending; otherwise the error names the file |
| Utils.YidOfBuiltName | lib/utils/utils.go:22-30 | a name built as prefix, dash, id, dot and `mp3` gives back that id |
| Utils.NoYidWithoutTail | lib/utils/utils.go:22-30 | a name without the dash or the `mp3` tail gives the error |
| Utils.ArgOrEnvVar | lib/utils/utils.go:32-48 | a set environment variable wins; otherwise a non-empty argument; otherwise the configuration value; when all are empty it is an error; a success is never the empty string |
| Utils.ArgOrEnvVarPicksFirst | lib/utils/utils.go:32-48 | the result is the first non-empty value among the variable (or the argument when the variable is unset) and the configuration value, and an error when there is none |
| Utils.ArgOrEnvVarSettled | lib/utils/utils.go:32-48 | a value found once is found again when passed back as the argument with the variable unset |
| Sanitize.Skim | lib/albumart/utils.go:23-43 | the result has no brackets and is a subsequence of the query |
| Sanitize.SanitizeQuery | lib/albumart/utils.go:23-43 | the loop computes the bracket-free subsequence that the skimming function describes |
| Sanitize.CleanQueryUnchanged | lib/albumart/utils.go:23-43 | a query without brackets is returned unchanged |
| Sanitize.Idempotent | lib/albumart/utils.go:23-43 | sanitising twice is sanitising once |
| Sanitize.RegionRemoved | lib/albumart/utils.go:23-43 | a bracketed region, from its opener to the first closer after it, is removed, and the text on either side is kept |
| Sanitize.UnmatchedOpenerDropsRest | lib/albumart/utils.go:23-43 | an opener without a closer after it drops the rest of the query |
| Sanitize.SkipToCloser | lib/discogs/discogs.go:94-114 | inside brackets everything up to the first closer is skipped |
| RequestQueue.NewRequestQueue | lib/mpdclient/queue.go:3-9 | a new stack is empty and has the given capacity |
| RequestQueue.Push | lib/mpdclient/queue.go:11-20 | a push is accepted exactly when the stack is below capacity, and then adds the item on top; a refused push changes nothing |
| RequestQueue.Pop | lib/mpdclient/queue.go:22-31 | an empty stack gives nothing; otherwise it gives the top item and removes it |
| RequestQueue.Dump | lib/mpdclient/queue.go:33-41 | maps each position of the stack to its title, and nothing else |
| RequestQueue.Has | lib/mpdclient/queue.go:43-50 | true exactly when some queued item has the title |
| RequestQueue.PopUndoesPush | lib/mpdclient/queue.go:11-31 | popping after an accepted push gives the item back and restores the stack |
| RequestQueue.FullRefuses | lib/mpdclient/queue.go:12-14 | a full stack refuses a push unchanged |
| RequestQueue.LastInFirstOut | lib/mpdclient/queue.go:11-31 | two items pushed come back in reverse order |
| PlayQueue.AddAsWritten | lib/manager/queue.go:50-75 | as written, the track is stored in the slot numbered by the queue size; a full queue is refused |
| PlayQueue.AddAsWrittenLosesTrack | lib/manager/queue.go:61-66 | after a delete leaves a gap, an add overwrites a queued track |
| PlayQueue.FirstFree | lib/manager/queue.go:61-66 | the lowest slot that is not taken |
| PlayQueue.Add | lib/manager/queue.go:50-75 | the corrected add keeps every queued track and adds the new one in a free slot; a full queue is refused |
| PlayQueue.AddAgreesWhenDense | lib/manager/queue.go:50-75 | when the slots are numbered without gaps, the corrected add is the add as written |
| PlayQueue.Promote | lib/manager/queue.go:92-97 | every remaining track moves up one priority, but not below zero |
| PlayQueue.DeleteAsWritten | lib/manager/queue.go:77-100 | as written, the id is checked among the tracks' ids but is removed as a slot number |
| PlayQueue.DeleteAsWrittenKeepsTrack | lib/manager/queue.go:77-100 | deleting track 42 from slot 0 reports success but leaves it queued |
| PlayQueue.Delete | lib/manager/queue.go:77-100 | the corrected delete removes exactly the tracks with the id and keeps the others in their slots, each moved up one priority unless already at zero; an unknown id is an error |
| PlayQueue.AddThenDelete | lib/manager/queue.go:50-100 | a track just added can be deleted, and the delete keeps every slot taken before |
| MpdPlaylist.OrderSize | lib/mpdclient/playlist.go:32-40 | a visiting order lists each key once, so it is as long as the playlist |
| MpdPlaylist.ToArray | lib/mpdclient/playlist.go:32-40 | the array has one element per entry, contains every entry and nothing else |
| MpdPlaylist.HasFilename | lib/mpdclient/playlist.go:42-50 | true exactly when some entry has the file name, whatever the visiting order |
| MpdPlaylist.GetEntryByPos | lib/mpdclient/playlist.go:52-59 | an entry exactly when one has the position, and then one at that position; otherwise the not-found error |
| MpdPlaylist.FirstAtPos | lib/mpdclient/playlist.go:53-57 | the first place in the visiting order that holds the position |
| MpdPlaylist.EntryByPosUnique | lib/mpdclient/playlist.go:52-59 | when positions are unique, every visiting order finds the same entry |
| MpdPlaylist.Attr | lib/mpdclient/utils.go:12 | a missing attribute reads as the empty text |
| MpdPlaylist.FirstMatch | lib/mpdclient/utils.go:11-14 | the first entry whose file contains the title |
| MpdPlaylist.FindId | lib/mpdclient/utils.go:10-25 | the parsed id of the first matching entry, or -1 when nothing matches or that id is not a number |
| MpdPlaylist.EmptyTitleMatchesFirst | lib/mpdclient/utils.go:10-25 | the empty title picks the first entry |
| MpdPlaylist.NonMatchingPrefix | lib/mpdclient/utils.go:10-25 | non-matching entries in front only shift the match |
| Artists.Has | lib/mpdclient/artist.go:17-25 | true exactly when the name is in the list |
| Artists.Len | lib/mpdclient/artist.go:27 | the number of names, zero only for the empty list |
| Artists.StrLessIrreflexive | lib/mpdclient/artist.go:28 | no name sorts before itself |
| Artists.StrLessTransitive | lib/mpdclient/artist.go:28 | the string order is transitive |
| Artists.StrLessTotal | lib/mpdclient/artist.go:28 | any two different names are ordered one way or the other |
| Artists.LessStrict | lib/mpdclient/artist.go:28 | `Less` is a strict total order on distinct names, as `sort.Interface` requires |
| Artists.Swap | lib/mpdclient/artist.go:29 | the two names trade places, the rest stay, and the list is a permutation of the old one |
| Artists.SwapTwice | lib/mpdclient/artist.go:29 | swapping twice restores the list |
| Id3Tags.LastSeparator | pkg/id3tags/id3tags.go:91-92 | the last `: ` in the range, as a greedy `.*` before it finds it |
| Id3Tags.FrameMatch | pkg/id3tags/id3tags.go:91-109 | a line of the frame with a `: ` gives what follows the last one; a line of the frame with no `: ` gives nothing |
| Id3Tags.FirstFrame | pkg/id3tags/id3tags.go:91-112 | the value of the first line that is not skipped and matches, or the "no frame found" error exactly when there is none |
| Id3Tags.ReadFrame | pkg/id3tags/id3tags.go:83-113 | a failed tool run is passed on with its prefix; otherwise the listing is read line by line |
| Id3Tags.TrackFrameMatch | pkg/id3tags/id3tags.go:102-109 | the track line the tool prints for a number gives that number back |
| Id3Tags.ReadTrackFrame | pkg/id3tags/id3tags.go:83-113 | reading the track frame of that listing gives the number |
| Id3Tags.GetRating | pkg/id3tags/id3tags.go:231-250 | a missing or empty frame is unknown; otherwise it is the parsed number, or an error when it does not parse |
| Id3Tags.SetRating | pkg/id3tags/id3tags.go:215-229 | only ratings strictly between 0 and MaxInt32-1 are written, and then returned; others give the range error |
| Id3Tags.RatingReadBack | pkg/id3tags/id3tags.go:215-250 | a rating written in range is the rating read back |
| Id3Tags.Decrease | pkg/id3tags/id3tags.go:252-275 | unknown and zero stay as they are; any other rating is lowered by one and written |
| Id3Tags.Increase | pkg/id3tags/id3tags.go:277-300 | unknown and the maximum stay as they are; any other rating is raised by one and written |
| Id3Tags.IncreaseThenDecrease | pkg/id3tags/id3tags.go:252-300 | within the writable range, a vote up and then a vote down restore the rating |
| Id3Tags.IncreaseStored | pkg/id3tags/id3tags.go:277-300 | a vote up on a stored rating gives the next one |
| Id3Tags.DecreaseStored | pkg/id3tags/id3tags.go:252-275 | a vote down on a stored rating gives the one before |
| Id3Tags.RatingBounds | pkg/id3tags/id3tags.go:215-275 | voting 1 down or MaxInt32-2 up fails the range check, and zero stays zero |
| Id3Tags.SetSubmitter | pkg/id3tags/id3tags.go:134-152 | the submitter is written, trimmed, only when the comment frame is empty; an existing submitter is refused |
| Id3Tags.FileNameMatch | pkg/id3tags/id3tags.go:175-209 | a file header line gives the file name between the prefix and the colon |
| Id3Tags.SubmitterMatch | pkg/id3tags/id3tags.go:175-209 | a comment line gives the text after its prefix |
| Id3Tags.ScanLine | pkg/id3tags/id3tags.go:175-209 | a line never forgets a file already recorded, and recording resets the pending name and submitter |
| Id3Tags.GetAllSubmitters | pkg/id3tags/id3tags.go:154-212 | no map exactly when the tool run fails |
| Id3Tags.ScanConcat | pkg/id3tags/id3tags.go:175-209 | scanning two listings one after the other is scanning them joined |
| Id3Tags.EntryRecords | pkg/id3tags/id3tags.go:175-209 | a header line and its comment line record that file's submitter |
| Id3Tags.SubmittersOfListing | pkg/id3tags/id3tags.go:154-212 | a listing of files with their comments gives the map from each file to its submitter |
| Id3Tags.OtherCommentForgetsFile | pkg/id3tags/id3tags.go:175-209 | a line that comes between a header and its comment makes the file go unrecorded |
| Mp3Lib.GetRating | lib/mp3lib/functions.go:32-63 | a missing or unopenable file, an empty year and a year that does not parse are unknown; otherwise the rating is the parsed year |
| Mp3Lib.SetRating | lib/mp3lib/functions.go:13-30 | writes the decimal rating to the year of an openable file and returns it, with no range check; otherwise unknown and nothing changes |
| Mp3Lib.SetThenGet | lib/mp3lib/functions.go:13-63 | a rating written is the rating read back |
| Mp3Lib.SetRatingOnlyTouches | lib/mp3lib/functions.go:13-30 | every other file is left as it was |
| Mp3Lib.DecreaseRating | lib/mp3lib/functions.go:65-84 | unknown and zero stay as they are; any other rating is lowered by one (64-bit) and written |
| Mp3Lib.IncreaseRating | lib/mp3lib/functions.go:86-106 | unknown and 10 stay as they are; any other rating is raised by one (64-bit) and written |
| Mp3Lib.RatedReads | lib/mp3lib/functions.go:32-63 | a track stored with a rating from 0 to 10 reads as that rating |
| Mp3Lib.DecreaseAfterIncrease | lib/mp3lib/functions.go:65-106 | below 10, a vote down after a vote up restores the answer and the file |
| Mp3Lib.VotesStayOnScale | lib/mp3lib/functions.go:65-106 | starting from 0 to 10, votes keep the answer and the stored rating on that scale |
| Mp3Lib.RemoveFile | lib/mp3lib/functions.go:108-126 | true exactly when the file under the library directory exists and is removed, and then only that path is gone |
| Mp3Lib.RemoveOnce | lib/mp3lib/functions.go:108-126 | removing the same file a second time fails, and other paths are unaffected |
| FixTags.FirstSeparator | cmd/mbfixtags/mbfixtags.go:65-73 | the first separator of the list that occurs in the name, or none |
| FixTags.SplitAtFirst | cmd/mbfixtags/mbfixtags.go:67-70 | the name is the text before the first occurrence of the separator, the separator, and the rest |
| FixTags.Guess | cmd/mbfixtags/mbfixtags.go:65-78 | with a separator, the artist and the title around its first occurrence; without one, an unknown artist and the whole name |
| FixTags.ArtistAndTitle | cmd/mbfixtags/mbfixtags.go:65-81 | the guess with spaces trimmed from both ends |
| FixTags.GuessArtistAndTitle | cmd/mbfixtags/mbfixtags.go:65-81 | the separator loop computes that trimmed guess |
| FixTags.FallbackExactly | cmd/mbfixtags/mbfixtags.go:75-78 | the unknown-artist fallback is taken exactly when the name has no dash, no tilde, no space before an underscore and no two spaces in a row |
| FixTags.DuplicateSeparatorUnused | cmd/mbfixtags/mbfixtags.go:26 | the second `" - "` of the list is never the one chosen |
| FixTags.SplitAtFirstAgreesWithSplit | cmd/mbfixtags/mbfixtags.go:67-70 | for a one-character separator, the two halves are the first token and the rest |
| FixTags.JoinPath | cmd/mbfixtags/mbfixtags.go:59 | the file name below the directory |
| FixTags.Params | cmd/mbfixtags/mbfixtags.go:83-100 | artist and title flags come first and the file comes last; an unrated file also gets the default rating, and its path is passed twice |
| FixTags.NameOf | cmd/mbfixtags/mbfixtags.go:58 | the name without its 16-character tail; a shorter name panics on the slice |
| FixTags.FixFileAsWritten | cmd/mbfixtags/mbfixtags.go:39-108 | as written, a file whose tags cannot be read dereferences the nil tags and crashes |
| FixTags.ReadErrorCrashes | cmd/mbfixtags/mbfixtags.go:44-52 | one unreadable file is enough for the crash |
| FixTags.FixFile | cmd/mbfixtags/mbfixtags.go:39-108 | the corrected step skips empty names, unreadable files and already tagged files; it otherwise runs the tool on the file, or panics on a name too short to slice |
| FixTags.FixFileRuns | cmd/mbfixtags/mbfixtags.go:56-107 | an untagged file gets the artist and title guessed from its name |
| FixTags.FixFileAgrees | cmd/mbfixtags/mbfixtags.go:39-108 | for readable files the step as written and the corrected step agree |
| FixTags.DownloadedFileGuess | cmd/mbfixtags/mbfixtags.go:56-107 | for a downloaded `<track>-<id>.mp3` file, the guess is made from the track part |
| FixTags.FixEach | cmd/mbfixtags/mbfixtags.go:39-108 | every tool run comes from one of the files, and a crash comes from one of them |
| FixTags.FirstCrash | cmd/mbfixtags/mbfixtags.go:39-108 | the position of the first file whose handling crashes the program, or the file count when none does |
| FixTags.FixEachUpToFirstCrash | cmd/mbfixtags/mbfixtags.go:39-108 | the loop runs the tool for exactly the files before the first crash that need a run, in file order, and ends with that first crash's reason, or with none |
| FixTags.EveryRunRecorded | cmd/mbfixtags/mbfixtags.go:39-108 | when every file needs a run, every file gets its own run, in file order, and nothing crashes |
| FixTags.FixAll | cmd/mbfixtags/mbfixtags.go:31-111 | a failed directory listing is the error with its prefix; otherwise each file is handled in turn |
| FixTags.RunsNameListedFiles | cmd/mbfixtags/mbfixtags.go:39-108 | every run names a listed file as its last argument |
| FixTags.AllTaggedNoRuns | cmd/mbfixtags/mbfixtags.go:49-52 | a directory whose files are all tagged runs nothing |
| MusicBot.RunLength | cmd/musicbot/musicbot.go:149 | the greedy run of command characters, at most the maximum |
| MusicBot.WordAfter | cmd/musicbot/musicbot.go:149-160 | after the command character, two to six command characters, as many as there are; none when fewer than two follow |
| MusicBot.IsValidCommand | cmd/musicbot/musicbot.go:148-169 | true with the word exactly when the word is one of the valid commands; otherwise empty and false |
| MusicBot.CommandWithArgument | cmd/musicbot/musicbot.go:148-169 | a valid command, on its own or followed by an argument, is recognised |
| MusicBot.SixCharacterCap | cmd/musicbot/musicbot.go:148-169 | after six characters the rest is ignored, so `!nextfoo` asks for `nextfo` |
| MusicBot.CommandPrefix | cmd/musicbot/musicbot.go:72 | the exclamation mark and the command word at the start of the line |
| MusicBot.CommandOf | cmd/musicbot/musicbot.go:252-262 | a recognised command is always one of the valid commands, and the word after the line's leading `!`; a command is recognised only when the command character is `!` |
| MusicBot.OtherCharacterRecognisesNothing | cmd/musicbot/musicbot.go:72 | with any command character but `!`, no line is recognised as a command |
| MusicBot.PrefixStepRedundant | cmd/musicbot/musicbot.go:252-262 | with `!` as the command character, the first regular expression changes nothing |
| MusicBot.RuneBytes | cmd/musicbot/musicbot.go:194 | a byte below 0x80 stays itself; any other byte becomes its two-byte UTF-8 encoding |
| MusicBot.StripChannelLoop | cmd/musicbot/musicbot.go:188-198 | the loop appends the conversion of every byte except `#` |
| MusicBot.StripAppend | cmd/musicbot/musicbot.go:188-198 | one more byte adds its piece at the end |
| MusicBot.StripChannelAsWrittenMangles | cmd/musicbot/musicbot.go:188-198 | the bytes of `#é` come back as the bytes of `Ã©` |
| MusicBot.StripChannel | cmd/musicbot/musicbot.go:188-198 | the corrected result has no `#`, and it is a subsequence of the name, shorter by the number of `#` |
| MusicBot.AsciiAgrees | cmd/musicbot/musicbot.go:188-198 | on ASCII names, the loop as written and the corrected one agree |
| MusicBot.StripChannelIdempotent | cmd/musicbot/musicbot.go:188-198 | cleaning a cleaned name changes nothing |
| MusicBot.NoHashUnchanged | cmd/musicbot/musicbot.go:188-198 | a name without `#` is kept |

## Left out

- The DOM, jQuery and page layout are not modelled. This covers the pagination HTML, `calcResultsPerPage`'s viewport arithmetic in floating point, the volume slider and notifications beyond their level and text. The page is the texts it shows.
- `btoa`, `encodeURI` and their inverses are the injective wrapper `Wire`. The model states what the quote codec does inside them.
- `toUpperCase` is modelled on ASCII letters only. There is no Unicode case folding. JavaScript strings and Go strings are sequences of characters, except in `stripChannel`, where the byte-level conversion is the point.
- Go map iteration order is a parameter, a visiting order of the keys. Mutexes, locks and the `defer` close calls are left out.
- Duration.Split: states its exact decomposition only below 2^31 hours. Above that, `~~` wraps to 32 bits. The function follows that wrap, but the model gives no property for it.
- The WebSocket connection, timers and the liquidsoap polling loop are left out. So are the IRC connection and handlers other than command recognition, and the API clients the web handlers call. The API call's outcome and the server's now-playing and queue state are inputs of `Respond`.
- WebUi.Respond: takes every send and every JSON encoding to succeed. The now-playing and queue handlers can fail only then, so the model never gives them a failure reply. The frames it cannot answer (unparsable frames, a `d` that is not a string, a now-playing request before the first fetch) are those of `Turn`. A panic is modelled as the end of the session; Go's recovery and logging of it are left out.
- `json.Marshal` failures are left out. The response structure is modelled instead of its JSON text.
- `fetchDiscogsAsset` (the `/art` path) is the parameter `art` of `AssetHandler`.
- The `id3v2` tool is left out. Its listing output and the outcome of a write are parameters of the id3tags functions.
- The mp3lib disk is a map from path to file. A file `id3.Open` refuses is `Unopenable`, and `os.Stat` is membership.
- `GetAllFiles` of lib/id3tags (lib/id3tags/functions.go:210-236), which mbfixtags calls, is not modelled. It reads the directory and fails when the read fails. It keeps only names ending in `.mp3`, appends them after as many empty strings as the directory has entries, and sorts the list, so the empty strings come first. Those empty names are why the fixer skips empty entries. `FixAll` takes its result, a list or an error, as a parameter.
- FixTags.JoinPath: joins with `/` only. It does not clean the path as `path.Join` does.
- PlayQueue.Promote: tracks are values. The source queues `*dbclient.Track` pointers and no longer refuses a track that is already queued, so one track can sit in two slots. Its `Delete` then lowers that track's priority once per slot, twice for a track queued twice, where the model lowers each slot's copy once.
- PlayQueue.DeleteAsWritten: the priorities it states are those of value tracks, for the reason given for `Promote`. For a track queued twice the source's priorities are lower.
- PlayQueue.Delete: the same holds for the corrected delete. The queue is never constructed by the rest of the program, so the aliasing has no effect today.
- FixTags.FixEach: errors of the `id3v2` runs are only logged in the source, so the model records the runs and not their outcome.
- MusicBot.IsValidCommand: requires the command character to be a single ASCII punctuation character. The source escapes it into a regular expression, and any other configuration builds a different pattern.
- `RequestQueue` pushes of a nil item are not modelled. A pushed item is always a value.
- The `DEC_*` regular expressions of webassets/js/site.js:15-17 are left out. Nothing uses them.
- PlaylistView.OnMessage: takes each reply to carry the payload shape its code announces. The page assigns `response.d` whatever its shape, and the model ignores a reply whose payload has another shape.
- `UpdateSearchResults` with a null reply is left out. A successful search always carries its list of names.
- The configuration file, logging and `main` functions are left out.

## Findings

| source | as written | input that shows it | evidently intended | confidence | as-written member | corrected member |
|---|---|---|---|---|---|---|
| webassets/js/site.js:59-75 | `encodeString` replaces each quote by a three-character escape: bar, letter, bar. `decodeString` undoes them in three whole-string passes. A pass can match the bars of two neighbouring escapes, and the bar itself is never escaped. | the listed artist a, quote, d, quote is looked up as a, bar, s, double quote, s, bar (the list hides names that start with a quote) | decoding gives back every encoded name | high, not executed | PlaylistView.ListedLinkMissesArtist | PlaylistView.LookupFindsArtistFixed |
| lib/webui/webui.go:223-224 | `NewFailedResponse` builds its response with the empty message and drops `msg` | any handler failure, e.g. a failing search | the client's warning shows the handler's error | high, not executed | WebUi.FailedResponseLosesMessage | PlayerClient.FailureReachesUser |
| lib/manager/queue.go:77-100 | `Delete` checks for a track with the id but deletes the map key equal to the id | one track with id 42 in slot 0: deleting 42 succeeds and the track stays | the track with the id leaves the queue | high, not executed | PlayQueue.DeleteAsWrittenKeepsTrack | PlayQueue.Delete |
| lib/manager/queue.go:61-66 | `Add` stores the new track at key `len(items)`, which a delete may have left taken | slots 0 and 1 hold tracks with ids 0 and 7; deleting id 0 empties slot 0, and the next add writes slot 1 over track 7 | adding keeps every queued track | medium, not executed | PlayQueue.AddAsWrittenLosesTrack | PlayQueue.Add |
| cmd/mbfixtags/mbfixtags.go:44-63 | a failure to read a file's tags is only logged; `tags.Artist` is then read from the nil result. The `err` check after the name is computed is dead. | a directory with one file whose tags cannot be read | skip the file and go on | high, not executed | FixTags.ReadErrorCrashes | FixTags.FixFile |
| cmd/musicbot/musicbot.go:188-198 | `string(channel[i])` turns each byte into the UTF-8 encoding of that code point | the channel `#é` (bytes 23 C3 A9) becomes bytes C3 83 C2 A9 | remove `#` and keep every other byte | high, not executed | MusicBot.StripChannelAsWrittenMangles | MusicBot.StripChannel |

=== FILE: artists.dfy ===
/** The artist list of lib/mpdclient/artist.go: a slice of names with
    `sort.Interface`. Go compares strings byte by byte in UTF-8, and UTF-8
    keeps the order of code points, so the order is stated on characters. */
module Artists {
  type Artists = seq<string>

  /** Go's `<` on strings: lexicographic, a proper prefix first. */
  predicate StrLess(x: string, y: string)
    decreases |x|
  {
    if |x| == 0 then |y| > 0
    else if |y| == 0 then false
    else if x[0] != y[0] then x[0] < y[0]
    else StrLess(x[1..], y[1..])
  }

  lemma {:induction false} StrLessIrreflexive(x: string)
    ensures !StrLess(x, x)
    decreases |x|
  {
    if |x| > 0 {
      StrLessIrreflexive(x[1..]);
    }
  }

  lemma {:induction false} StrLessTransitive(x: string, y: string, z: string)
    requires StrLess(x, y) && StrLess(y, z)
    ensures StrLess(x, z)
    decreases |x|
  {
    if |x| > 0 && |y| > 0 && |z| > 0 && x[0] == y[0] && y[0] == z[0] {
      StrLessTransitive(x[1..], y[1..], z[1..]);
    }
  }

  /** Any two different names are ordered one way or the other. */
  lemma {:induction false} StrLessTotal(x: string, y: string)
    requires x != y
    ensures StrLess(x, y) || StrLess(y, x)
    decreases |x|
  {
    if |x| > 0 && |y| > 0 && x[0] == y[0] {
      assert x[1..] != y[1..] by {
        assert x == [x[0]] + x[1..] && y == [y[0]] + y[1..];
      }
      StrLessTotal(x[1..], y[1..]);
    }
  }

  /** `Has`: the loop over the names. */
  method Has(a: Artists, name: string) returns (found: bool)
    ensures found <==> name in a
  {
    var i := 0;
    while i < |a|
      invariant 0 <= i <= |a|
      invariant name !in a[..i]
    {
      if a[i] == name {
        return true;
      }
      i := i + 1;
      assert a[..i] == a[..i - 1] + [a[i - 1]];
    }
    assert a[..i] == a;
    return false;
  }

  /** `Len` */
  function Len(a: Artists): (n: nat)
    ensures n == |a|
    ensures n == 0 <==> a == []
  {
    |a|
  }

  /** `Less`: the name at `i` sorts before the name at `j`. */
  predicate Less(a: Artists, i: int, j: int)
    requires 0 <= i < |a| && 0 <= j < |a|
  {
    StrLess(a[i], a[j])
  }

  /** `Less` is a strict order on the positions: never `i` before itself,
      and for different names exactly one of the two ways round. */
  lemma LessStrict(a: Artists, i: int, j: int)
    requires 0 <= i < |a| && 0 <= j < |a|
    ensures !Less(a, i, i)
    ensures a[i] != a[j] ==> (Less(a, i, j) <==> !Less(a, j, i))
    ensures a[i] == a[j] ==> !Less(a, i, j) && !Less(a, j, i)
  {
    StrLessIrreflexive(a[i]);
    StrLessIrreflexive(a[j]);
    if a[i] != a[j] {
      StrLessTotal(a[i], a[j]);
      if Less(a, i, j) && Less(a, j, i) {
        StrLessTransitive(a[i], a[j], a[i]);
      }
    }
  }

  /** `Swap`: the names at `i` and `j` trade places. */
  function Swap(a: Artists, i: int, j: int): (r: Artists)
    requires 0 <= i < |a| && 0 <= j < |a|
    ensures |r| == |a|
    ensures r[i] == a[j] && r[j] == a[i]
    ensures forall k :: 0 <= k < |a| && k != i && k != j ==> r[k] == a[k]
    ensures multiset(r) == multiset(a)
  {
    a[i := a[j]][j := a[i]]
  }

  /** Swapping twice restores the list. */
  lemma SwapTwice(a: Artists, i: int, j: int)
    requires 0 <= i < |a| && 0 <= j < |a|
    ensures Swap(Swap(a, i, j), i, j) == a
  {
  }
}

=== FILE: duration.dfy ===
/** `prettyDuration` of the two browser clients (webassets/js/site.js and
    webui_assets/js/player.js, which carry the same function): a track length
    in seconds shown as hours, minutes and seconds, leading zero units left
    out. */
module Duration {
  import opened Wrappers
  import opened Numeric

  /** The parts JavaScript computes: `~~` truncates a quotient to a signed
      32-bit integer, `%` keeps the sign of the dividend, and `Math.floor`
      of an integer is the integer itself. */
  datatype Parts = Parts(hours: int, minutes: int, seconds: int)

  /** Below this bound the hour count fits in 32 bits and `~~` does not wrap. */
  const ExactBelow: int := 0x8000_0000 * 3600

  function Split(d: int): (p: Parts)
    ensures 0 <= d < ExactBelow ==>
      && p.hours * 3600 + p.minutes * 60 + p.seconds == d
      && p.hours >= 0 && 0 <= p.minutes < 60 && 0 <= p.seconds < 60
  {
    SplitExact(d);
    Parts(ToInt32(TruncDiv(d, 3600)), ToInt32(TruncDiv(TruncRem(d, 3600), 60)), TruncRem(d, 60))
  }

  /** Euclidean division of a non-negative duration into hours, minutes and
      seconds. */
  lemma SplitExact(d: int)
    ensures 0 <= d < ExactBelow ==>
      var h, r := d / 3600, d % 3600;
      && h < 0x8000_0000 && r / 60 < 60
      && h * 3600 + r / 60 * 60 + d % 60 == d
  {
    if 0 <= d < ExactBelow {
      var h, r := d / 3600, d % 3600;
      var m, s := r / 60, r % 60;
      assert d == h * 3600 + r;
      assert r == m * 60 + s;
      assert d == (h * 60 + m) * 60 + s;
      UniqueRemainder(d, h * 60 + m, s, 60);
    }
  }

  lemma UniqueRemainder(d: int, q: int, s: int, b: int)
    requires b > 0 && 0 <= s < b && d == q * b + s
    ensures d % b == s
  {
    var q', s' := d / b, d % b;
    assert (q - q') * b == s' - s;
    SmallMultiple(q - q', b);
  }

  lemma SmallMultiple(k: int, b: int)
    requires b > 0 && -b < k * b < b
    ensures k == 0
  {
    MultipleBounds(k, b);
  }

  lemma MultipleBounds(k: int, b: int)
    requires b > 0
    ensures k >= 1 ==> k * b >= b
    ensures k <= -1 ==> k * b <= -b
  {
  }

  function PrettyDuration(d: int): (r: string)
    ensures |r| > 0 && r[|r| - 1] == 's'
  {
    Render(Split(d))
  }

  /** The rendering of the parts: a unit is shown when it or a larger one is
      positive. */
  function Render(p: Parts): string
  {
    if p.hours > 0 then Itoa(p.hours) + "h" + Itoa(p.minutes) + "m" + Itoa(p.seconds) + "s"
    else if p.minutes > 0 then Itoa(p.minutes) + "m" + Itoa(p.seconds) + "s"
    else Itoa(p.seconds) + "s"
  }

  // ---------------------------------------------------------------------
  // A reader for the rendering, as the independent reference.

  /** Length of the run of decimal digits at the front of `t`. */
  function DigitRun(t: string): (k: nat)
    ensures k <= |t| && AllDigits(t[..k])
    ensures k < |t| ==> !IsDigit(t[k])
    decreases |t|
  {
    if |t| > 0 && IsDigit(t[0]) then
      var k := 1 + DigitRun(t[1..]);
      assert t[..k] == [t[0]] + t[1..][..k - 1];
      k
    else 0
  }

  function UnitSeconds(u: char): int
  {
    if u == 'h' then 3600 else if u == 'm' then 60 else 1
  }

  /** Reads a sequence of `<digits><unit>` groups, units among `h`, `m`, `s`,
      and adds up their seconds. */
  function ParseDuration(t: string): Option<int>
    decreases |t|
  {
    if |t| == 0 then Some(0)
    else
      var k := DigitRun(t);
      if k == 0 || k == |t| || t[k] !in "hms" then None
      else match ParseDuration(t[k + 1..])
        case None => None
        case Some(rest) => Some(DigitsValue(t[..k]) * UnitSeconds(t[k]) + rest)
  }

  /** The digit run of a digit string followed by a non-digit is that string. */
  lemma {:induction false} DigitRunOfDigits(a: string, rest: string)
    requires AllDigits(a)
    requires |rest| > 0 && !IsDigit(rest[0])
    ensures DigitRun(a + rest) == |a|
    decreases |a|
  {
    if |a| > 0 {
      assert (a + rest)[1..] == a[1..] + rest;
      DigitRunOfDigits(a[1..], rest);
    }
  }

  /** One group of the rendering is read back as its number of seconds. */
  lemma ParseGroup(n: nat, u: char, rest: string, v: int)
    requires u in "hms" && ParseDuration(rest) == Some(v)
    ensures ParseDuration(NatToString(n) + [u] + rest) == Some(n * UnitSeconds(u) + v)
  {
    var a := NatToString(n);
    var t := a + [u] + rest;
    assert t == a + ([u] + rest);
    DigitRunOfDigits(a, [u] + rest);
    assert t[..|a|] == a;
    assert t[|a|] == u;
    assert t[|a| + 1..] == rest;
    DigitsValueOfNatToString(n);
  }

  /** Reading the rendering back gives the duration, for every duration the
      32-bit hour count can hold. */
  lemma PrettyDurationRoundTrip(d: int)
    requires 0 <= d < ExactBelow
    ensures ParseDuration(PrettyDuration(d)) == Some(d)
  {
    var p := Split(d);
    ReadParts(p);
  }

  lemma ReadParts(p: Parts)
    requires p.hours >= 0 && 0 <= p.minutes && 0 <= p.seconds
    ensures ParseDuration(Render(p)) == Some(p.hours * 3600 + p.minutes * 60 + p.seconds)
  {
    var h, m, s := p.hours, p.minutes, p.seconds;
    if h > 0 {
      assert Render(p) == Itoa(h) + "h" + Itoa(m) + "m" + Itoa(s) + "s";
      ReadHours(h, m, s);
    } else if m > 0 {
      assert Render(p) == Itoa(m) + "m" + Itoa(s) + "s";
      ReadMinutes(m, s);
      assert h * 3600 + m * 60 + s == m * 60 + s;
    } else {
      assert Render(p) == Itoa(s) + "s";
      ReadSeconds(s);
      assert h * 3600 + m * 60 + s == s;
    }
  }

  lemma ReadSeconds(s: nat)
    ensures ParseDuration(Itoa(s) + "s") == Some(s)
  {
    assert ParseDuration("") == Some(0);
    ParseGroup(s, 's', "", 0);
    assert Itoa(s) + "s" + "" == Itoa(s) + "s";
  }

  lemma ReadMinutes(m: nat, s: nat)
    ensures ParseDuration(Itoa(m) + "m" + Itoa(s) + "s") == Some(m * 60 + s)
  {
    ReadSeconds(s);
    ParseGroup(m, 'm', Itoa(s) + "s", s);
    Regroup2(Itoa(m), 'm', Itoa(s), 's');
  }

  lemma ReadHours(h: nat, m: nat, s: nat)
    ensures ParseDuration(Itoa(h) + "h" + Itoa(m) + "m" + Itoa(s) + "s") == Some(h * 3600 + m * 60 + s)
  {
    ReadMinutes(m, s);
    ParseGroup(h, 'h', Itoa(m) + "m" + Itoa(s) + "s", m * 60 + s);
    Regroup3(Itoa(h), 'h', Itoa(m), 'm', Itoa(s), 's');
  }

  /** Two groups of the rendering, regrouped as the first and the rest. */
  lemma Regroup2(a: string, u: char, b: string, x: char)
    ensures a + [u] + b + [x] == a + [u] + (b + [x])
  {
  }

  /** Three groups of the rendering, regrouped as the first and the rest. */
  lemma Regroup3(a: string, u: char, b: string, x: char, c: string, y: char)
    ensures a + [u] + b + [x] + c + [y] == a + [u] + (b + [x] + c + [y])
  {
  }

  /** An hour unit is shown exactly for durations of an hour or more, a
      minute unit exactly for durations of a minute or more. */
  lemma PrettyDurationUnits(d: int)
    requires 0 <= d < ExactBelow
    ensures 'h' in PrettyDuration(d) <==> d >= 3600
    ensures 'm' in PrettyDuration(d) <==> d >= 60
  {
    var p := Split(d);
    var h, m, s := NatToString(p.hours), NatToString(p.minutes), NatToString(p.seconds);
    assert 'h' !in h && 'h' !in m && 'h' !in s && 'm' !in h && 'm' !in m && 'm' !in s by {
      assert forall c :: c in h + m + s ==> IsDigit(c) by {
        assert AllDigits(h) && AllDigits(m) && AllDigits(s);
        forall c | c in h + m + s ensures IsDigit(c) {
          var i :| 0 <= i < |h + m + s| && (h + m + s)[i] == c;
          if i < |h| { assert c == h[i]; }
          else if i < |h| + |m| { assert c == m[i - |h|]; }
          else { assert c == s[i - |h| - |m|]; }
        }
      }
    }
    if p.hours > 0 {
      assert PrettyDuration(d) == h + "h" + m + "m" + s + "s";
    } else if p.minutes > 0 {
      assert PrettyDuration(d) == m + "m" + s + "s";
    } else {
      assert PrettyDuration(d) == s + "s";
    }
  }
}

=== FILE: embed_assets.dfy ===
/** The generator that embeds the web UI's files into the server
    (scripts/embed-assets.go): it walks `./webui_assets`, names every file
    after its path and records its base64 contents and content type. */
module EmbedAssets {
  import opened Strings

  /** `filepath.Walk` hands out cleaned paths, so a file under the asset
      directory arrives as `webui_assets/<path>`. */
  const AssetDir: string := "webui_assets"

  /** The part of a mangled path that names the asset directory. */
  const DirPrefix: string := "webui_assets_"

  /** A path with every `/` and then every `.` replaced by `_`. The server
      applies the same two replacements when it looks an asset up. */
  function Mangle(path: string): (r: string)
    ensures |r| == |path|
    ensures forall i :: 0 <= i < |path| ==> r[i] == if path[i] == '/' || path[i] == '.' then '_' else path[i]
  {
    var a := ReplaceAll(path, "/", "_");
    var b := ReplaceAll(a, ".", "_");
    ReplaceCharPointwise(path, '/', '_');
    ReplaceCharPointwise(a, '.', '_');
    b
  }

  /** `<dir>/<base>.<ext>` is mangled to `<dir>_<base>_<ext>` when the three
      parts hold no `/` and no `.`. */
  lemma MangledFileName(dir: string, base: string, ext: string)
    requires forall i :: 0 <= i < |dir| ==> dir[i] != '/' && dir[i] != '.'
    requires forall i :: 0 <= i < |base| ==> base[i] != '/' && base[i] != '.'
    requires forall i :: 0 <= i < |ext| ==> ext[i] != '/' && ext[i] != '.'
    ensures Mangle(dir + "/" + base + "." + ext) == dir + "_" + base + "_" + ext
  {
    var p := dir + "/" + base + "." + ext;
    var q := dir + "_" + base + "_" + ext;
    var m := Mangle(p);
    forall i | 0 <= i < |p| ensures m[i] == q[i] {
      var a, b := |dir|, |dir| + 1 + |base|;
      if i < a {
        assert p[i] == dir[i] && q[i] == dir[i];
      } else if i == a {
        assert p[i] == '/' && q[i] == '_';
      } else if i < b {
        assert p[i] == base[i - a - 1] && q[i] == base[i - a - 1];
      } else if i == b {
        assert p[i] == '.' && q[i] == '_';
      } else {
        assert p[i] == ext[i - b - 1] && q[i] == ext[i - b - 1];
      }
    }
  }

  /** The asset name: the mangled path with every `webui_assets_` removed. */
  function AssetName(path: string): string
  {
    ReplaceAll(Mangle(path), DirPrefix, "")
  }

  /** The first suffix that matches decides; note that the style-sheet test
      is on `css` without the dot. */
  function ContentType(path: string): string
  {
    if EndsWith(path, ".html") then "text/html"
    else if EndsWith(path, "css") then "text/css"
    else if EndsWith(path, ".js") then "text/javascript"
    else if EndsWith(path, ".ico") then "image/x-icon"
    else if EndsWith(path, ".png") then "image/png"
    else "text/plain"
  }

  /** One generated map entry. */
  datatype Asset = Asset(data: string, contentType: string)

  /** What the walk visits, in its order. */
  datatype Node = File(path: string, contents: string) | Directory(path: string)

  /** The generated entries, in walk order: one per file, none per
      directory. Base64 encoding is the parameter `encode`. */
  function Embed(walk: seq<Node>, encode: string -> string): (entries: seq<(string, Asset)>)
    ensures |entries| == |Files(walk)|
    ensures forall i :: 0 <= i < |entries| ==>
      var f := Files(walk)[i];
      entries[i] == (AssetName(f.path), Asset(encode(f.contents), ContentType(f.path)))
    decreases |walk|
  {
    if |walk| == 0 then []
    else if walk[0].Directory? then
      assert Files(walk) == Files(walk[1..]);
      Embed(walk[1..], encode)
    else
      var f := walk[0];
      var rest := Embed(walk[1..], encode);
      var entries := [(AssetName(f.path), Asset(encode(f.contents), ContentType(f.path)))] + rest;
      assert Files(walk) == [f] + Files(walk[1..]);
      assert forall i :: 1 <= i < |entries| ==> entries[i] == rest[i - 1] && Files(walk)[i] == Files(walk[1..])[i - 1];
      entries
  }

  /** The files of a walk, in order. */
  function Files(walk: seq<Node>): (fs: seq<Node>)
    ensures forall i :: 0 <= i < |fs| ==> fs[i].File? && fs[i] in walk
    ensures forall n :: n in walk && n.File? ==> n in fs
    decreases |walk|
  {
    if |walk| == 0 then []
    else if walk[0].Directory? then Files(walk[1..])
    else [walk[0]] + Files(walk[1..])
  }

  /** Each of the five recognised extensions gets its content type. */
  lemma ContentTypeOfExtension(base: string)
    ensures ContentType(base + ".html") == "text/html"
    ensures ContentType(base + ".css") == "text/css"
    ensures ContentType(base + ".js") == "text/javascript"
    ensures ContentType(base + ".ico") == "image/x-icon"
    ensures ContentType(base + ".png") == "image/png"
  {
    EndsWithExtension(base, ".html");
    EndsWithExtension(base, ".css");
    EndsWithExtension(base, ".js");
    EndsWithExtension(base, ".ico");
    EndsWithExtension(base, ".png");
    var c, j := base + ".css", base + ".js";
    assert EndsWith(c, "css") by { assert c[|c| - 3..] == ".css"[1..]; }
    assert !EndsWith(j, "css") by { assert j[|j| - 2] == 'j'; }
    LastDiffers(base + ".css", ".html");
    LastDiffers(base + ".js", ".html");
    LastDiffers(base + ".ico", ".html");
    LastDiffers(base + ".ico", "css");
    LastDiffers(base + ".ico", ".js");
    LastDiffers(base + ".png", ".html");
    LastDiffers(base + ".png", "css");
    LastDiffers(base + ".png", ".js");
    LastDiffers(base + ".png", ".ico");
  }

  lemma EndsWithExtension(base: string, ext: string)
    ensures EndsWith(base + ext, ext)
  {
    assert (base + ext)[|base + ext| - |ext|..] == ext;
  }

  /** A string does not end with a suffix whose last character differs. */
  lemma LastDiffers(s: string, x: string)
    requires |s| > 0 && |x| > 0 && s[|s| - 1] != x[|x| - 1]
    ensures !EndsWith(s, x)
  {
    if |x| <= |s| {
      assert s[|s| - |x|..][|x| - 1] == s[|s| - 1];
    }
  }

  /** A file under the asset directory is named after its path below that
      directory, mangled, unless that mangled path itself holds the
      directory's mangled name. */
  lemma {:induction false} AssetNameBelowDir(p: string)
    requires !Contains(Mangle(p), DirPrefix)
    ensures AssetName(AssetDir + "/" + p) == Mangle(p)
  {
    var full := AssetDir + "/" + p;
    var m := Mangle(full);
    assert m == DirPrefix + Mangle(p) by {
      assert |m| == |DirPrefix + Mangle(p)|;
      forall i | 0 <= i < |m| ensures m[i] == (DirPrefix + Mangle(p))[i] {
        if i >= |DirPrefix| {
          assert full[i] == p[i - |DirPrefix|];
        }
      }
    }
    assert StartsWith(m, DirPrefix) by { assert m[..|DirPrefix|] == DirPrefix; }
    assert m[|DirPrefix|..] == Mangle(p);
    ReplaceAbsent(Mangle(p), DirPrefix, "");
  }
}

=== FILE: fixtags.dfy ===
/** The tag repair command of cmd/mbfixtags/mbfixtags.go: for every file of a
    directory whose artist, title or rating is missing, the artist and title
    are guessed from the file name and written with the `id3v2` tool. The
    tool runs and the directory listing are parameters. */
module FixTags {
  import opened Wrappers
  import opened Strings
  import opened Numeric
  import Utils
  import Id3Tags

  const UnknownArtist: string := "Unknown Artist"

  /** The separators tried between artist and title, in this order. The
      eighth repeats the first, so it is never the one chosen. */
  const Separators: seq<string> := [" - ", " -- ", " _ ", "    ", "   ", "  ", " ~ ", " - ", "-", " _", "~"]

  /** The fields of `id3tags.Tags` the command reads. */
  datatype Tags = Tags(artist: string, title: string, rating: int)

  /** Files with an artist, a title and a rating are left alone. */
  predicate AlreadyTagged(t: Tags)
  {
    t.artist != "" && t.title != "" && t.rating != 0
  }

  // ---------------------------------------------------------------------
  // Artist and title from the name

  /** The first separator, from position `k` of the list on, that occurs in
      the name. */
  function FirstSeparator(name: string, k: nat): (r: Option<nat>)
    requires k <= |Separators|
    ensures r.Some? ==> k <= r.value < |Separators| && Contains(name, Separators[r.value])
    ensures r.Some? ==> forall j :: k <= j < r.value ==> !Contains(name, Separators[j])
    ensures r.None? ==> forall j :: k <= j < |Separators| ==> !Contains(name, Separators[j])
    decreases |Separators| - k
  {
    if k == |Separators| then None
    else if Contains(name, Separators[k]) then Some(k)
    else FirstSeparator(name, k + 1)
  }

  /** `tokens[0]` and `strings.Join(tokens[1:], sep)` for
      `tokens := strings.Split(name, sep)`: the text before the first
      occurrence of the separator and the text after it. */
  function SplitAtFirst(name: string, sep: string): (r: (string, string))
    requires Contains(name, sep)
    ensures r.0 + sep + r.1 == name
    ensures OccursAt(name, sep, |r.0|)
    ensures forall j :: 0 <= j < |r.0| ==> !OccursAt(name, sep, j)
  {
    var i := IndexOf(name, sep);
    assert name[..i] + sep + name[i + |sep|..] == name by {
      assert name[i..i + |sep|] == sep;
      assert name == name[..i] + name[i..i + |sep|] + name[i + |sep|..];
    }
    (name[..i], name[i + |sep|..])
  }

  /** Artist and title before trimming: split at the first listed separator
      that occurs, or the unknown artist and the whole name. */
  function Guess(name: string): (r: (string, string))
    ensures FirstSeparator(name, 0).Some? ==>
      r.0 + Separators[FirstSeparator(name, 0).value] + r.1 == name
    ensures FirstSeparator(name, 0).None? ==> r == (UnknownArtist, name)
  {
    match FirstSeparator(name, 0)
    case Some(k) => SplitAtFirst(name, Separators[k])
    case None => (UnknownArtist, name)
  }

  /** Artist and title as written to the tags, white space trimmed. */
  function ArtistAndTitle(name: string): (r: (string, string))
    ensures r == (TrimSpace(Guess(name).0), TrimSpace(Guess(name).1))
    ensures FirstSeparator(name, 0).None? ==> r.0 == UnknownArtist && r.1 == TrimSpace(name)
  {
    var (artist, title) := Guess(name);
    assert TrimSpace(UnknownArtist) == UnknownArtist by {
      assert LeadingSpaces(UnknownArtist) == 0 by {
        assert !IsSpace(UnknownArtist[0]);
      }
      assert !IsSpace(UnknownArtist[|UnknownArtist| - 1]);
    }
    (TrimSpace(artist), TrimSpace(title))
  }

  /** The separator loop with its `break`, then the fallback and the
      trimming, as the command runs them. */
  method GuessArtistAndTitle(name: string) returns (artist: string, title: string)
    ensures (artist, title) == ArtistAndTitle(name)
    ensures FirstSeparator(name, 0).None? ==> artist == UnknownArtist
    ensures FirstSeparator(name, 0).Some? ==>
      exists a, t :: a + Separators[FirstSeparator(name, 0).value] + t == name
        && artist == TrimSpace(a) && title == TrimSpace(t)
  {
    var foundInfo := false;
    artist := "";
    title := "";
    var i := 0;
    while !foundInfo && i < |Separators|
      invariant 0 <= i <= |Separators|
      invariant !foundInfo ==> FirstSeparator(name, 0) == FirstSeparator(name, i)
      invariant foundInfo ==> FirstSeparator(name, 0).Some? && (artist, title) == Guess(name)
      decreases |Separators| - i, if foundInfo then 0 else 1
    {
      var sep := Separators[i];
      if Contains(name, sep) {
        var tokens := SplitAtFirst(name, sep);
        artist := tokens.0;
        title := tokens.1;
        foundInfo := true;
      } else {
        i := i + 1;
      }
    }
    if !foundInfo {
      artist := UnknownArtist;
      title := name;
    }
    artist := TrimSpace(artist);
    title := TrimSpace(title);
  }

  /** Where `sub` occurs inside `big`, a text without `sub` cannot hold
      `big` either. */
  lemma AbsentInner(s: string, big: string, sub: string, off: nat)
    requires OccursAt(big, sub, off) && !Contains(s, sub)
    ensures !Contains(s, big)
  {
    forall i | 0 <= i <= |s| && OccursAt(s, big, i)
      ensures false
    {
      forall k | 0 <= k < |sub|
        ensures s[i + off + k] == sub[k]
      {
        assert big[off..off + |sub|][k] == big[off + k];
        assert s[i..i + |big|][off + k] == s[i + off + k];
      }
      assert s[i + off..i + off + |sub|] == sub;
      assert OccursAt(s, sub, i + off);
    }
  }

  /** The name falls back to the unknown artist exactly when it holds no
      dash, no tilde, no space before an underscore and no two spaces in a
      row: every listed separator contains one of those four. */
  lemma FallbackExactly(name: string)
    ensures FirstSeparator(name, 0).None? <==>
      !Contains(name, "-") && !Contains(name, "~") && !Contains(name, " _") && !Contains(name, "  ")
  {
    assert Separators[8] == "-" && Separators[10] == "~" && Separators[9] == " _" && Separators[5] == "  ";
    if !Contains(name, "-") && !Contains(name, "~") && !Contains(name, " _") && !Contains(name, "  ") {
      AbsentInner(name, Separators[0], "-", 1);
      AbsentInner(name, Separators[1], "-", 1);
      AbsentInner(name, Separators[2], " _", 0);
      AbsentInner(name, Separators[3], "  ", 0);
      AbsentInner(name, Separators[4], "  ", 0);
      AbsentInner(name, Separators[6], "~", 1);
      AbsentInner(name, Separators[7], "-", 1);
      assert forall j :: 0 <= j < |Separators| ==> !Contains(name, Separators[j]);
    }
  }

  /** The repeated `" - "` in eighth place is never the chosen separator. */
  lemma DuplicateSeparatorUnused(name: string)
    ensures FirstSeparator(name, 0) != Some(7)
  {
    assert Separators[7] == Separators[0];
  }

  /** On a one-character separator, the split at the first occurrence is
      what `strings.Split` followed by `strings.Join` of the tail gives. */
  lemma SplitAtFirstAgreesWithSplit(name: string, c: char)
    requires Contains(name, [c])
    ensures var tokens := Split(name, c);
      |tokens| >= 2 && SplitAtFirst(name, [c]) == (tokens[0], Join(tokens[1..], c))
  {
    var (a, b) := SplitAtFirst(name, [c]);
    forall j | 0 <= j < |a|
      ensures a[j] != c
    {
      assert !OccursAt(name, [c], j);
      assert name[j..j + 1] == [a[j]];
    }
    assert name == a + [c] + b;
    SplitPrefix(a, b, c);
    JoinSplit(b, c);
    assert Split(name, c)[1..] == Split(b, c);
  }

  // ---------------------------------------------------------------------
  // One file

  /** What the command does for one file name. */
  datatype Outcome =
    | Skipped
    | Run(args: seq<string>)
    | Crash(reason: string)

  /** `path.Join` of the directory and a plain file name. */
  function JoinPath(dir: string, f: string): (p: string)
    ensures dir == "" ==> p == f
    ensures dir != "" ==> p == dir + "/" + f && EndsWith(p, "/" + f)
  {
    if dir == "" then f else dir + "/" + f
  }

  /** The `id3v2` arguments: artist and title, and for a file without a
      rating the track number set to the default rating. The path is given
      twice in that case. */
  function Params(artist: string, title: string, rating: int, fullPath: string): (args: seq<string>)
    ensures |args| >= 5 && args[..4] == ["-a", artist, "-t", title]
    ensures args[|args| - 1] == fullPath
    ensures rating == 0 <==> |args| == 8
    ensures rating == 0 ==> args[4..6] == ["-T", Itoa(Id3Tags.RatingDefault)] && args[6] == fullPath
    ensures rating != 0 ==> |args| == 5
  {
    assert Itoa(Id3Tags.RatingDefault) == "5";
    if rating == 0 then ["-a", artist, "-t", title, "-T", "5", fullPath, fullPath]
    else ["-a", artist, "-t", title, fullPath]
  }

  /** The name without its `-<id>.mp3` tail; Go panics when the file name
      is shorter than the tail. */
  function NameOf(fname: string): (r: Result<string>)
    ensures |fname| >= Utils.YidTail <==> r.Ok?
    ensures r.Ok? ==> r.value + fname[|fname| - Utils.YidTail..] == fname
    ensures r.Err? ==> r.msg == "slice bounds out of range"
  {
    if |fname| < Utils.YidTail then Err("slice bounds out of range")
    else
      assert fname == fname[..|fname| - Utils.YidTail] + fname[|fname| - Utils.YidTail..];
      Ok(fname[..|fname| - Utils.YidTail])
  }

  /** One pass of the loop body as written: after a failed tag read the
      warning is logged, and the nil tags are then dereferenced. */
  function FixFileAsWritten(dirName: string, fname: string, tags: Result<Tags>): (r: Outcome)
    ensures fname == "" ==> r.Skipped?
    ensures fname != "" && tags.Err? ==> r == Crash("nil pointer dereference")
    ensures fname != "" && tags.Ok? ==> r == FixFile(dirName, fname, tags)
  {
    if fname == "" then Skipped
    else match tags
      case Err(_) => Crash("nil pointer dereference")
      case Ok(_) => FixFile(dirName, fname, tags)
  }

  /** A file whose tags cannot be read stops the whole command. */
  lemma ReadErrorCrashes(dirName: string)
    ensures FixFileAsWritten(dirName, "a-abcdefghijk.mp3", Err("exit status 1")).Crash?
  {
  }

  /** One pass of the loop body, a failed tag read skipping the file as the
      warning and the later `continue` on that error intend. */
  function FixFile(dirName: string, fname: string, tags: Result<Tags>): (r: Outcome)
    ensures fname == "" || tags.Err? ==> r.Skipped?
    ensures tags.Ok? && AlreadyTagged(tags.value) ==> r.Skipped?
    ensures r.Crash? <==> fname != "" && tags.Ok? && !AlreadyTagged(tags.value) && |fname| < Utils.YidTail
    ensures r.Run? ==> fname != "" && tags.Ok? && !AlreadyTagged(tags.value) && |fname| >= Utils.YidTail
    ensures r.Run? ==> |r.args| > 0 && r.args[|r.args| - 1] == JoinPath(dirName, fname)
  {
    if fname == "" then Skipped
    else match tags
      case Err(_) => Skipped
      case Ok(t) =>
        if AlreadyTagged(t) then Skipped
        else match NameOf(fname)
          case Err(e) => Crash(e)
          case Ok(name) =>
            var (artist, title) := ArtistAndTitle(name);
            Run(Params(artist, title, t.rating, JoinPath(dirName, fname)))
  }

  /** A file that needs fixing and is long enough to carry the id tail is
      tagged with the artist and title guessed from the rest of its name. */
  lemma FixFileRuns(dirName: string, fname: string, tags: Tags)
    requires !AlreadyTagged(tags) && |fname| >= Utils.YidTail
    ensures var (artist, title) := ArtistAndTitle(fname[..|fname| - Utils.YidTail]);
      FixFile(dirName, fname, Ok(tags)) == Run(Params(artist, title, tags.rating, JoinPath(dirName, fname)))
  {
  }

  /** The two agree on every file whose tags can be read; only the failed
      read differs, where the corrected one moves on. */
  lemma FixFileAgrees(dirName: string, fname: string, tags: Result<Tags>)
    ensures tags.Ok? ==> FixFileAsWritten(dirName, fname, tags) == FixFile(dirName, fname, tags)
    ensures fname != "" && tags.Err? ==>
      FixFileAsWritten(dirName, fname, tags).Crash? && FixFile(dirName, fname, tags).Skipped?
  {
  }

  /** A file in the download naming scheme gets the artist and title from
      the part of its name before the id. */
  lemma DownloadedFileGuess(dirName: string, prefix: string, id: string, dot: char, tags: Tags)
    requires Utils.IsYid(id) && dot != '\n' && !AlreadyTagged(tags)
    ensures var fname := prefix + "-" + id + [dot] + "mp3";
      var (artist, title) := ArtistAndTitle(prefix);
      FixFile(dirName, fname, Ok(tags)) == Run(Params(artist, title, tags.rating, JoinPath(dirName, fname)))
  {
    var fname := prefix + "-" + id + [dot] + "mp3";
    assert |fname| == |prefix| + 16;
    assert fname[..|fname| - Utils.YidTail] == prefix;
  }

  // ---------------------------------------------------------------------
  // The directory

  /** What a run over a directory did: the `id3v2` argument lists in order,
      and the reason it stopped early, if it did. */
  datatype Report = Report(runs: seq<seq<string>>, crash: Option<string>)

  /** The loop body for a directory, as a function of the file name. */
  function Step(dirName: string, tagsOf: string -> Result<Tags>): (step: string -> Outcome)
  {
    f => FixFile(dirName, f, tagsOf(f))
  }

  /** The loop over the listed files: every run is the run of one listed
      file, and a crash is the crash of one listed file. */
  function FixEach(files: seq<string>, step: string -> Outcome): (r: Report)
    ensures |r.runs| <= |files|
    ensures forall i :: 0 <= i < |r.runs| ==> exists j :: 0 <= j < |files| && step(files[j]) == Run(r.runs[i])
    ensures r.crash.Some? ==> exists j :: 0 <= j < |files| && step(files[j]) == Crash(r.crash.value)
    decreases |files|
  {
    if |files| == 0 then Report([], None)
    else
      var rest := FixEach(files[1..], step);
      assert forall j :: 0 <= j < |files[1..]| ==> files[1..][j] == files[j + 1];
      match step(files[0])
      case Skipped => rest
      case Crash(reason) => Report([], Some(reason))
      case Run(args) =>
        var r := Report([args] + rest.runs, rest.crash);
        assert forall i :: 1 <= i < |r.runs| ==> r.runs[i] == rest.runs[i - 1];
        r
  }

  /** The position of the first file whose step crashes, or the number of
      files when none does. */
  function FirstCrash(files: seq<string>, step: string -> Outcome): (k: nat)
    ensures k <= |files|
    ensures forall j :: 0 <= j < k ==> !step(files[j]).Crash?
    ensures k < |files| ==> step(files[k]).Crash?
    decreases |files|
  {
    if |files| == 0 || step(files[0]).Crash? then 0
    else
      assert forall j :: 0 <= j < |files[1..]| ==> files[1..][j] == files[j + 1];
      1 + FirstCrash(files[1..], step)
  }

  /** The argument lists of the files whose step is a run, in order,
      without stopping at a crash. */
  function RunsIn(files: seq<string>, step: string -> Outcome): (runs: seq<seq<string>>)
    ensures |runs| <= |files|
    decreases |files|
  {
    if |files| == 0 then []
    else
      var rest := RunsIn(files[1..], step);
      match step(files[0])
      case Run(args) => [args] + rest
      case _ => rest
  }

  /** The loop runs `id3v2` for every file that needs it, in order, until the
      first crash, and stops there with that crash's reason. */
  lemma {:induction false} FixEachUpToFirstCrash(files: seq<string>, step: string -> Outcome)
    ensures var k := FirstCrash(files, step);
      FixEach(files, step) ==
        Report(RunsIn(files[..k], step), if k < |files| then Some(step(files[k]).reason) else None)
    decreases |files|
  {
    if |files| > 0 && !step(files[0]).Crash? {
      FixEachUpToFirstCrash(files[1..], step);
      var k := FirstCrash(files, step);
      assert k == 1 + FirstCrash(files[1..], step);
      assert files[..k][1..] == files[1..][..k - 1];
      assert files[..k][0] == files[0];
      assert k < |files| ==> files[k] == files[1..][k - 1];
    }
  }

  /** When every file needs a run, every file gets its run, in order, and
      nothing crashes. */
  lemma {:induction false} EveryRunRecorded(files: seq<string>, step: string -> Outcome)
    requires forall j :: 0 <= j < |files| ==> step(files[j]).Run?
    ensures |FixEach(files, step).runs| == |files|
    ensures forall i :: 0 <= i < |files| ==> FixEach(files, step).runs[i] == step(files[i]).args
    ensures FixEach(files, step).crash.None?
    decreases |files|
  {
    if |files| > 0 {
      assert forall j :: 0 <= j < |files[1..]| ==> files[1..][j] == files[j + 1];
      EveryRunRecorded(files[1..], step);
    }
  }

  /** `FixAllId3TagsInDir`: a failed listing is the error. */
  function FixAll(dirName: string, files: Result<seq<string>>, tagsOf: string -> Result<Tags>): (r: Result<Report>)
    ensures files.Err? ==> r == Err("FixAllId3TagsInDir: " + files.msg)
    ensures files.Ok? ==> r == Ok(FixEach(files.value, Step(dirName, tagsOf)))
  {
    match files
    case Err(e) => Err("FixAllId3TagsInDir: " + e)
    case Ok(fs) => Ok(FixEach(fs, Step(dirName, tagsOf)))
  }

  /** Every `id3v2` run of a directory names one of its listed files, as
      the last argument. */
  lemma RunsNameListedFiles(dirName: string, files: seq<string>, tagsOf: string -> Result<Tags>)
    ensures var r := FixEach(files, Step(dirName, tagsOf));
      forall i :: 0 <= i < |r.runs| ==>
        |r.runs[i]| > 0 && exists j :: 0 <= j < |files| && r.runs[i][|r.runs[i]| - 1] == JoinPath(dirName, files[j])
  {
    var r := FixEach(files, Step(dirName, tagsOf));
    forall i | 0 <= i < |r.runs|
      ensures |r.runs[i]| > 0 && exists j :: 0 <= j < |files| && r.runs[i][|r.runs[i]| - 1] == JoinPath(dirName, files[j])
    {
      var j :| 0 <= j < |files| && Step(dirName, tagsOf)(files[j]) == Run(r.runs[i]);
      assert FixFile(dirName, files[j], tagsOf(files[j])) == Run(r.runs[i]);
    }
  }

  /** A directory whose files are all fully tagged is left untouched. */
  lemma {:induction false} AllTaggedNoRuns(dirName: string, files: seq<string>, tagsOf: string -> Result<Tags>)
    requires forall f :: f in files ==> tagsOf(f).Ok? && AlreadyTagged(tagsOf(f).value)
    ensures FixEach(files, Step(dirName, tagsOf)) == Report([], None)
    decreases |files|
  {
    if |files| > 0 {
      assert forall g :: g in files[1..] ==> g in files;
      AllTaggedNoRuns(dirName, files[1..], tagsOf);
      assert Step(dirName, tagsOf)(files[0]) == FixFile(dirName, files[0], tagsOf(files[0]));
    }
  }
}

=== FILE: id3tags.dfy ===
/** Reading and writing the ID3 frames the bot keeps its data in
    (pkg/id3tags/id3tags.go): the track-number frame `TRCK` holds the
    rating and the comment frame `COMM` the submitter. The `id3v2` tool is
    outside the model: its listing output and the outcome of a write are
    parameters (`Result<string>`, the error being the tool's failure). */
module Id3Tags {
  import opened Wrappers
  import opened Strings
  import opened Numeric

  const RatingUnknown: int := -1
  const RatingZero: int := 0
  const RatingToRemove: int := 1
  const RatingDefault: int := 5
  /** `math.MaxInt32 - 1` */
  const RatingMax: int := 0x7FFF_FFFF - 1

  const FrameTrack: string := "TRCK"
  const FrameComment: string := "COMM"

  // ---------------------------------------------------------------------
  // readFrame

  /** The last `": "` at or after `from` and no later than `hi`. */
  function LastSeparator(line: string, from: nat, hi: int): (j: Option<nat>)
    ensures j.Some? ==> from <= j.value <= hi && OccursAt(line, ": ", j.value)
    ensures j.Some? ==> forall k :: j.value < k <= hi ==> !OccursAt(line, ": ", k)
    ensures j.None? ==> forall k :: from <= k <= hi ==> !OccursAt(line, ": ", k)
    decreases hi - from
  {
    if hi < from then None
    else if OccursAt(line, ": ", hi) then Some(hi)
    else LastSeparator(line, from, hi - 1)
  }

  /** The regular expression `^<frame>.*: (.*)$` on one line: the greedy
      `.*` reaches the last `": "`, and the group is the rest of the line. */
  function FrameMatch(line: string, frame: string): (v: Option<string>)
    ensures v.Some? ==> StartsWith(line, frame)
    ensures v.Some? ==> exists j :: |frame| <= j && OccursAt(line, ": ", j) && v.value == line[j + 2..]
    ensures v.Some? ==> !Contains(v.value, ": ")
    ensures StartsWith(line, frame) && (exists j :: |frame| <= j && OccursAt(line, ": ", j)) ==> v.Some?
  {
    if !StartsWith(line, frame) then None
    else match LastSeparator(line, |frame|, |line| - 2)
      case None => None
      case Some(j) =>
        var v := line[j + 2..];
        assert !Contains(v, ": ") by {
          forall k | 0 <= k <= |v| ensures !OccursAt(v, ": ", k) {
            if OccursAt(v, ": ", k) {
              assert line[j + 2 + k..j + 2 + k + 2] == v[k..k + 2];
              assert OccursAt(line, ": ", j + 2 + k);
            }
          }
        }
        Some(v)
  }

  /** The comment listing also shows the ID3v1 comment, which is skipped. */
  predicate Skipped(line: string, frame: string)
  {
    frame == FrameComment && Contains(line, "ID3v1 Comment")
  }

  /** The first line of the listing that is not skipped and matches. */
  function FirstFrame(lines: seq<string>, frame: string): (r: Result<string>)
    ensures r.Ok? <==> exists i :: 0 <= i < |lines| && !Skipped(lines[i], frame) && FrameMatch(lines[i], frame).Some?
    ensures r.Ok? ==> exists i :: (0 <= i < |lines| && !Skipped(lines[i], frame) && FrameMatch(lines[i], frame) == Some(r.value)
      && forall k :: 0 <= k < i ==> Skipped(lines[k], frame) || FrameMatch(lines[k], frame).None?)
    ensures r.Err? ==> r.msg == "no " + frame + " frame found"
    decreases |lines|
  {
    if |lines| == 0 then Err("no " + frame + " frame found")
    else if !Skipped(lines[0], frame) && FrameMatch(lines[0], frame).Some? then
      Ok(FrameMatch(lines[0], frame).value)
    else
      var r := FirstFrame(lines[1..], frame);
      assert forall i :: 1 <= i < |lines| ==> lines[i] == lines[1..][i - 1];
      if r.Ok? then
        var i :| 0 <= i < |lines[1..]| && !Skipped(lines[1..][i], frame) && FrameMatch(lines[1..][i], frame) == Some(r.value)
          && forall k :: 0 <= k < i ==> Skipped(lines[1..][k], frame) || FrameMatch(lines[1..][k], frame).None?;
        assert forall k :: 0 <= k < i + 1 ==> Skipped(lines[k], frame) || FrameMatch(lines[k], frame).None? by {
          forall k | 0 <= k < i + 1 ensures Skipped(lines[k], frame) || FrameMatch(lines[k], frame).None? {
            if k > 0 { assert lines[k] == lines[1..][k - 1]; }
          }
        }
        r
      else r
  }

  /** `readFrame`: the listing of one file, searched line by line. */
  function ReadFrame(listing: Result<string>, frame: string): (r: Result<string>)
    ensures listing.Err? ==> r == Err("tags.runId3v2: " + listing.msg)
    ensures listing.Ok? ==> r == FirstFrame(Split(listing.value, '\n'), frame)
  {
    match listing
    case Err(e) => Err("tags.runId3v2: " + e)
    case Ok(output) => FirstFrame(Split(output, '\n'), frame)
  }

  // ---------------------------------------------------------------------
  // Ratings

  /** The listing line `id3v2` prints for a track-number frame. */
  function TrackLine(value: string): string
  {
    FrameTrack + " (Track number/Position in set): " + value
  }

  /** `GetRating`: a failed read counts as no frame; no frame or an empty
      one is `RatingUnknown`; otherwise the frame must be a decimal number.
      Go's error texts are kept to their fixed prefix. */
  function GetRating(listing: Result<string>): (r: Result<int>)
    ensures ReadFrame(listing, FrameTrack).Err? ==> r == Ok(RatingUnknown)
    ensures ReadFrame(listing, FrameTrack) == Ok("") ==> r == Ok(RatingUnknown)
    ensures r.Ok? && r.value != RatingUnknown ==> Atoi(ReadFrame(listing, FrameTrack).value) == Some(r.value)
    ensures r.Err? ==> ReadFrame(listing, FrameTrack).Ok? && Atoi(ReadFrame(listing, FrameTrack).value).None?
  {
    var result := match ReadFrame(listing, FrameTrack) case Ok(v) => v case Err(_) => "";
    if result != "" then
      match Atoi(result)
      case None => Err("strconv.Atoi:")
      case Some(n) => Ok(n)
    else Ok(RatingUnknown)
  }

  /** `SetRating`: only ratings strictly between `RatingZero` and
      `RatingMax` are written; `write` is the outcome of the write. */
  function SetRating(write: Result<string>, rating: int): (r: Result<int>)
    ensures r.Ok? <==> RatingZero < rating < RatingMax && write.Ok?
    ensures r.Ok? ==> r.value == rating
    ensures !(RatingZero < rating < RatingMax) ==> r == Err("rating must be between 0 and 2147483646")
  {
    if rating <= RatingZero || rating >= RatingMax then Err("rating must be between 0 and 2147483646")
    else match write
      case Err(e) => Err("tags.runId3v2: " + e)
      case Ok(_) => Ok(rating)
  }

  /** `DecreaseRating`: unknown and zero ratings stay; anything else is
      written one lower. From 1 the write of 0 is refused. */
  function DecreaseRating(listing: Result<string>, write: Result<string>): Result<int>
  {
    Decrease(GetRating(listing), write)
  }

  /** The decision `DecreaseRating` takes on the rating it read. */
  function Decrease(current: Result<int>, write: Result<string>): (r: Result<int>)
    ensures current.Err? ==> r.Err?
    ensures current == Ok(RatingUnknown) ==> r == Ok(RatingUnknown)
    ensures current == Ok(RatingZero) ==> r == Ok(RatingZero)
    ensures current.Ok? && current.value != RatingUnknown && current.value != RatingZero ==>
      (r.Ok? <==> RatingZero < current.value - 1 < RatingMax && write.Ok?)
      && (r.Ok? ==> r.value == current.value - 1)
  {
    match current
    case Err(e) => Err("tags.GetRating: " + e)
    case Ok(rating) =>
      if rating == RatingUnknown then Ok(RatingUnknown)
      else if rating == RatingZero then Ok(RatingZero)
      else match SetRating(write, rating - 1)
        case Err(e) => Err("tags.SetRating: " + e)
        case Ok(v) => Ok(v)
  }

  /** `IncreaseRating`: unknown and maximal ratings stay; anything else is
      written one higher. */
  function IncreaseRating(listing: Result<string>, write: Result<string>): Result<int>
  {
    Increase(GetRating(listing), write)
  }

  /** The decision `IncreaseRating` takes on the rating it read. */
  function Increase(current: Result<int>, write: Result<string>): (r: Result<int>)
    ensures current.Err? ==> r.Err?
    ensures current == Ok(RatingUnknown) ==> r == Ok(RatingUnknown)
    ensures current == Ok(RatingMax) ==> r == Ok(RatingMax)
    ensures current.Ok? && current.value != RatingUnknown && current.value != RatingMax ==>
      (r.Ok? <==> RatingZero < current.value + 1 < RatingMax && write.Ok?)
      && (r.Ok? ==> r.value == current.value + 1)
  {
    match current
    case Err(e) => Err("ID3Tags.IncreaseRating: " + e)
    case Ok(rating) =>
      if rating == RatingUnknown then Ok(RatingUnknown)
      else if rating == RatingMax then Ok(RatingMax)
      else match SetRating(write, rating + 1)
        case Err(e) => Err("tags.SetRating: " + e)
        case Ok(v) => Ok(v)
  }

  /** The scan for the last separator stops at the one with none after it. */
  lemma LastSeparatorFinds(line: string, from: nat, hi: int, j: nat)
    requires from <= j <= hi && OccursAt(line, ": ", j)
    requires forall k :: j < k <= hi ==> !OccursAt(line, ": ", k)
    ensures LastSeparator(line, from, hi) == Some(j)
  {
  }

  /** The track frame's line yields its value, when the value holds no
      separator of its own. */
  lemma TrackFrameMatch(n: string)
    requires !Contains(n, ": ")
    ensures FrameMatch(TrackLine(n), FrameTrack) == Some(n)
  {
    var mid := " (Track number/Position in set): ";
    var line := TrackLine(n);
    assert line == FrameTrack + (mid + n);
    PrefixOfConcat(FrameTrack, mid + n, FrameTrack);
    assert line[35] == ':' && line[36] == ' ';
    assert OccursAt(line, ": ", 35);
    forall k | 35 < k <= |line| - 2
      ensures !OccursAt(line, ": ", k)
    {
      if k > 36 {
        assert line[k..k + 2] == n[k - 37..k - 35];
        assert !OccursAt(n, ": ", k - 37);
      }
    }
    LastSeparatorFinds(line, |FrameTrack|, |line| - 2, 35);
    assert line[37..] == n;
  }

  /** A listing of that one line reads as the value. */
  lemma ReadTrackFrame(n: string)
    requires !Contains(n, ": ") && '\n' !in TrackLine(n)
    ensures ReadFrame(Ok(TrackLine(n)), FrameTrack) == Ok(n)
  {
    SplitNoSep(TrackLine(n), '\n');
    TrackFrameMatch(n);
    assert !Skipped(TrackLine(n), FrameTrack);
  }

  /** A number written as the track frame reads back as the same number. */
  lemma RatingReadBack(rating: int)
    requires Int64Min <= rating <= Int64Max
    ensures GetRating(Ok(TrackLine(Itoa(rating)))) == Ok(rating)
  {
    var n := Itoa(rating);
    NoNewline(n);
    NoColonInNumber(rating);
    assert !Contains(n, ": ") by {
      forall k | 0 <= k <= |n| ensures !OccursAt(n, ": ", k) {
        if k < |n| { assert n[k] != ':'; }
      }
    }
    ReadTrackFrame(n);
    AtoiItoa(rating);
  }

  lemma PrefixOfConcat(a: string, b: string, p: string)
    requires StartsWith(a, p)
    ensures StartsWith(a + b, p)
  {
    assert (a + b)[..|p|] == a[..|p|];
  }

  lemma NoNewline(n: string)
    requires |n| > 0 && (n[0] == '-' || IsDigit(n[0])) && AllDigits(n[1..])
    ensures '\n' !in TrackLine(n)
  {
    var pre := FrameTrack + " (Track number/Position in set): ";
    assert '\n' !in pre;
    assert '\n' !in n by {
      forall i | 0 <= i < |n| ensures n[i] != '\n' {
        if i > 0 { assert n[i] == n[1..][i - 1]; }
      }
    }
    assert TrackLine(n) == pre + n;
  }

  lemma NoColonInNumber(rating: int)
    ensures forall i :: 0 <= i < |Itoa(rating)| ==> Itoa(rating)[i] != ':'
  {
    var s := Itoa(rating);
    forall i | 0 <= i < |s| ensures s[i] != ':' {
      if i > 0 { assert s[i] == s[1..][i - 1]; }
    }
  }

  /** Raising a rating and lowering it again gives the rating back, when
      both writes succeed and the tool lists what was written. */
  lemma IncreaseThenDecrease(rating: int, w1: string, w2: string)
    requires RatingZero < rating < RatingMax - 1
    ensures IncreaseRating(Ok(TrackLine(Itoa(rating))), Ok(w1)) == Ok(rating + 1)
    ensures DecreaseRating(Ok(TrackLine(Itoa(rating + 1))), Ok(w2)) == Ok(rating)
  {
    IncreaseStored(rating, w1);
    DecreaseStored(rating + 1, w2);
  }

  lemma IncreaseStored(rating: int, w: string)
    requires RatingZero < rating < RatingMax - 1
    ensures IncreaseRating(Ok(TrackLine(Itoa(rating))), Ok(w)) == Ok(rating + 1)
  {
    RatingReadBack(rating);
  }

  lemma DecreaseStored(rating: int, w: string)
    requires RatingZero + 1 < rating < RatingMax
    ensures DecreaseRating(Ok(TrackLine(Itoa(rating))), Ok(w)) == Ok(rating - 1)
  {
    RatingReadBack(rating);
  }

  /** The rating stays inside its range: lowering from 1 is refused (0 is not
      a rating `SetRating` writes), and raising from `RatingMax - 1` is
      refused too. */
  lemma RatingBounds(w: string)
    ensures DecreaseRating(Ok(TrackLine(Itoa(1))), Ok(w)).Err?
    ensures IncreaseRating(Ok(TrackLine(Itoa(RatingMax - 1))), Ok(w)).Err?
    ensures DecreaseRating(Ok(TrackLine(Itoa(0))), Ok(w)) == Ok(0)
  {
    RatingReadBack(1);
    RatingReadBack(RatingMax - 1);
    RatingReadBack(0);
  }

  // ---------------------------------------------------------------------
  // Submitters

  /** `SetSubmitter`: refused when the comment frame cannot be read or is
      already filled; otherwise the trimmed nickname is written. The result
      is the value written. */
  function SetSubmitter(listing: Result<string>, nickname: string, write: Result<string>): (r: Result<string>)
    ensures r.Ok? <==> ReadFrame(listing, FrameComment) == Ok("") && write.Ok?
    ensures r.Ok? ==> r.value == TrimSpace(nickname)
    ensures ReadFrame(listing, FrameComment).Ok? && ReadFrame(listing, FrameComment).value != "" ==>
      r == Err("track already has a submitter")
  {
    match ReadFrame(listing, FrameComment)
    case Err(e) => Err("tags.hasSubmitter: tags.GetSubmitter: tags.readFrame: " + e)
    case Ok(current) =>
      if |current| > 0 then Err("track already has a submitter")
      else match write
        case Err(e) => Err("tags.runId3v2: " + e)
        case Ok(_) => Ok(TrimSpace(nickname))
  }

  const TagInfoPrefix: string := "id3v2 tag info for "
  const CommentPrefix: string := "COMM (Comments): ()[]: "

  /** `^id3v2 tag info for (.*)\:$` */
  function FileNameMatch(line: string): (v: Option<string>)
    ensures v.Some? <==> |line| >= |TagInfoPrefix| + 1 && StartsWith(line, TagInfoPrefix) && line[|line| - 1] == ':'
    ensures v.Some? ==> line == TagInfoPrefix + v.value + ":"
  {
    if |line| >= |TagInfoPrefix| + 1 && StartsWith(line, TagInfoPrefix) && line[|line| - 1] == ':' then
      var v := line[|TagInfoPrefix|..|line| - 1];
      assert line == line[..|TagInfoPrefix|] + v + [line[|line| - 1]];
      Some(v)
    else None
  }

  /** `^COMM \(Comments\): \(\)\[\]: (.*)$` */
  function SubmitterMatch(line: string): (v: Option<string>)
    ensures v.Some? <==> StartsWith(line, CommentPrefix)
    ensures v.Some? ==> line == CommentPrefix + v.value
  {
    if StartsWith(line, CommentPrefix) then
      assert line == line[..|CommentPrefix|] + line[|CommentPrefix|..];
      Some(line[|CommentPrefix|..])
    else None
  }

  /** The scan's variables: the current file name and submitter, and the
      map built so far. */
  datatype Scan = Scan(fname: string, submitter: string, result: map<string, string>)

  /** One line of the combined listing. A file-name line that does not
      parse, and a comment line that is not the plain comment, forget the
      current file. A pair is recorded once both are known. */
  function ScanLine(s: Scan, line: string): (t: Scan)
    ensures t.result.Keys >= s.result.Keys
    ensures t.result != s.result ==> t.fname == "" && t.submitter == ""
  {
    if StartsWith(line, "id3v2 tag info") && FileNameMatch(line).None? then
      Scan("", "", s.result)
    else
      var fname := if StartsWith(line, "id3v2 tag info") then FileNameMatch(line).value else s.fname;
      if fname != "" && StartsWith(line, FrameComment) && SubmitterMatch(line).None? then
        Scan("", "", s.result)
      else
        var submitter := if fname != "" && StartsWith(line, FrameComment) then SubmitterMatch(line).value else s.submitter;
        if fname != "" && submitter != "" then Scan("", "", s.result[fname := submitter])
        else Scan(fname, submitter, s.result)
  }

  function ScanLines(s: Scan, lines: seq<string>): (t: Scan)
    decreases |lines|
  {
    if |lines| == 0 then s else ScanLines(ScanLine(s, lines[0]), lines[1..])
  }

  /** `GetAllSubmitters` on the tool's listing of all files; a failed run
      gives no map. */
  function GetAllSubmitters(listing: Result<string>): (r: Option<map<string, string>>)
    ensures listing.Err? <==> r.None?
  {
    match listing
    case Err(_) => None
    case Ok(output) => Some(ScanLines(Scan("", "", map[]), Split(output, '\n')).result)
  }

  /** The listing of one file with a plain comment. */
  function Entry(fname: string, submitter: string): seq<string>
  {
    [TagInfoPrefix + fname + ":", CommentPrefix + submitter]
  }

  function Listing(pairs: seq<(string, string)>): seq<string>
    decreases |pairs|
  {
    if |pairs| == 0 then [] else Entry(pairs[0].0, pairs[0].1) + Listing(pairs[1..])
  }

  /** The expected map: later files override earlier ones of the same
      name. */
  function Record(acc: map<string, string>, pairs: seq<(string, string)>): map<string, string>
    decreases |pairs|
  {
    if |pairs| == 0 then acc else Record(acc[pairs[0].0 := pairs[0].1], pairs[1..])
  }

  lemma {:induction false} ScanConcat(s: Scan, a: seq<string>, b: seq<string>)
    ensures ScanLines(s, a + b) == ScanLines(ScanLines(s, a), b)
    decreases |a|
  {
    if |a| == 0 {
      assert a + b == b;
    } else {
      assert (a + b)[1..] == a[1..] + b;
      ScanConcat(ScanLine(s, a[0]), a[1..], b);
    }
  }

  /** One entry records its pair and leaves the scan reset. */
  lemma EntryRecords(acc: map<string, string>, fname: string, submitter: string)
    requires fname != "" && submitter != ""
    ensures ScanLines(Scan("", "", acc), Entry(fname, submitter)) == Scan("", "", acc[fname := submitter])
  {
    var l1, l2 := TagInfoPrefix + fname + ":", CommentPrefix + submitter;
    assert StartsWith(l1, "id3v2 tag info") by { assert l1[..14] == "id3v2 tag info"; }
    assert StartsWith(l1, TagInfoPrefix) by { assert l1[..|TagInfoPrefix|] == TagInfoPrefix; }
    assert !StartsWith(l1, FrameComment) by { assert l1[0] == 'i'; }
    assert FileNameMatch(l1) == Some(fname) by {
      var v := FileNameMatch(l1).value;
      assert l1 == TagInfoPrefix + v + ":";
      assert |v| == |fname|;
      assert v == l1[|TagInfoPrefix|..|l1| - 1];
    }
    var s1 := ScanLine(Scan("", "", acc), l1);
    assert s1 == Scan(fname, "", acc);
    assert !StartsWith(l2, "id3v2 tag info") by { assert l2[0] == 'C'; }
    assert StartsWith(l2, FrameComment) by { assert l2[..4] == "COMM"; }
    assert StartsWith(l2, CommentPrefix) by { assert l2[..|CommentPrefix|] == CommentPrefix; }
    assert SubmitterMatch(l2) == Some(submitter);
    assert ScanLine(s1, l2) == Scan("", "", acc[fname := submitter]);
    var e := Entry(fname, submitter);
    assert e[0] == l1 && e[1..] == [l2];
    var tail: seq<string> := [l2];
    assert ScanLines(Scan("", "", acc), e) == ScanLines(s1, tail);
    assert tail[1..] == [];
    assert ScanLines(s1, tail) == ScanLines(ScanLine(s1, l2), []);
  }

  /** On a listing of plain entries with non-empty names and submitters,
      the scan records every pair, a later entry for the same file
      overriding an earlier one. */
  lemma {:induction false} SubmittersOfListing(acc: map<string, string>, pairs: seq<(string, string)>)
    requires forall i :: 0 <= i < |pairs| ==> pairs[i].0 != "" && pairs[i].1 != ""
    ensures ScanLines(Scan("", "", acc), Listing(pairs)) == Scan("", "", Record(acc, pairs))
    decreases |pairs|
  {
    if |pairs| > 0 {
      ScanConcat(Scan("", "", acc), Entry(pairs[0].0, pairs[0].1), Listing(pairs[1..]));
      EntryRecords(acc, pairs[0].0, pairs[0].1);
      SubmittersOfListing(acc[pairs[0].0 := pairs[0].1], pairs[1..]);
    }
  }

  /** A comment line that is not the plain comment (the ID3v1 comment, for
      instance) forgets the file it belongs to, so a plain comment after it
      is not recorded. */
  lemma OtherCommentForgetsFile(acc: map<string, string>, fname: string, other: string, submitter: string)
    requires fname != "" && submitter != ""
    requires StartsWith(other, FrameComment) && !StartsWith(other, CommentPrefix)
    ensures ScanLines(Scan("", "", acc), [TagInfoPrefix + fname + ":", other, CommentPrefix + submitter]).result == acc
  {
    var l1 := TagInfoPrefix + fname + ":";
    var l3 := CommentPrefix + submitter;
    assert StartsWith(l1, "id3v2 tag info") by { assert l1[..14] == "id3v2 tag info"; }
    assert StartsWith(l1, TagInfoPrefix) by { assert l1[..|TagInfoPrefix|] == TagInfoPrefix; }
    assert !StartsWith(l1, FrameComment) by { assert l1[0] == 'i'; }
    assert FileNameMatch(l1).Some?;
    assert !StartsWith(other, "id3v2 tag info") by { assert other[0] == 'C'; }
    assert !StartsWith(l3, "id3v2 tag info") by { assert l3[0] == 'C'; }
    var lines: seq<string> := [l1, other, l3];
    var s0 := Scan("", "", acc);
    var s1 := ScanLine(s0, l1);
    assert s1 == Scan(fname, "", acc);
    var s2 := ScanLine(s1, other);
    assert s2 == Scan("", "", acc);
    var s3 := ScanLine(s2, l3);
    assert s3.result == acc;
    assert lines[1..] == [other, l3];
    assert lines[1..][1..] == [l3];
    assert lines[1..][1..][1..] == [];
    assert ScanLines(s0, lines) == ScanLines(s1, lines[1..]);
    assert ScanLines(s1, lines[1..]) == ScanLines(s2, lines[1..][1..]);
    assert ScanLines(s2, lines[1..][1..]) == ScanLines(s3, lines[1..][1..][1..]);
  }
}

=== FILE: mp3lib.dfy ===
/** The rating store of lib/mp3lib: a track's rating is kept as the decimal
    text of its ID3 year frame, read back with `strconv.Atoi`. The files
    on disk are a map from path to file; the lock around each call is left
    out. */
module Mp3Lib {
  import opened Wrappers
  import opened Numeric

  const RatingUnknown: int := -1
  const RatingZero: int := 0
  const RatingToRemove: int := 1
  const RatingMax: int := 10

  /** A file on disk: one that `id3.Open` refuses, or one whose tag carries
      the year text. */
  datatype Mp3File = Unopenable | Tagged(year: string)

  type Disk = map<string, Mp3File>

  /** `GetRating`: the year frame as a number; a missing file, a file that
      cannot be opened, an empty year and a year that does not parse all
      read as unknown. */
  function GetRating(disk: Disk, fname: string): (r: int)
    ensures fname !in disk || disk[fname].Unopenable? ==> r == RatingUnknown
    ensures fname in disk && disk[fname].Tagged? && disk[fname].year == "" ==> r == RatingUnknown
    ensures fname in disk && disk[fname].Tagged? && Atoi(disk[fname].year).None? ==> r == RatingUnknown
    ensures r != RatingUnknown ==> fname in disk && disk[fname].Tagged? && Atoi(disk[fname].year) == Some(r)
    ensures Int64Min <= r <= Int64Max
  {
    if fname !in disk then RatingUnknown
    else match disk[fname]
      case Unopenable => RatingUnknown
      case Tagged(year) =>
        if year == "" then RatingUnknown
        else match Atoi(year)
          case None => RatingUnknown
          case Some(v) => v
  }

  /** `SetRating`: writes the decimal text of the rating into the year frame
      and returns the rating; when the file cannot be opened nothing is
      written and the answer is unknown. No range check is made. */
  function SetRating(disk: Disk, fname: string, rating: int): (r: (Disk, int))
    ensures (fname in disk && disk[fname].Tagged?) ==> r == (disk[fname := Tagged(Itoa(rating))], rating)
    ensures !(fname in disk && disk[fname].Tagged?) ==> r == (disk, RatingUnknown)
    ensures r.0.Keys == disk.Keys
  {
    if fname in disk && disk[fname].Tagged? then (disk[fname := Tagged(Itoa(rating))], rating)
    else (disk, RatingUnknown)
  }

  /** A rating written is the rating read back. */
  lemma SetThenGet(disk: Disk, fname: string, rating: int)
    requires fname in disk && disk[fname].Tagged?
    requires Int64Min <= rating <= Int64Max
    ensures GetRating(SetRating(disk, fname, rating).0, fname) == rating
  {
    AtoiItoa(rating);
    if rating == RatingUnknown {
      assert Itoa(rating) != "";
    }
  }

  /** Writing one file's rating leaves every other file as it was. */
  lemma SetRatingOnlyTouches(disk: Disk, fname: string, rating: int, other: string)
    requires other != fname
    ensures other in disk <==> other in SetRating(disk, fname, rating).0
    ensures other in disk ==> SetRating(disk, fname, rating).0[other] == disk[other]
  {
  }

  /** `DecreaseRating`: unknown and zero stay as they are; any other rating
      is lowered by one (with `int` wrap-around) and written back. */
  function DecreaseRating(disk: Disk, name: string): (r: (Disk, int))
    ensures var cur := GetRating(disk, name);
      && (cur == RatingUnknown ==> r == (disk, RatingUnknown))
      && (cur == RatingZero ==> r == (disk, RatingZero))
      && (cur != RatingUnknown && cur != RatingZero ==>
            r.1 == ToInt64(cur - 1)
            && r.0 == disk[name := Tagged(Itoa(ToInt64(cur - 1)))])
  {
    var cur := GetRating(disk, name);
    if cur == RatingUnknown then (disk, RatingUnknown)
    else if cur == RatingZero then (disk, RatingZero)
    else SetRating(disk, name, ToInt64(cur - 1))
  }

  /** `IncreaseRating`: unknown stays unknown and the maximum stays the
      maximum; any other rating is raised by one (with `int` wrap-around)
      and written back. */
  function IncreaseRating(disk: Disk, name: string): (r: (Disk, int))
    ensures var cur := GetRating(disk, name);
      && (cur == RatingUnknown ==> r == (disk, RatingUnknown))
      && (cur == RatingMax ==> r == (disk, RatingMax))
      && (cur != RatingUnknown && cur != RatingMax ==>
            r.1 == ToInt64(cur + 1)
            && r.0 == disk[name := Tagged(Itoa(ToInt64(cur + 1)))])
  {
    var cur := GetRating(disk, name);
    if cur == RatingUnknown then (disk, RatingUnknown)
    else if cur == RatingMax then (disk, RatingMax)
    else SetRating(disk, name, ToInt64(cur + 1))
  }

  /** A track stored with a rating on the scale 0 .. 10. */
  predicate Rated(disk: Disk, name: string, r: int)
  {
    name in disk && disk[name] == Tagged(Itoa(r))
  }

  lemma RatedReads(disk: Disk, name: string, r: int)
    requires Rated(disk, name, r) && RatingZero <= r <= RatingMax
    ensures GetRating(disk, name) == r
  {
    AtoiItoa(r);
  }

  /** Below the maximum, a vote down after a vote up restores both the
      answer and the file. */
  lemma DecreaseAfterIncrease(disk: Disk, name: string, r: int)
    requires Rated(disk, name, r) && RatingZero <= r < RatingMax
    ensures IncreaseRating(disk, name).1 == r + 1
    ensures DecreaseRating(IncreaseRating(disk, name).0, name) == (disk, r)
  {
    RatedReads(disk, name, r);
    var up := IncreaseRating(disk, name).0;
    assert Rated(up, name, r + 1);
    RatedReads(up, name, r + 1);
    assert up[name := Tagged(Itoa(r))] == disk;
  }

  /** Votes keep a rating on the scale 0 .. 10 there, for the answer and
      for the stored text. */
  lemma VotesStayOnScale(disk: Disk, name: string, r: int)
    requires Rated(disk, name, r) && RatingZero <= r <= RatingMax
    ensures var (up, a) := IncreaseRating(disk, name);
      RatingZero <= a <= RatingMax && Rated(up, name, a)
    ensures var (down, b) := DecreaseRating(disk, name);
      RatingZero <= b <= RatingMax && Rated(down, name, b)
  {
    RatedReads(disk, name, r);
  }

  /** `RemoveFile`: the path is the library directory, a slash and the name;
      a missing file, or one the removal fails on, gives false. */
  function RemoveFile(baseDir: string, name: string, disk: Disk, removeFails: bool): (r: (Disk, bool))
    ensures r.1 <==> baseDir + "/" + name in disk && !removeFails
    ensures r.1 ==> r.0 == disk - {baseDir + "/" + name}
    ensures !r.1 ==> r.0 == disk
  {
    var fname := baseDir + "/" + name;
    if fname !in disk then (disk, false)
    else if removeFails then (disk, false)
    else (disk - {fname}, true)
  }

  /** Removing a file a second time reports false, and no other path is
      affected by the removal. */
  lemma RemoveOnce(baseDir: string, name: string, disk: Disk, other: string)
    requires other != baseDir + "/" + name
    ensures var (d1, _) := RemoveFile(baseDir, name, disk, false);
      && !RemoveFile(baseDir, name, d1, false).1
      && (other in d1 <==> other in disk)
  {
  }
}

=== FILE: mpd_playlist.dfy ===
/** The playlist lookups of lib/mpdclient/playlist.go and the id search of
    lib/mpdclient/utils.go. A Go map is visited in an order the program does
    not choose, so each walk over the playlist takes that order as a
    parameter: the keys, each exactly once. */
module MpdPlaylist {
  import opened Wrappers
  import opened Strings
  import opened Numeric

  /** `PlaylistEntry`. */
  datatype Entry = Entry(
    artist: string, title: string, name: string, rating: int, filename: string,
    duration: int, pos: int, id: int, qprio: int, prio: int)

  /** `Playlist`: entries keyed by name. */
  type Playlist = map<string, Entry>

  /** Every key of the map, each once: an order a `range` loop may take. */
  predicate IsOrder(m: Playlist, order: seq<string>)
  {
    && (forall i, j :: 0 <= i < j < |order| ==> order[i] != order[j])
    && (forall k :: k in order ==> k in m)
    && (forall k :: k in m ==> k in order)
  }

  /** A sequence without repeats has as many distinct elements as it is
      long. */
  lemma {:induction false} DistinctSize(s: seq<string>)
    requires forall i, j :: 0 <= i < j < |s| ==> s[i] != s[j]
    ensures |set x | x in s| == |s|
    decreases |s|
  {
    if |s| > 0 {
      DistinctSize(s[1..]);
      assert (set x | x in s) == {s[0]} + (set x | x in s[1..]);
      assert s[0] !in (set x | x in s[1..]);
    }
  }

  /** A visiting order is exactly as long as the map is large. */
  lemma OrderSize(m: Playlist, order: seq<string>)
    requires IsOrder(m, order)
    ensures |order| == |m|
  {
    DistinctSize(order);
    assert (set x | x in order) == m.Keys;
  }

  /** `ToArray`: the entries in the order the map is visited. */
  function ToArray(p: Playlist, order: seq<string>): (r: seq<Entry>)
    requires IsOrder(p, order)
    ensures |r| == |p|
    ensures forall k :: k in p ==> p[k] in r
    ensures forall e :: e in r ==> e in p.Values
  {
    OrderSize(p, order);
    var r := seq(|order|, i requires 0 <= i < |order| && IsOrder(p, order) => p[order[i]]);
    assert forall k :: k in p ==> p[k] in r by {
      forall k | k in p ensures p[k] in r {
        var i :| 0 <= i < |order| && order[i] == k;
        assert r[i] == p[k];
      }
    }
    r
  }

  /** `HasFilename`: the walk stops at the first entry with the name. */
  method HasFilename(p: Playlist, order: seq<string>, fname: string) returns (found: bool)
    requires IsOrder(p, order)
    ensures found <==> exists k :: k in p && p[k].filename == fname
  {
    var i := 0;
    while i < |order|
      invariant 0 <= i <= |order|
      invariant forall j :: 0 <= j < i ==> p[order[j]].filename != fname
    {
      if p[order[i]].filename == fname {
        return true;
      }
      i := i + 1;
    }
    forall k | k in p
      ensures p[k].filename != fname
    {
      var j :| 0 <= j < |order| && order[j] == k;
    }
    return false;
  }

  /** `GetEntryByPos`: the first entry visited that has the position, or an
      error when none has it. */
  function GetEntryByPos(p: Playlist, order: seq<string>, pos: int): (r: Result<Entry>)
    requires IsOrder(p, order)
    ensures r.Ok? <==> exists k :: k in p && p[k].pos == pos
    ensures r.Ok? ==> r.value.pos == pos && r.value in p.Values
    ensures r.Err? ==> r.msg == "Playlist.GetEntryByPos: entry not found in playlist"
  {
    var i := FirstAtPos(p, order, pos, 0);
    if i < |order| then
      assert order[i] in p;
      Ok(p[order[i]])
    else
      assert forall k :: k in p ==> p[k].pos != pos by {
        forall k | k in p ensures p[k].pos != pos {
          var j :| 0 <= j < |order| && order[j] == k;
        }
      }
      Err("Playlist.GetEntryByPos: entry not found in playlist")
  }

  /** The index in the visiting order of the first entry at `pos`, from `i`
      on, or the length of the order when there is none. */
  function FirstAtPos(p: Playlist, order: seq<string>, pos: int, i: nat): (j: nat)
    requires IsOrder(p, order) && i <= |order|
    ensures i <= j <= |order|
    ensures j < |order| ==> p[order[j]].pos == pos
    ensures forall k :: i <= k < j ==> p[order[k]].pos != pos
    decreases |order| - i
  {
    if i == |order| then i
    else if p[order[i]].pos == pos then i
    else FirstAtPos(p, order, pos, i + 1)
  }

  /** Which entry is found depends only on the position when positions are
      unique: every visiting order gives the same one. */
  lemma EntryByPosUnique(p: Playlist, o1: seq<string>, o2: seq<string>, pos: int)
    requires IsOrder(p, o1) && IsOrder(p, o2)
    requires forall a, b :: a in p && b in p && p[a].pos == pos && p[b].pos == pos ==> a == b
    ensures GetEntryByPos(p, o1, pos) == GetEntryByPos(p, o2, pos)
  {
    var i1 := FirstAtPos(p, o1, pos, 0);
    var i2 := FirstAtPos(p, o2, pos, 0);
    if i1 < |o1| && i2 < |o2| {
      assert o1[i1] in p && o2[i2] in p;
    }
  }

  // ---------------------------------------------------------------------
  // findID

  /** One entry of MPD's playlist listing: attribute name to value. */
  type Attrs = map<string, string>

  /** A Go map lookup: a missing attribute reads as the empty text. */
  function Attr(entry: Attrs, key: string): (v: string)
    ensures key in entry ==> v == entry[key]
    ensures key !in entry ==> v == ""
  {
    if key in entry then entry[key] else ""
  }

  /** Whether the entry's file name contains the title. */
  predicate Matches(entry: Attrs, title: string)
  {
    Contains(Attr(entry, "file"), title)
  }

  /** The first entry that matches, or the length when none does. */
  function FirstMatch(entries: seq<Attrs>, title: string): (i: nat)
    ensures i <= |entries|
    ensures i < |entries| ==> Matches(entries[i], title)
    ensures forall k :: 0 <= k < i ==> !Matches(entries[k], title)
    decreases |entries|
  {
    if |entries| == 0 then 0
    else if Matches(entries[0], title) then 0
    else
      var i := FirstMatch(entries[1..], title);
      assert forall k :: 1 <= k < i + 1 ==> entries[k] == entries[1..][k - 1];
      i + 1
  }

  /** `findID`: the loop skips entries whose file does not contain the
      title; on the first one that does, it returns the parsed `Id`, or
      stops with -1 when the `Id` is not a number. */
  method FindId(entries: seq<Attrs>, title: string) returns (id: int)
    ensures FirstMatch(entries, title) == |entries| ==> id == -1
    ensures FirstMatch(entries, title) < |entries| ==>
      id == Atoi(Attr(entries[FirstMatch(entries, title)], "Id")).GetOr(-1)
  {
    var i := 0;
    while i < |entries|
      invariant 0 <= i <= |entries|
      invariant forall k :: 0 <= k < i ==> !Matches(entries[k], title)
    {
      if !Contains(Attr(entries[i], "file"), title) {
        i := i + 1;
        continue;
      }
      var parsed := Atoi(Attr(entries[i], "Id"));
      if parsed.None? {
        break;
      }
      return parsed.value;
    }
    return -1;
  }

  /** The empty title is contained in every file name, so it picks the
      first entry. */
  lemma EmptyTitleMatchesFirst(entries: seq<Attrs>)
    requires |entries| > 0
    ensures FirstMatch(entries, "") == 0
  {
    assert OccursAt(Attr(entries[0], "file"), "", 0);
  }

  /** Entries before the first match do not influence the answer: putting
      non-matching entries in front changes nothing. */
  lemma {:induction false} NonMatchingPrefix(pre: seq<Attrs>, entries: seq<Attrs>, title: string)
    requires forall k :: 0 <= k < |pre| ==> !Matches(pre[k], title)
    ensures FirstMatch(pre + entries, title) == |pre| + FirstMatch(entries, title)
    decreases |pre|
  {
    if |pre| == 0 {
      assert pre + entries == entries;
    } else {
      assert (pre + entries)[0] == pre[0];
      assert (pre + entries)[1..] == pre[1..] + entries;
      NonMatchingPrefix(pre[1..], entries, title);
    }
  }
}

=== FILE: musicbot.dfy ===
/** Command recognition and channel-name cleaning of cmd/musicbot/musicbot.go.
    The command character and the list of valid commands come from the
    configuration and are parameters. */
module MusicBot {
  import opened Wrappers
  import opened Strings

  /** `[a-z\+\-]` */
  predicate IsCmdChar(c: char)
  {
    ('a' <= c <= 'z') || c == '+' || c == '-'
  }

  /** ASCII punctuation: a backslash before one of these matches it
      literally in a Go regular expression. */
  predicate IsPunct(c: char)
  {
    ('!' <= c <= '/') || (':' <= c <= '@') || ('[' <= c <= '`') || ('{' <= c <= '~')
  }

  /** The length of the run of command characters at `i`, at most `max`:
      what a greedy `[a-z\+\-]{..max}` consumes. */
  function RunLength(s: string, i: nat, max: nat): (n: nat)
    requires i <= |s|
    ensures n <= max && i + n <= |s|
    ensures forall k :: i <= k < i + n ==> IsCmdChar(s[k])
    ensures n < max && i + n < |s| ==> !IsCmdChar(s[i + n])
    decreases max
  {
    if max == 0 || i == |s| || !IsCmdChar(s[i]) then 0 else 1 + RunLength(s, i + 1, max - 1)
  }

  /** The run ends where the word does, when the word is at most `max` long
      and nothing that could extend it follows. */
  lemma {:induction false} RunLengthOfWord(pre: string, w: string, rest: string, max: nat)
    requires |w| <= max && forall k :: 0 <= k < |w| ==> IsCmdChar(w[k])
    requires |w| == max || rest == [] || !IsCmdChar(rest[0])
    ensures RunLength(pre + w + rest, |pre|, max) == |w|
    decreases |w|
  {
    var s := pre + w + rest;
    if |w| == 0 {
      if max > 0 && |pre| < |s| {
        assert s[|pre|] == rest[0];
      }
    } else {
      assert s[|pre|] == w[0];
      assert s == (pre + [w[0]]) + w[1..] + rest;
      RunLengthOfWord(pre + [w[0]], w[1..], rest, max - 1);
    }
  }

  /** The group of `^\<c>([a-z\+\-]{2,6})`: two to six command characters
      right after the command character, as many as there are. */
  function WordAfter(c: char, cmd: string): (r: Option<string>)
    ensures r.Some? ==> |cmd| >= 1 + |r.value| && cmd[0] == c && 2 <= |r.value| <= 6
    ensures r.Some? ==> cmd[1..1 + |r.value|] == r.value
    ensures r.Some? ==> forall k :: 0 <= k < |r.value| ==> IsCmdChar(r.value[k])
    ensures r.Some? ==> |r.value| == 6 || |cmd| == 1 + |r.value| || !IsCmdChar(cmd[1 + |r.value|])
    ensures r.None? <==> !(|cmd| >= 3 && cmd[0] == c && IsCmdChar(cmd[1]) && IsCmdChar(cmd[2]))
  {
    if |cmd| == 0 || cmd[0] != c then None
    else
      var n := RunLength(cmd, 1, 6);
      if n < 2 then None else Some(cmd[1..1 + n])
  }

  /** `isValidCommand`: the word after the command character, if it is one
      of the valid commands; otherwise the empty name and false. */
  function IsValidCommand(c: char, validCommands: seq<string>, cmd: string): (r: (string, bool))
    requires IsPunct(c)
    ensures !r.1 ==> r.0 == ""
    ensures r.1 <==> WordAfter(c, cmd).Some? && WordAfter(c, cmd).value in validCommands
    ensures r.1 ==> r.0 == WordAfter(c, cmd).value && r.0 in validCommands
  {
    match WordAfter(c, cmd)
    case None => ("", false)
    case Some(wanted) => if wanted in validCommands then (wanted, true) else ("", false)
  }

  /** A valid command, alone or followed by something that is not a
      command character (a space and its argument), is recognised. */
  lemma CommandWithArgument(c: char, validCommands: seq<string>, w: string, rest: string)
    requires IsPunct(c) && w in validCommands
    requires 2 <= |w| <= 6 && forall k :: 0 <= k < |w| ==> IsCmdChar(w[k])
    requires rest == [] || !IsCmdChar(rest[0])
    ensures IsValidCommand(c, validCommands, [c] + w + rest) == (w, true)
  {
    RunLengthOfWord([c], w, rest, 6);
    assert ([c] + w + rest)[1..1 + |w|] == w;
  }

  /** The pattern is anchored only at the start: after six command
      characters the rest is ignored, so `!nextfoo` asks for `nextfo`. */
  lemma SixCharacterCap(c: char, validCommands: seq<string>, w: string, rest: string)
    requires IsPunct(c)
    requires |w| == 6 && forall k :: 0 <= k < |w| ==> IsCmdChar(w[k])
    ensures IsValidCommand(c, validCommands, [c] + w + rest) ==
      if w in validCommands then (w, true) else ("", false)
  {
    RunLengthOfWord([c], w, rest, 6);
    assert ([c] + w + rest)[1..7] == w;
  }

  /** `RE_CMD`, `^(\![a-z\+\-]{2,6})`: the exclamation mark and the word. */
  function CommandPrefix(line: string): (r: Option<string>)
    ensures r.Some? <==> WordAfter('!', line).Some?
    ensures r.Some? ==> r.value == "!" + WordAfter('!', line).value && StartsWith(line, r.value)
  {
    match WordAfter('!', line)
    case None => None
    case Some(w) =>
      assert line[..1 + |w|] == [line[0]] + line[1..1 + |w|];
      Some("!" + w)
  }

  /** `ParsePrivmsg`: the command a channel line asks for, found with
      `RE_CMD`, which always expects `!`, and then checked with
      `isValidCommand` under the configured command character `c`. */
  function CommandOf(c: char, validCommands: seq<string>, line: string): (r: Option<string>)
    requires IsPunct(c)
    ensures r.Some? ==> r.value in validCommands && c == '!'
    ensures r.Some? ==> WordAfter('!', line) == Some(r.value)
  {
    match CommandPrefix(line)
    case None => None
    case Some(cmd) =>
      var (name, ok) := IsValidCommand(c, validCommands, cmd);
      assert ok ==> WordAfter('!', line) == Some(name) by {
        if ok {
          var w := WordAfter('!', line).value;
          RunLengthOfWord("!", w, [], 6);
          assert cmd == "!" + w + [];
          assert cmd[1..1 + |w|] == w;
        }
      }
      if ok then Some(name) else None
  }

  /** With any command character but `!` the bot recognises no command:
      `RE_CMD` keeps only text that starts with `!`, which the second check
      then rejects. */
  lemma OtherCharacterRecognisesNothing(c: char, validCommands: seq<string>, line: string)
    requires IsPunct(c) && c != '!'
    ensures CommandOf(c, validCommands, line).None?
  {
  }

  /** With `!` as command character, the `RE_CMD` step changes nothing:
      checking the whole line directly gives the same command. */
  lemma PrefixStepRedundant(validCommands: seq<string>, line: string)
    ensures var (name, ok) := IsValidCommand('!', validCommands, line);
      CommandOf('!', validCommands, line) == if ok then Some(name) else None
  {
    match WordAfter('!', line)
    case None =>
    case Some(w) =>
      RunLengthOfWord("!", w, [], 6);
      assert "!" + w == "!" + w + [];
      assert ("!" + w)[1..1 + |w|] == w;
  }

  // ---------------------------------------------------------------------
  // stripChannel

  /** Go strings are byte strings. */
  newtype Byte = b: int | 0 <= b < 0x100

  const Hash: Byte := 0x23

  /** `string(b)` for a byte `b`: the UTF-8 encoding of the code point with
      that number, one byte below 0x80 and two from there on. */
  function RuneBytes(b: Byte): (r: seq<Byte>)
    ensures b < 0x80 ==> r == [b]
    ensures b >= 0x80 ==> |r| == 2 && r[0] == 0xC0 + b / 64 && r[1] == 0x80 + b % 64
  {
    if b < 0x80 then [b] else [0xC0 + b / 64, 0x80 + b % 64]
  }

  /** `stripChannel` as written: every byte but `#` is converted with
      `string(channel[i])` and appended. */
  function StripChannelAsWritten(channel: seq<Byte>): (r: seq<Byte>)
    decreases |channel|
  {
    if |channel| == 0 then []
    else Piece(channel[0]) + StripChannelAsWritten(channel[1..])
  }

  /** What one byte contributes to the result. */
  function Piece(b: Byte): (r: seq<Byte>)
    ensures b == Hash ==> r == []
    ensures b != Hash ==> r == RuneBytes(b)
  {
    if b == Hash then [] else RuneBytes(b)
  }

  /** The loop of `stripChannel`, byte by byte. */
  method StripChannelLoop(channel: seq<Byte>) returns (result: seq<Byte>)
    ensures result == StripChannelAsWritten(channel)
  {
    result := [];
    var i := 0;
    while i < |channel|
      invariant 0 <= i <= |channel|
      invariant result == StripChannelAsWritten(channel[..i])
    {
      StripAppend(channel[..i], channel[i]);
      assert channel[..i + 1] == channel[..i] + [channel[i]];
      if channel[i] == Hash {
        i := i + 1;
        continue;
      }
      result := result + RuneBytes(channel[i]);
      i := i + 1;
    }
    assert channel[..i] == channel;
  }

  /** Appending a byte appends its piece. */
  lemma {:induction false} StripAppend(s: seq<Byte>, b: Byte)
    ensures StripChannelAsWritten(s + [b]) == StripChannelAsWritten(s) + Piece(b)
    decreases |s|
  {
    if |s| == 0 {
      assert [b][1..] == [];
    } else {
      assert (s + [b])[1..] == s[1..] + [b];
      StripAppend(s[1..], b);
    }
  }

  /** The UTF-8 bytes of `#é` come back as the bytes of `Ã©`. */
  lemma StripChannelAsWrittenMangles()
    ensures StripChannelAsWritten([0x23, 0xC3, 0xA9]) == [0xC3, 0x83, 0xC2, 0xA9]
  {
    var s: seq<Byte> := [0x23, 0xC3, 0xA9];
    assert s[1..] == [0xC3, 0xA9];
    assert s[1..][1..] == [0xA9];
    assert s[1..][1..][1..] == [];
  }

  /** `stripChannel` corrected: the bytes other than `#`, in order. */
  function StripChannel(channel: seq<Byte>): (r: seq<Byte>)
    ensures Hash !in r
    ensures IsSubsequence(r, channel)
    ensures |r| + multiset(channel)[Hash] == |channel|
    decreases |channel|
  {
    if |channel| == 0 then []
    else
      var rest := StripChannel(channel[1..]);
      assert channel == [channel[0]] + channel[1..];
      assert multiset(channel) == multiset{channel[0]} + multiset(channel[1..]);
      if channel[0] == Hash then
        SubsequenceCons(rest, channel[1..], channel[0]);
        rest
      else
        assert ([channel[0]] + rest)[1..] == rest;
        [channel[0]] + rest
  }

  /** On ASCII names the written code and the corrected one agree. */
  lemma {:induction false} AsciiAgrees(channel: seq<Byte>)
    requires forall i :: 0 <= i < |channel| ==> channel[i] < 0x80
    ensures StripChannelAsWritten(channel) == StripChannel(channel)
    decreases |channel|
  {
    if |channel| > 0 {
      AsciiAgrees(channel[1..]);
    }
  }

  /** Cleaning a cleaned name changes nothing. */
  lemma {:induction false} StripChannelIdempotent(channel: seq<Byte>)
    ensures StripChannel(StripChannel(channel)) == StripChannel(channel)
  {
    NoHashUnchanged(StripChannel(channel));
  }

  /** A name without `#` is kept as it is. */
  lemma {:induction false} NoHashUnchanged(channel: seq<Byte>)
    requires Hash !in channel
    ensures StripChannel(channel) == channel
    decreases |channel|
  {
    if |channel| > 0 {
      assert Hash !in channel[1..];
      NoHashUnchanged(channel[1..]);
    }
  }
}

=== FILE: numeric.dfy ===
/** Decimal conversions and the integer arithmetic of the two host languages:
    Go's `strconv.Itoa` / `strconv.Atoi` (64-bit `int`), JavaScript's
    number-to-string of an integer, and division and remainder that
    truncate toward zero (Go's `/` and `%`, JavaScript's `~~(a / b)` and `%`). */
module Numeric {
  import opened Wrappers

  const Int64Min: int := -0x8000_0000_0000_0000
  const Int64Max: int := 0x7FFF_FFFF_FFFF_FFFF

  predicate IsDigit(c: char)
  {
    '0' <= c <= '9'
  }

  predicate AllDigits(s: string)
  {
    forall i :: 0 <= i < |s| ==> IsDigit(s[i])
  }

  function DigitChar(d: nat): (c: char)
    requires d < 10
    ensures IsDigit(c)
  {
    ('0' as int + d) as char
  }

  function DigitValue(c: char): (d: nat)
    requires IsDigit(c)
    ensures d < 10
  {
    c as int - '0' as int
  }

  /** Decimal digits of `n`, most significant first, without leading zeros. */
  function NatToString(n: nat): (r: string)
    ensures |r| > 0 && AllDigits(r)
    ensures r[0] == '0' ==> n == 0
    decreases n
  {
    if n < 10 then [DigitChar(n)] else NatToString(n / 10) + [DigitChar(n % 10)]
  }

  /** Value of a run of decimal digits. */
  function DigitsValue(s: string): nat
    requires AllDigits(s)
    decreases |s|
  {
    if |s| == 0 then 0 else DigitsValue(s[..|s| - 1]) * 10 + DigitValue(s[|s| - 1])
  }

  lemma {:induction false} DigitsValueOfNatToString(n: nat)
    ensures DigitsValue(NatToString(n)) == n
    decreases n
  {
    if n >= 10 {
      var s := NatToString(n);
      assert s[..|s| - 1] == NatToString(n / 10);
      DigitsValueOfNatToString(n / 10);
    }
  }

  /** Go `strconv.Itoa` and JavaScript's rendering of an integer number. */
  function Itoa(n: int): (r: string)
    ensures |r| > 0
    ensures n >= 0 ==> AllDigits(r)
    ensures n < 0 ==> r[0] == '-' && AllDigits(r[1..])
  {
    if n < 0 then "-" + NatToString(-n) else NatToString(n)
  }

  /** Go `strconv.Atoi` on a 64-bit platform: an optional sign followed by at
      least one ASCII digit, whose value fits in an `int64`; anything else is
      an error. */
  function Atoi(s: string): (r: Option<int>)
    ensures r.Some? ==> Int64Min <= r.value <= Int64Max
    ensures |s| == 0 ==> r.None?
    ensures AllDigits(s) && |s| > 0 && DigitsValue(s) <= Int64Max ==> r == Some(DigitsValue(s))
  {
    if |s| == 0 then None
    else
      var signed := s[0] == '+' || s[0] == '-';
      var body := if signed then s[1..] else s;
      if |body| == 0 || !AllDigits(body) then None
      else
        var mag: int := DigitsValue(body);
        var v := if s[0] == '-' then -mag else mag;
        if Int64Min <= v <= Int64Max then Some(v) else None
  }

  /** Parsing the decimal rendering of an `int64` gives the number back. */
  lemma AtoiItoa(n: int)
    requires Int64Min <= n <= Int64Max
    ensures Atoi(Itoa(n)) == Some(n)
  {
    if n < 0 {
      DigitsValueOfNatToString(-n);
      assert Itoa(n)[1..] == NatToString(-n);
    } else {
      DigitsValueOfNatToString(n);
    }
  }

  /** Integer quotient truncated toward zero. */
  function TruncDiv(a: int, b: int): (q: int)
    requires b > 0
    ensures a >= 0 ==> q == a / b
    ensures a < 0 ==> q <= 0
  {
    if a >= 0 then a / b else -((-a) / b)
  }

  /** Remainder whose sign follows the dividend (Go `%`, JavaScript `%`). */
  function TruncRem(a: int, b: int): (r: int)
    requires b > 0
    ensures a == TruncDiv(a, b) * b + r
    ensures a >= 0 ==> 0 <= r < b
    ensures a < 0 ==> -b < r <= 0
  {
    a - TruncDiv(a, b) * b
  }

  /** JavaScript's ToInt32 on an integer: wrap into the signed 32-bit range. */
  function ToInt32(x: int): (r: int)
    ensures -0x8000_0000 <= r < 0x8000_0000
    ensures -0x8000_0000 <= x < 0x8000_0000 ==> r == x
  {
    (x + 0x8000_0000) % 0x1_0000_0000 - 0x8000_0000
  }

  /** Go's `int` arithmetic on a 64-bit platform: wrap into the `int64`
      range. */
  function ToInt64(x: int): (r: int)
    ensures Int64Min <= r <= Int64Max
    ensures Int64Min <= x <= Int64Max ==> r == x
  {
    (x - Int64Min) % 0x1_0000_0000_0000_0000 + Int64Min
  }
}

=== FILE: paginator.dfy ===
/** Pagination of the result table in the browser client
    (webassets/js/site.js): the page number, the index of the first item on
    that page and the number of results per page. */
module Paginator {
  import opened Strings

  /** `pgPage`, `pgIndex` and `resultsPerPage`. */
  datatype Pager = Pager(page: int, index: int, perPage: int)

  /** Page arguments with a meaning of their own; any other is a page number. */
  const NextPage: int := -2
  const PreviousPage: int := -1

  function Min(a: int, b: int): int { if a <= b then a else b }

  function Max(a: int, b: int): int { if a >= b then a else b }

  /** `pgFilterObjects`: the items of the current page. For a non-negative
      index and page size these are the items from `index` on, at most
      `perPage` of them, and none once the index is past the end. */
  function FilterObjects<T>(data: seq<T>, pg: Pager): (r: seq<T>)
    ensures 0 <= pg.index && 0 <= pg.perPage ==>
      |r| == Min(pg.perPage, Max(0, |data| - pg.index))
    ensures 0 <= pg.index && 0 <= pg.perPage ==>
      forall k :: 0 <= k < |r| ==> r[k] == data[pg.index + k]
  {
    JsSlice(data, pg.index, pg.index + pg.perPage)
  }

  /** `pgGotoPage`: step forward without an upper bound, step back but not
      below zero, or jump; the index then points at the first item of the
      page. */
  function GotoPage(pg: Pager, n: int): (r: Pager)
    ensures r.perPage == pg.perPage
    ensures r.index == r.page * r.perPage
  {
    var page :=
      if n == NextPage then pg.page + 1
      else if n == PreviousPage then (if pg.page > 0 then pg.page - 1 else pg.page)
      else n;
    Pager(page, page * pg.perPage, pg.perPage)
  }

  /** The three kinds of page argument, each by its effect on the page. */
  lemma GotoPageEffect(pg: Pager, n: int)
    ensures n == NextPage ==> GotoPage(pg, n).page == pg.page + 1
    ensures n == PreviousPage && pg.page > 0 ==> GotoPage(pg, n).page == pg.page - 1
    ensures n == PreviousPage && pg.page <= 0 ==> GotoPage(pg, n) == Pager(pg.page, pg.page * pg.perPage, pg.perPage)
    ensures n != NextPage && n != PreviousPage ==> GotoPage(pg, n).page == n
  {
  }

  /** Stepping back from a page reached by stepping forward returns to it,
      from any page that is not negative. */
  lemma BackUndoesNext(pg: Pager)
    requires pg.page >= 0
    ensures GotoPage(GotoPage(pg, NextPage), PreviousPage).page == pg.page
    ensures GotoPage(GotoPage(pg, NextPage), PreviousPage).index == pg.page * pg.perPage
  {
  }

  /** Navigation never leaves the non-negative pages when it starts there and
      jumps only to non-negative pages. */
  lemma NavigationStaysNonNegative(pg: Pager, n: int)
    requires pg.page >= 0 && (n == NextPage || n == PreviousPage || n >= 0)
    ensures GotoPage(pg, n).page >= 0
    ensures pg.perPage >= 0 ==> GotoPage(pg, n).index >= 0
  {
  }

  /** With a positive page size every item is shown on page `i / perPage`,
      at row `i % perPage` of that page. */
  lemma ItemOnItsPage<T>(data: seq<T>, pg: Pager, i: int)
    requires pg.perPage > 0 && 0 <= i < |data|
    ensures var shown := FilterObjects(data, GotoPage(pg, i / pg.perPage));
      i % pg.perPage < |shown| && shown[i % pg.perPage] == data[i]
  {
    var q := i / pg.perPage;
    var r := i % pg.perPage;
    assert q * pg.perPage + r == i;
    assert q >= 0;
    assert q != NextPage && q != PreviousPage;
    var target := GotoPage(pg, q);
    assert target.index == q * pg.perPage;
    assert 0 <= target.index;
  }
}

=== FILE: play_queue.dfy ===
/** The manager's play queue (lib/manager/queue.go): up to ten tracks in a
    map keyed by the priority slot they were added under. The lock around
    the map and the liquidsoap polling loop are left out. */
module PlayQueue {
  import opened Wrappers

  const MaxQueueSize: int := 10

  /** The fields of `dbclient.Track` the queue uses. */
  datatype Track = Track(id: int, priority: int, filename: string)

  type Items = map<int, Track>

  /** `Has`: some queued track carries the id. */
  predicate Has(items: Items, id: int)
  {
    exists k :: k in items && items[k].id == id
  }

  /** The tracks still queued, with their slots. */
  predicate Queued(items: Items, k: int, t: Track)
  {
    k in items && items[k] == t
  }

  /** `Add` as written: the new track goes under the key equal to the
      current size. When an earlier deletion has left a gap, that key can
      already hold a track, which is then replaced. */
  function AddAsWritten(items: Items, t: Track): (r: Result<Items>)
    ensures |items| >= MaxQueueSize <==> r.Err?
    ensures r.Err? ==> r.msg == "Queue is full"
    ensures r.Ok? ==> |items| in r.value && r.value[|items|] == t && r.value.Keys == items.Keys + {|items|}
    ensures r.Ok? ==> forall k :: k in items && k != |items| ==> r.value[k] == items[k]
  {
    if |items| >= MaxQueueSize then Err("Queue is full")
    else Ok(items[|items| := t])
  }

  /** Once a deletion has emptied slot 0 of a two-track queue, adding a
      track replaces the track in slot 1: a queued track is lost although
      the queue is not full. */
  lemma AddAsWrittenLosesTrack()
    ensures var a, b := Track(7, 1, "a"), Track(8, 0, "b");
      var items := map[1 := a];
      && AddAsWritten(items, b) == Ok(map[1 := b])
      && Has(items, 7) && !Has(AddAsWritten(items, b).value, 7)
  {
    var a, b := Track(7, 1, "a"), Track(8, 0, "b");
    var items := map[1 := a];
    assert |items| == 1;
    assert items[1 := b] == map[1 := b];
    assert Has(items, 7) by { assert items[1].id == 7; }
  }

  // ---------------------------------------------------------------------
  // A free slot always exists among 0 .. |items|.

  /** The slots 0 .. n-1. */
  function Range(n: nat): (r: set<int>)
    ensures forall j :: j in r <==> 0 <= j < n
    ensures |r| == n
  {
    if n == 0 then {} else Range(n - 1) + {n - 1}
  }

  lemma {:induction false} SubsetSize<T>(a: set<T>, b: set<T>)
    requires a <= b
    ensures |a| <= |b|
    decreases |a|
  {
    if a != {} {
      var x :| x in a;
      SubsetSize(a - {x}, b - {x});
    }
  }

  /** If every slot below `n` is taken, the map has at least `n` entries. */
  lemma SlotsBelow(items: Items, n: nat)
    requires forall j :: 0 <= j < n ==> j in items
    ensures n <= |items|
  {
    assert Range(n) <= items.Keys;
    SubsetSize(Range(n), items.Keys);
  }

  /** The smallest free slot from `k` on. */
  function FirstFree(items: Items, k: nat): (slot: nat)
    requires k <= |items| && forall j :: 0 <= j < k ==> j in items
    ensures k <= slot <= |items| && slot !in items
    ensures forall j :: 0 <= j < slot ==> j in items
    decreases |items| - k
  {
    if k !in items then k
    else
      SlotsBelow(items, k + 1);
      FirstFree(items, k + 1)
  }

  /** `Add` corrected: the new track goes into the smallest free slot, so
      no queued track is replaced. */
  function Add(items: Items, t: Track): (r: Result<Items>)
    ensures |items| >= MaxQueueSize <==> r.Err?
    ensures r.Err? ==> r.msg == "Queue is full"
    ensures r.Ok? ==> |r.value| == |items| + 1
    ensures r.Ok? ==> forall k :: k in items ==> Queued(r.value, k, items[k])
    ensures r.Ok? ==> exists k :: k !in items && Queued(r.value, k, t)
  {
    if |items| >= MaxQueueSize then Err("Queue is full")
    else
      var k := FirstFree(items, 0);
      assert Queued(items[k := t], k, t);
      Ok(items[k := t])
  }

  /** While the slots are exactly 0 .. n-1, the corrected `Add` picks the
      same slot as the written one. */
  lemma AddAgreesWhenDense(items: Items, t: Track)
    requires forall k :: k in items <==> 0 <= k < |items|
    ensures Add(items, t) == AddAsWritten(items, t)
  {
  }

  // ---------------------------------------------------------------------
  // Delete

  /** Every remaining track moves up one priority, not below zero. */
  function Promote(items: Items): (r: Items)
    ensures r.Keys == items.Keys
    ensures forall k :: k in items ==>
      r[k] == items[k].(priority := if items[k].priority > 0 then items[k].priority - 1 else items[k].priority)
  {
    map k | k in items :: items[k].(priority := if items[k].priority > 0 then items[k].priority - 1 else items[k].priority)
  }

  /** `Delete` as written: it checks for a track with the id, but then
      removes the map key equal to the id. */
  function DeleteAsWritten(items: Items, id: int): (r: Result<Items>)
    ensures !Has(items, id) <==> r.Err?
    ensures r.Err? ==> r.msg == "No such id"
    ensures r.Ok? ==> r.value.Keys == items.Keys - {id}
  {
    if !Has(items, id) then Err("No such id")
    else Ok(Promote(items - {id}))
  }

  /** The track with id 42 in slot 0 is reported deleted but stays queued. */
  lemma DeleteAsWrittenKeepsTrack()
    ensures var items := map[0 := Track(42, 0, "a")];
      DeleteAsWritten(items, 42) == Ok(items) && Has(DeleteAsWritten(items, 42).value, 42)
  {
    var items := map[0 := Track(42, 0, "a")];
    assert Has(items, 42) by { assert items[0].id == 42; }
    assert items - {42} == items;
    assert Promote(items) == items;
  }

  /** `Delete` corrected: every entry carrying the id is removed and the
      rest move up one priority. */
  function Delete(items: Items, id: int): (r: Result<Items>)
    ensures !Has(items, id) <==> r.Err?
    ensures r.Err? ==> r.msg == "No such id"
    ensures r.Ok? ==> !Has(r.value, id)
    ensures r.Ok? ==> forall k :: k in r.value <==> k in items && items[k].id != id
    ensures r.Ok? ==> forall k :: k in r.value ==>
      r.value[k] == items[k].(priority := if items[k].priority > 0 then items[k].priority - 1 else items[k].priority)
    ensures r.Ok? ==> |r.value| < |items|
  {
    if !Has(items, id) then Err("No such id")
    else
      var kept := map k | k in items && items[k].id != id :: items[k];
      var k0 :| k0 in items && items[k0].id == id;
      assert kept.Keys <= items.Keys - {k0};
      SubsetSize(kept.Keys, items.Keys - {k0});
      Ok(Promote(kept))
  }

  /** A track just added can be deleted again, and deleting it keeps every
      slot that was taken before. */
  lemma AddThenDelete(items: Items, t: Track)
    requires |items| < MaxQueueSize && !Has(items, t.id)
    ensures var added := Add(items, t).value;
      && Has(added, t.id)
      && Delete(added, t.id).Ok?
      && forall k :: k in items ==> k in Delete(added, t.id).value
  {
    var added := Add(items, t).value;
    var k :| k !in items && Queued(added, k, t);
    assert added[k].id == t.id;
    forall j | j in items
      ensures j in Delete(added, t.id).value
    {
      assert Queued(added, j, items[j]);
      assert items[j].id != t.id;
    }
  }
}

=== FILE: player_client.dfy ===
/** The player page (webui_assets/js/player.js): the commands it sends on
    its WebSocket, and what each server reply does to the page. The page is
    modelled as the texts it shows; jQuery, the DOM and the console are
    left out, and a notification is the level and text it would log. */
module PlayerClient {
  import opened Wrappers
  import opened Strings
  import opened Numeric
  import opened Duration
  import opened Protocol
  import opened Utils
  import opened WebUi

  /** `filenameToTrack`: the name without its 16-character
      `-<id>.mp3` tail. Shorter names give the empty string, as
      `substring` clamps a negative end to zero. */
  function FilenameToTrack(fname: string): (track: string)
    ensures |fname| >= YidTail ==> track == fname[..|fname| - YidTail]
    ensures |fname| < YidTail ==> track == ""
  {
    JsSubstring(fname, 0, |fname| - 16)
  }

  /** The id `UpdateSearchResults` puts on each result: characters
      `[len-15, len-4)`. */
  function SearchId(fname: string): (yid: string)
    ensures |fname| >= 15 ==> yid == fname[|fname| - 15..|fname| - 4]
  {
    JsSubstring(fname, |fname| - 15, |fname| - 4)
  }

  /** The client and the server take the same characters for the id, and
      the client's track name is what precedes the id's dash. */
  lemma ClientAgreesWithServerId(fname: string, id: string)
    requires GetYidFromFilename(fname) == Ok(id)
    ensures SearchId(fname) == id
    ensures fname == FilenameToTrack(fname) + "-" + id + [fname[|fname| - 4]] + "mp3"
  {
  }

  /** A name built the way the downloader names its files splits back
      into its track name and its id. */
  lemma BuiltNameSplits(prefix: string, id: string, dot: char)
    requires IsYid(id) && dot != '\n'
    ensures FilenameToTrack(prefix + "-" + id + [dot] + "mp3") == prefix
    ensures SearchId(prefix + "-" + id + [dot] + "mp3") == id
  {
    YidOfBuiltName(prefix, id, dot);
    var f := prefix + "-" + id + [dot] + "mp3";
    assert f[..|f| - YidTail] == prefix;
  }

  // ---------------------------------------------------------------------
  // Page state

  /** One search result: the id its `Q` button requests and the track name
      shown next to it. */
  datatype SearchHit = SearchHit(yid: string, track: string)

  /** The texts of `#divNowPlaying`, `#divRating`, `#divDuration`, the
      search results, the query box and the queue lines. */
  datatype Page = Page(nowPlaying: string, rating: string, duration: string,
                       results: seq<SearchHit>, query: string, queue: seq<string>)

  datatype Level = Information | Warning | Error

  datatype Notice = Notice(level: Level, text: string)

  /** A reply's effect: the new page and the notification shown, if any. */
  datatype Effect = Effect(page: Page, notice: Option<Notice>)

  /** `UpdateSearchResults`: one hit per returned file name, in order. */
  function SearchHits(names: seq<string>): (hits: seq<SearchHit>)
    ensures |hits| == |names|
    ensures forall i :: 0 <= i < |names| ==> hits[i] == SearchHit(SearchId(names[i]), FilenameToTrack(names[i]))
  {
    seq(|names|, i requires 0 <= i < |names| => SearchHit(SearchId(names[i]), FilenameToTrack(names[i])))
  }

  /** `UpdateQueueEntries`: the server's queue map has the keys 0, 1, ...,
      which `Object.entries` visits in ascending order; each becomes
      "<idx>) <track>". */
  function QueueLines(entries: seq<string>): (lines: seq<string>)
    ensures |lines| == |entries|
    ensures forall i :: 0 <= i < |entries| ==> lines[i] == Itoa(i) + ") " + FilenameToTrack(entries[i])
  {
    seq(|entries|, i requires 0 <= i < |entries| => Itoa(i) + ") " + FilenameToTrack(entries[i]))
  }

  /** `ClearSearch`: the query box and the results are emptied. */
  function ClearSearch(p: Page): (q: Page)
    ensures q.query == "" && q.results == []
    ensures q.nowPlaying == p.nowPlaying && q.rating == p.rating && q.duration == p.duration && q.queue == p.queue
  {
    p.(query := "", results := [])
  }

  function Inform(text: string): Option<Notice>
  {
    Some(Notice(Information, text))
  }

  function Warn(text: string): Option<Notice>
  {
    Some(Notice(Warning, text))
  }

  /** `ws.onmessage`. A failed reply shows its message as a warning, and a
      failed search also clears the search; an unknown code is only
      logged. A successful reply whose `d` has another shape than its code
      announces would fail in the browser and is taken to change nothing. */
  function OnReply(p: Page, r: Response): (e: Effect)
    // Failures.
    ensures IsReplyCode(r.op) && !r.status && r.op != ReplySearch ==> e == Effect(p, Warn(r.msg))
    ensures r.op == ReplySearch && !r.status ==> e == Effect(ClearSearch(p), Warn(r.msg))
    // Successes.
    ensures r.op == ReplyNowPlaying && r.status && r.data.TrackInfo? ==>
      e == Effect(p.(nowPlaying := FilenameToTrack(r.data.filename), rating := Itoa(r.data.rating) + "/10",
                     duration := PrettyDuration(r.data.duration)), None)
    ensures r.op == ReplyNext && r.status && r.data.TrackInfo? ==>
      e == Effect(p, Inform("Skipped to " + FilenameToTrack(r.data.filename)))
    ensures (r.op == ReplyBoo || r.op == ReplyTune) && r.status && r.data.TrackInfo? ==>
      e == Effect(p, Inform("Rating for " + FilenameToTrack(r.data.filename) + " is now " + Itoa(r.data.rating)))
    ensures r.op == ReplySearch && r.status && r.data.Filenames? ==>
      e == Effect(p.(results := SearchHits(r.data.names)), None)
    ensures r.op == ReplyQueue && r.status && r.data.QueueEntries? ==>
      e == Effect(p.(queue := QueueLines(r.data.entries)), None)
    ensures r.op == ReplyTrack && r.status ==> e == Effect(p, None)
    // Anything else is only logged.
    ensures !IsReplyCode(r.op) ==> e == Effect(p, None)
    // Only a search reply touches the search; only the now-playing reply
    // touches the now-playing texts.
    ensures r.op != ReplySearch ==> e.page.results == p.results && e.page.query == p.query
    ensures r.op != ReplyNowPlaying ==>
      e.page.nowPlaying == p.nowPlaying && e.page.rating == p.rating && e.page.duration == p.duration
  {
    if !IsReplyCode(r.op) then Effect(p, None)
    else if !r.status then
      if r.op == ReplySearch then Effect(ClearSearch(p), Warn(r.msg)) else Effect(p, Warn(r.msg))
    else if r.op == ReplyNowPlaying then
      match r.data
      case TrackInfo(f, rating, duration) =>
        Effect(p.(nowPlaying := FilenameToTrack(f), rating := Itoa(rating) + "/10",
                  duration := PrettyDuration(duration)), None)
      case _ => Effect(p, None)
    else if r.op == ReplyNext then
      match r.data
      case TrackInfo(f, _, _) => Effect(p, Inform("Skipped to " + FilenameToTrack(f)))
      case _ => Effect(p, None)
    else if r.op == ReplyBoo || r.op == ReplyTune then
      match r.data
      case TrackInfo(f, rating, _) => Effect(p, Inform("Rating for " + FilenameToTrack(f) + " is now " + Itoa(rating)))
      case _ => Effect(p, None)
    else if r.op == ReplySearch then
      match r.data
      case Filenames(names) => Effect(p.(results := SearchHits(names)), None)
      case _ => Effect(p, None)
    else if r.op == ReplyQueue then
      match r.data
      case QueueEntries(entries) => Effect(p.(queue := QueueLines(entries)), None)
      case _ => Effect(p, None)
    else Effect(p, None)
  }

  // ---------------------------------------------------------------------
  // Commands

  /** `wsSendCommand`: a request without data. */
  function SendCommand(op: int): (req: Request)
    ensures req.op == op && req.data.None?
  {
    Request(op, None)
  }

  /** `wsSendCommandWithData`. */
  function SendCommandWithData(op: int, data: string): (req: Request)
    ensures req.op == op && req.data == Some(data)
  {
    Request(op, Some(data))
  }

  /** What a click does: send a request, or change the page only. */
  datatype Click = Click(send: Option<Request>, page: Page)

  /** The search button: a non-empty query is sent; an empty one clears the
      search instead. */
  function SearchClick(p: Page): (c: Click)
    ensures p.query != "" ==> c == Click(Some(Request(RequestSearch, Some(p.query))), p)
    ensures p.query == "" ==> c.send.None? && c.page == ClearSearch(p)
  {
    if |p.query| > 0 then Click(Some(SendCommandWithData(RequestSearch, p.query)), p)
    else Click(None, ClearSearch(p))
  }

  /** `RequestTrack`: the hit's id is requested and the search cleared. */
  function RequestTrackClick(p: Page, hit: SearchHit): (c: Click)
    ensures c == Click(Some(Request(RequestTrack, Some(hit.yid))), ClearSearch(p))
  {
    Click(Some(SendCommandWithData(RequestTrack, hit.yid)), ClearSearch(p))
  }

  /** The timer's requests, and the three buttons'. */
  const PollRequests: seq<Request> := [SendCommand(RequestNowPlaying), SendCommand(RequestQueue)]
  const ButtonRequests: seq<Request> := [SendCommand(RequestNext), SendCommand(RequestBoo), SendCommand(RequestTune)]

  /** Every request the page can send. */
  predicate Sendable(req: Request)
  {
    req in PollRequests || req in ButtonRequests
    || (req.op == RequestSearch && req.data.Some? && req.data.value != "")
    || (req.op == RequestTrack && req.data.Some?)
  }

  /** Every request the page sends reaches a handler on the server, and the
      server's reply comes back under a code the page handles; the search
      and track requests carry the string the server's handler expects. */
  lemma SentRequestsAreHandled(req: Request)
    requires Sendable(req)
    ensures Dispatch(req.op).Handle? && IsReplyCode(Dispatch(req.op).reply)
    ensures req.op == RequestSearch || req.op == RequestTrack ==> req.data.Some?
  {
  }

  /** The clicks send only sendable requests. */
  lemma ClicksSendSendable(p: Page, hit: SearchHit)
    ensures SearchClick(p).send.Some? ==> Sendable(SearchClick(p).send.value)
    ensures Sendable(RequestTrackClick(p, hit).send.value)
  {
  }

  /** A search hit for a file the downloader named requests exactly that
      file's id. */
  lemma HitRequestsItsFile(p: Page, names: seq<string>, i: int, prefix: string, id: string, dot: char)
    requires 0 <= i < |names| && names[i] == prefix + "-" + id + [dot] + "mp3"
    requires IsYid(id) && dot != '\n'
    ensures var hits := OnReply(p, Response(ReplySearch, Filenames(names), true, "")).page.results;
      && |hits| == |names| && hits[i] == SearchHit(id, prefix)
      && RequestTrackClick(p, hits[i]).send == Some(Request(RequestTrack, Some(id)))
  {
    BuiltNameSplits(prefix, id, dot);
  }

  /** When an API call fails, the page warns with the handler's failure
      text, through the corrected failure reply; the skip, downvote and
      upvote handlers then panic and end the connection. */
  lemma FailureReachesUser(p: Page, op: int, state: Data, err: string)
    requires CallsApi(op)
    ensures var x := Respond(op, state, Err(err));
      && OnReply(p, x.replies[0]).notice == Warn(FailureText(op))
      && (x.ending == HandlerPanicked <==> RepliesOnOwnFailure(op))
  {
  }

  /** With the failure reply as written, the page's warning is always empty:
      the user never learns why a request failed. */
  lemma FailureLostAsWritten(p: Page, op: int, state: Data, err: string)
    requires CallsApi(op)
    ensures OnReply(p, RespondAsWritten(op, state, Err(err)).replies[0]).notice == Warn("")
  {
  }

  /** The server's now-playing reply shows the track, its rating out of ten
      and its length. */
  lemma NowPlayingShown(p: Page, f: string, rating: int, duration: int, api: Result<Data>)
    ensures var e := OnReply(p, Respond(RequestNowPlaying, TrackInfo(f, rating, duration), api).replies[0]);
      && e.page.nowPlaying == FilenameToTrack(f)
      && e.page.rating == Itoa(rating) + "/10"
      && e.page.duration == PrettyDuration(duration)
      && e.notice.None?
  {
  }

  // ---------------------------------------------------------------------
  // Reconnection

  /** `ws.readyState`; 3 is CLOSED. */
  datatype Socket = Socket(readyState: int)

  const Closed: int := 3

  /** `checkForDisconnect`: restart when there is no socket or it is
      closed. */
  predicate NeedsRestart(ws: Option<Socket>)
  {
    ws.None? || ws.value.readyState == Closed
  }

  /** `startHandler` opens a new socket, which starts out CONNECTING (0). */
  function StartHandler(): (ws: Option<Socket>)
    ensures ws.Some? && ws.value.readyState != Closed
  {
    Some(Socket(0))
  }

  /** After a restart the next check leaves the socket alone, whatever
      state the old one was in. */
  lemma RestartSettles(ws: Option<Socket>)
    ensures var next := if NeedsRestart(ws) then StartHandler() else ws;
      !NeedsRestart(next) && (!NeedsRestart(ws) ==> next == ws)
  {
  }
}

=== FILE: playlist_view.dfy ===
/** The playlist side of the browser client (webassets/js/site.js): looking
    up the tracks of an artist picked from the artist list, and the
    WebSocket replies that refresh the playlist, the artist list and the
    now-playing line. */
module PlaylistView {
  import opened Strings
  import opened QuoteCodec
  import opened Paginator

  /** A playlist entry as the server sends it. */
  datatype Track = Track(filename: string, artist: string, title: string, duration: int, rating: int)

  /** The text the artist filter searches: the artist, the title when the
      artist is empty, and the file name when the title is empty too. */
  function SearchField(t: Track): string
  {
    if t.artist != "" then t.artist
    else if t.title != "" then t.title
    else t.filename
  }

  /** `indexOf(lookupArtist) > -1` on the upper-cased field. */
  predicate Matches(t: Track, upperQuery: string)
  {
    IndexOf(ToUpper(SearchField(t)), upperQuery) > -1
  }

  /** The `$.each` over the playlist that collects the matching tracks. */
  function FilterTracks(playlist: seq<Track>, upperQuery: string): (found: seq<Track>)
    ensures IsSubsequence(found, playlist)
    ensures forall i :: 0 <= i < |found| ==> Matches(found[i], upperQuery)
    decreases |playlist|
  {
    if |playlist| == 0 then []
    else
      var rest := FilterTracks(playlist[1..], upperQuery);
      assert playlist == [playlist[0]] + playlist[1..];
      if Matches(playlist[0], upperQuery) then
        assert IsSubsequence([playlist[0]] + rest, playlist) by {
          assert ([playlist[0]] + rest)[1..] == rest;
        }
        [playlist[0]] + rest
      else
        SubsequenceCons(rest, playlist[1..], playlist[0]);
        rest
  }

  /** Each matching track is kept as often as the playlist holds it, and
      no other track is kept. */
  lemma FilterTracksCounts(playlist: seq<Track>, upperQuery: string)
    ensures var found := FilterTracks(playlist, upperQuery);
      forall t :: multiset(found)[t] == if Matches(t, upperQuery) then multiset(playlist)[t] else 0
  {
    forall t
      ensures multiset(FilterTracks(playlist, upperQuery))[t] ==
        if Matches(t, upperQuery) then multiset(playlist)[t] else 0
    {
      FilterTracksCount(playlist, upperQuery, t);
    }
  }

  /** The same, for one track. */
  lemma {:induction false} FilterTracksCount(playlist: seq<Track>, upperQuery: string, t: Track)
    ensures multiset(FilterTracks(playlist, upperQuery))[t] ==
      if Matches(t, upperQuery) then multiset(playlist)[t] else 0
    decreases |playlist|
  {
    if |playlist| > 0 {
      FilterTracksCount(playlist[1..], upperQuery, t);
      var rest := FilterTracks(playlist[1..], upperQuery);
      assert playlist == [playlist[0]] + playlist[1..];
      assert multiset(playlist) == multiset{playlist[0]} + multiset(playlist[1..]);
      assert multiset([playlist[0]] + rest) == multiset{playlist[0]} + multiset(rest);
    }
  }

  /** The result table after `LookupTracksForArtist`: the matching tracks,
      the pager reset to the first page, and the rows shown on it. */
  datatype View = View(found: seq<Track>, pager: Pager, shown: seq<Track>)

  /** The table for an upper-cased query: the tracks whose search field
      holds it, with the pager on the first page. The page size comes from
      the viewport and is taken as given. */
  function ShowLookup(playlist: seq<Track>, lookup: string, pg: Pager): (v: View)
    ensures v.pager == Pager(0, 0, pg.perPage)
    ensures v.found == FilterTracks(playlist, lookup)
    ensures pg.perPage >= 0 ==> v.shown == v.found[..Min(pg.perPage, |v.found|)]
  {
    var found := FilterTracks(playlist, lookup);
    var pager := Pager(0, 0, pg.perPage);
    var shown := FilterObjects(found, pager);
    assert pg.perPage >= 0 ==> shown == found[..Min(pg.perPage, |found|)] by {
      if pg.perPage >= 0 {
        FirstPageShown(found, pg.perPage);
      }
    }
    View(found, pager, shown)
  }

  /** The first page of a list is its first `perPage` items. */
  lemma FirstPageShown(found: seq<Track>, perPage: int)
    requires perPage >= 0
    ensures FilterObjects(found, Pager(0, 0, perPage)) == found[..Min(perPage, |found|)]
  {
  }

  /** `LookupTracksForArtist`: the clicked artist name arrives encoded; it is
      decoded with the codec as written, upper-cased, and every track whose
      search field holds it is kept in playlist order. */
  function LookupTracksForArtist(playlist: seq<Track>, artist: Wire, pg: Pager): (v: View)
    ensures v.pager == Pager(0, 0, pg.perPage)
    ensures v.found == FilterTracks(playlist, ToUpper(DecodeString(artist)))
    ensures pg.perPage >= 0 ==> v.shown == v.found[..Min(pg.perPage, |v.found|)]
  {
    ShowLookup(playlist, ToUpper(DecodeString(artist)), pg)
  }

  /** The same lookup with the corrected decoder. */
  function LookupTracksForArtistFixed(playlist: seq<Track>, artist: Wire, pg: Pager): (v: View)
    ensures v.pager == Pager(0, 0, pg.perPage)
    ensures v.found == FilterTracks(playlist, ToUpper(DecodeStringFixed(artist)))
    ensures pg.perPage >= 0 ==> v.shown == v.found[..Min(pg.perPage, |v.found|)]
  {
    ShowLookup(playlist, ToUpper(DecodeStringFixed(artist)), pg)
  }

  /** The tracks found for a query are exactly the playlist's tracks whose
      search field contains it, ignoring the case of ASCII letters, each as
      often as in the playlist and in playlist order. */
  ghost predicate FindsExactly(found: seq<Track>, playlist: seq<Track>, name: string)
  {
    && IsSubsequence(found, playlist)
    && (forall t :: t in found <==> t in playlist && Contains(ToUpper(SearchField(t)), ToUpper(name)))
    && (forall t :: multiset(found)[t] ==
          if Contains(ToUpper(SearchField(t)), ToUpper(name)) then multiset(playlist)[t] else 0)
  }

  lemma FilterFindsExactly(playlist: seq<Track>, name: string)
    ensures FindsExactly(FilterTracks(playlist, ToUpper(name)), playlist, name)
  {
    var found := FilterTracks(playlist, ToUpper(name));
    FilterTracksCounts(playlist, ToUpper(name));
    forall t
      ensures t in found <==> t in playlist && Contains(ToUpper(SearchField(t)), ToUpper(name))
    {
      assert t in found <==> multiset(found)[t] > 0;
      assert t in playlist <==> multiset(playlist)[t] > 0;
    }
  }

  /** Looking up a name encoded by the codec as written finds that artist
      when the name is one the codec gives back. */
  lemma LookupFindsArtist(playlist: seq<Track>, name: string, pg: Pager)
    requires DecodeString(EncodeString(name)) == name
    ensures FindsExactly(LookupTracksForArtist(playlist, EncodeString(name), pg).found, playlist, name)
  {
    FilterFindsExactly(playlist, name);
  }

  /** With the corrected codec every name is found. */
  lemma LookupFindsArtistFixed(playlist: seq<Track>, name: string, pg: Pager)
    ensures FindsExactly(LookupTracksForArtistFixed(playlist, EncodeStringFixed(name), pg).found, playlist, name)
  {
    FixedRoundTrip(name);
    FilterFindsExactly(playlist, name);
  }

  /** A link of the artist list: the name shown and the encoded name its
      `onclick` passes to `LookupTracksForArtist`. */
  datatype Link = Link(name: string, target: Wire)

  /** `UpdateArtists` skips a name that starts with a single quote. */
  predicate Hidden(name: string)
  {
    StartsWith(name, "'")
  }

  /** The names the artist list shows: every name that does not start with
      a single quote, as often as the list holds it and in list order. */
  function Listed(artists: seq<string>): (names: seq<string>)
    ensures IsSubsequence(names, artists)
    ensures forall i :: 0 <= i < |names| ==> !Hidden(names[i])
    decreases |artists|
  {
    if |artists| == 0 then []
    else
      var rest := Listed(artists[1..]);
      assert artists == [artists[0]] + artists[1..];
      if Hidden(artists[0]) then
        SubsequenceCons(rest, artists[1..], artists[0]);
        rest
      else
        assert IsSubsequence([artists[0]] + rest, artists) by {
          assert ([artists[0]] + rest)[1..] == rest;
        }
        [artists[0]] + rest
  }

  /** Each shown name appears as often as in the list; a hidden one never. */
  lemma {:induction false} ListedCount(artists: seq<string>, a: string)
    ensures multiset(Listed(artists))[a] == if Hidden(a) then 0 else multiset(artists)[a]
    decreases |artists|
  {
    if |artists| > 0 {
      ListedCount(artists[1..], a);
      assert artists == [artists[0]] + artists[1..];
      assert multiset(artists) == multiset{artists[0]} + multiset(artists[1..]);
      assert multiset([artists[0]] + Listed(artists[1..])) == multiset{artists[0]} + multiset(Listed(artists[1..]));
    }
  }

  /** `UpdateArtists` with an empty filter: one link per shown name, in
      list order and with repeats, each carrying the name encoded as
      written. */
  function ArtistLinks(artists: seq<string>): (links: seq<Link>)
    ensures |links| == |Listed(artists)|
    ensures forall i :: 0 <= i < |links| ==>
      links[i] == Link(Listed(artists)[i], EncodeString(Listed(artists)[i]))
    ensures forall l :: l in links <==> l.name in artists && !Hidden(l.name) && l.target == EncodeString(l.name)
    decreases |artists|
  {
    if |artists| == 0 then []
    else
      var rest := ArtistLinks(artists[1..]);
      assert forall a :: a in artists <==> a == artists[0] || a in artists[1..] by {
        assert artists == [artists[0]] + artists[1..];
      }
      if Hidden(artists[0]) then rest
      else [Link(artists[0], EncodeString(artists[0]))] + rest
  }

  /** Clicking a link of the artist list finds the tracks of that artist
      whenever the codec as written gives its name back. */
  lemma ClickedLinkFindsArtist(playlist: seq<Track>, artists: seq<string>, l: Link, pg: Pager)
    requires l in ArtistLinks(artists)
    requires DecodeString(EncodeString(l.name)) == l.name
    ensures FindsExactly(LookupTracksForArtist(playlist, l.target, pg).found, playlist, l.name)
  {
    LookupFindsArtist(playlist, l.name, pg);
  }

  /** The listed name `a'd'` is searched as `A|S"S|`: its link finds the
      tracks holding that text, not the artist's. */
  lemma ListedLinkMissesArtist(playlist: seq<Track>, pg: Pager)
    ensures var name: string := "a'd'";
      && Link(name, EncodeString(name)) in ArtistLinks([name])
      && LookupTracksForArtist(playlist, EncodeString(name), pg).found == FilterTracks(playlist, ToUpper("a|s\"s|"))
  {
    var name: string := "a'd'";
    assert !Hidden(name) by {
      assert name[0] != '\'';
    }
    ListedRoundTripFails();
  }

  /** The search field falls back from artist to title to file name. */
  lemma SearchFieldFallback(t: Track)
    ensures t.artist != "" ==> SearchField(t) == t.artist
    ensures t.artist == "" && t.title != "" ==> SearchField(t) == t.title
    ensures t.artist == "" && t.title == "" ==> SearchField(t) == t.filename
  {
  }

  // ---------------------------------------------------------------------
  // Replies on the playlist page's WebSocket.

  /** Operation codes of this page's protocol. */
  const OpGetPlaylist: int := 0
  const OpGetArtists: int := 1
  const OpNext: int := 2
  const OpBoo: int := 3
  const OpTune: int := 4
  const OpNowPlaying: int := 5
  const OpRequest: int := 6

  /** The now-playing record: only what the client keeps is modelled. */
  datatype NowPlayingData = NowPlayingData(artist: string, title: string, requestQueue: seq<string>)

  /** The `d` member of a reply, by shape. */
  datatype Payload = Tracks(tracks: seq<Track>) | Names(names: seq<string>) | Playing(info: NowPlayingData) | NoData

  datatype Reply = Reply(op: int, d: Payload)

  /** `Playlist`, `Artists`, `NowPlaying`, `numQueued`, `curResultsPerPage`
      and `resultsPerPage`. */
  datatype Site = Site(playlist: seq<Track>, artists: seq<string>, nowPlaying: string, numQueued: nat, curPerPage: int, perPage: int)

  /** The redraws a reply asks for. */
  datatype Redraw = Redraw(results: bool, artistList: bool)

  datatype Step = Step(site: Site, redraw: Redraw)

  /** `UpdateNowPlaying`: "artist - title", or the title alone when the
      artist is empty. */
  function NowPlayingLine(info: NowPlayingData): (line: string)
    ensures info.artist == "" ==> line == info.title
    ensures info.artist != "" ==>
      |line| == |info.artist| + 3 + |info.title| && StartsWith(line, info.artist + " - ") && EndsWith(line, info.title)
  {
    if info.artist != "" then info.artist + " - " + info.title else info.title
  }

  /** `ws.onmessage`. Redrawing the results recomputes the page size from
      the viewport; that size is the parameter `viewPerPage`. Replies are
      taken to carry the payload shape their code announces; the model
      ignores one that does not. */
  function OnMessage(s: Site, m: Reply, viewPerPage: int): (r: Step)
    // The playlist and the artist list are replaced wholesale, and the view
    // is drawn only when the list was still empty.
    ensures m.op == OpGetPlaylist && m.d.Tracks? ==>
      && r.site == s.(playlist := m.d.tracks, perPage := if |s.playlist| == 0 then viewPerPage else s.perPage)
      && r.redraw == Redraw(|s.playlist| == 0, false)
    ensures m.op == OpGetArtists && m.d.Names? ==>
      r.site == s.(artists := m.d.names) && r.redraw == Redraw(false, |s.artists| == 0)
    // A now-playing reply sets the line and the queue length, and redraws
    // the results once per change of page size.
    ensures m.op == OpNowPlaying && m.d.Playing? ==>
      && r.site.nowPlaying == NowPlayingLine(m.d.info)
      && r.site.numQueued == |m.d.info.requestQueue|
      && r.site.playlist == s.playlist && r.site.artists == s.artists
      && r.redraw.results == (s.curPerPage != s.perPage)
      && (s.curPerPage != s.perPage ==> r.site.curPerPage == r.site.perPage == viewPerPage)
      && (s.curPerPage == s.perPage ==> r.site.curPerPage == s.curPerPage && r.site.perPage == s.perPage)
    // Every other code, and a payload of the wrong shape, is ignored.
    ensures (!(m.op == OpGetPlaylist && m.d.Tracks?) && !(m.op == OpGetArtists && m.d.Names?)
      && !(m.op == OpNowPlaying && m.d.Playing?)) ==> r == Step(s, Redraw(false, false))
  {
    if m.op == OpGetPlaylist && m.d.Tracks? then
      var fill := |s.playlist| == 0;
      Step(s.(playlist := m.d.tracks, perPage := if fill then viewPerPage else s.perPage), Redraw(fill, false))
    else if m.op == OpGetArtists && m.d.Names? then
      var fill := |s.artists| == 0;
      Step(s.(artists := m.d.names), Redraw(false, fill))
    else if m.op == OpNowPlaying && m.d.Playing? then
      var s1 := s.(nowPlaying := NowPlayingLine(m.d.info), numQueued := |m.d.info.requestQueue|);
      if s1.curPerPage != s1.perPage then
        Step(s1.(perPage := viewPerPage, curPerPage := viewPerPage), Redraw(true, false))
      else Step(s1, Redraw(false, false))
    else Step(s, Redraw(false, false))
  }

  /** Once the playlist has arrived, later playlist replies refresh the data
      without redrawing the view. */
  lemma PlaylistDrawnOnce(s: Site, first: seq<Track>, second: seq<Track>, w1: int, w2: int)
    requires |first| > 0
    ensures var a := OnMessage(s, Reply(OpGetPlaylist, Tracks(first)), w1);
      var b := OnMessage(a.site, Reply(OpGetPlaylist, Tracks(second)), w2);
      && !b.redraw.results && b.site.playlist == second && b.site.perPage == a.site.perPage
  {
  }

  /** Two now-playing replies in a row redraw the results at most once when
      the viewport does not change. */
  lemma NowPlayingSettles(s: Site, i1: NowPlayingData, i2: NowPlayingData, w: int)
    ensures var a := OnMessage(s, Reply(OpNowPlaying, Playing(i1)), w);
      var b := OnMessage(a.site, Reply(OpNowPlaying, Playing(i2)), w);
      !b.redraw.results
  {
  }
}

=== FILE: protocol.dfy ===
/** The WebSocket protocol between the player page (webui_assets/js/player.js)
    and the web UI server (lib/webui/webui.go): seven request codes, each
    answered under its code plus 100, and the JSON envelopes both sides
    exchange. Both files declare the same table. */
module Protocol {
  import opened Wrappers

  const RequestNowPlaying: int := 0
  const RequestNext: int := 1
  const RequestBoo: int := 2
  const RequestTune: int := 3
  const RequestSearch: int := 4
  const RequestTrack: int := 5
  const RequestQueue: int := 6

  const ReplyNowPlaying: int := 100
  const ReplyNext: int := 101
  const ReplyBoo: int := 102
  const ReplyTune: int := 103
  const ReplySearch: int := 104
  const ReplyTrack: int := 105
  const ReplyQueue: int := 106

  predicate IsRequestCode(op: int)
  {
    RequestNowPlaying <= op <= RequestQueue
  }

  predicate IsReplyCode(op: int)
  {
    ReplyNowPlaying <= op <= ReplyQueue
  }

  /** Every reply code is its request code plus 100, and the two ranges
      correspond one to one. */
  lemma ReplyCodes()
    ensures ReplyNowPlaying == RequestNowPlaying + 100 && ReplyNext == RequestNext + 100
    ensures ReplyBoo == RequestBoo + 100 && ReplyTune == RequestTune + 100
    ensures ReplySearch == RequestSearch + 100 && ReplyTrack == RequestTrack + 100
    ensures ReplyQueue == RequestQueue + 100
    ensures forall op :: IsRequestCode(op) <==> IsReplyCode(op + 100)
  {
  }

  /** The `d` member of a server reply, by shape: nothing, a track, a list
      of file names, the play queue's file names by position, or a number. */
  datatype Data =
    | Null
    | TrackInfo(filename: string, rating: int, duration: int)
    | Filenames(names: seq<string>)
    | QueueEntries(entries: seq<string>)
    | Number(n: int)

  /** `wsServerResponse`: `o`, `d`, `s` and `m`. */
  datatype Response = Response(op: int, data: Data, status: bool, msg: string)

  /** `wsClientRequest`: `o`, and `d` when the request carries data. */
  datatype Request = Request(op: int, data: Option<string>)
}

=== FILE: quote_codec.dfy ===
/** The browser client's quote-escaping codec (webassets/js/site.js): an
    artist name is embedded in an `onclick` attribute after its quote
    characters are replaced by three-character escapes and the result is
    URI-encoded and base64-encoded. Decoding undoes the transport layer and
    then replaces the escapes back, one pattern after the other. */
module QuoteCodec {
  import opened Strings

  /** The URI + base64 transport layer, taken as an injective pair: encoding
      wraps, decoding unwraps. */
  datatype Wire = Wire(text: string)

  /** The characters the codec rewrites; `|` is escaped only by the
      corrected codec. */
  predicate IsQuote(c: char)
  {
    c == '"' || c == '\'' || c == '`'
  }

  predicate Escapable(c: char)
  {
    IsQuote(c) || c == '|'
  }

  /** Letter of the escape `|x|` that stands for `c`. */
  function Letter(c: char): char
    requires Escapable(c)
  {
    if c == '"' then 'd' else if c == '\'' then 's' else if c == '`' then 'b' else 'p'
  }

  function Escape(c: char): string
    requires Escapable(c)
  {
    ['|', Letter(c), '|']
  }

  /** `s` with every character of `q` replaced by its escape. */
  function EscapedWith(s: string, q: set<char>): string
    requires forall c | c in q :: Escapable(c)
    decreases |s|
  {
    if |s| == 0 then ""
    else (if s[0] in q then Escape(s[0]) else [s[0]]) + EscapedWith(s[1..], q)
  }

  // ---------------------------------------------------------------------
  // The codec as written

  /** `encodeString`: double quote, then single quote, then backtick. */
  function EncodeString(plain: string): (w: Wire)
    ensures forall i :: 0 <= i < |w.text| ==> !IsQuote(w.text[i])
  {
    var a := ReplaceAll(plain, "\"", "|d|");
    var b := ReplaceAll(a, "'", "|s|");
    var c := ReplaceAll(b, "`", "|b|");
    ReplaceCharRemoves(plain, '"', "|d|");
    ReplaceCharRemoves(a, '\'', "|s|");
    ReplaceCharRemoves(b, '`', "|b|");
    ReplaceNoNewChar(a, '\'', "|s|", '"');
    ReplaceNoNewChar(b, '`', "|b|", '"');
    ReplaceNoNewChar(b, '`', "|b|", '\'');
    Wire(c)
  }

  /** `decodeString`: three independent global replacements, in the order
      `|d|`, `|s|`, `|b|`. */
  function DecodeString(encoded: Wire): string
  {
    var a := ReplaceAll(encoded.text, "|d|", "\"");
    var b := ReplaceAll(a, "|s|", "'");
    ReplaceAll(b, "|b|", "`")
  }

  /** A character absent from both the input and the replacement stays absent. */
  lemma {:induction false} ReplaceNoNewChar(s: string, c: char, t: string, x: char)
    requires x !in s && x !in t
    ensures x !in ReplaceAll(s, [c], t)
    decreases |s|
  {
    if |s| > 0 {
      ReplaceNoNewChar(s[1..], c, t, x);
    }
  }

  /** Encoding the three-character name `'d'` escapes both single quotes. */
  lemma EncodeCounterexample()
    ensures EncodeString("'d'").text == "|s|d|s|"
  {
    var q := {'"', '\'', '`'};
    EncodeEscapesQuotes("'d'");
    EscapedOne('\'', q);
    EscapedCons('d', ['\''], q);
    EscapedCons('\'', ['d', '\''], q);
  }

  /** Escaping a single character. */
  lemma EscapedOne(c: char, q: set<char>)
    requires forall d | d in q :: Escapable(d)
    ensures EscapedWith([c], q) == if c in q then Escape(c) else [c]
  {
    assert [c][1..] == [];
  }

  /** Escaping works character by character from the front. */
  lemma EscapedCons(c: char, t: string, q: set<char>)
    requires forall d | d in q :: Escapable(d)
    ensures EscapedWith([c] + t, q) == (if c in q then Escape(c) else [c]) + EscapedWith(t, q)
  {
    assert ([c] + t)[1..] == t;
  }

  /** A prefix test that fails at position `k`. */
  lemma NotPrefix(p: string, s: string, k: nat)
    requires k < |p| && k < |s| && p[k] != s[k]
    ensures !StartsWith(s, p)
  {
  }

  /** The `|d|` pass reads the middle of `|s|d|s|` as an escape. */
  lemma DecodeCounterexampleFirstPass()
    ensures ReplaceAll("|s|d|s|", "|d|", "\"") == "|s\"s|"
  {
    var p: string := "|d|";
    var t0: string := "|s|d|s|";
    var t1 := t0[1..];
    var t2 := t1[1..];
    var t3 := t2[3..];
    var t4 := t3[1..];
    assert t1 == "s|d|s|" && t2 == "|d|s|" && t3 == "s|" && t4 == "|" && t4[1..] == "";
    NotPrefix(p, t0, 1);
    NotPrefix(p, t1, 0);
    assert StartsWith(t2, p);
    NotPrefix(p, t3, 0);
    assert !StartsWith(t4, p);
    assert ReplaceAll(t4, p, "\"") == "|";
    assert ReplaceAll(t3, p, "\"") == "s|";
    assert ReplaceAll(t2, p, "\"") == "\"s|";
    assert ReplaceAll(t1, p, "\"") == "s\"s|";
  }

  /** Neither later pass finds anything in `|s"s|`. */
  lemma DecodeCounterexampleLaterPasses()
    ensures ReplaceAll("|s\"s|", "|s|", "'") == "|s\"s|"
    ensures ReplaceAll("|s\"s|", "|b|", "`") == "|s\"s|"
  {
    var t0: string := "|s\"s|";
    var t1 := t0[1..];
    var t2 := t1[1..];
    var t3 := t2[1..];
    var t4 := t3[1..];
    assert t1 == "s\"s|" && t2 == "\"s|" && t3 == "s|" && t4 == "|" && t4[1..] == "";
    var p: string := "|s|";
    NotPrefix(p, t0, 2);
    NotPrefix(p, t1, 0);
    NotPrefix(p, t2, 0);
    NotPrefix(p, t3, 0);
    assert !StartsWith(t4, p);
    assert ReplaceAll(t4, p, "'") == t4;
    assert ReplaceAll(t3, p, "'") == t3;
    assert ReplaceAll(t2, p, "'") == t2;
    assert ReplaceAll(t1, p, "'") == t1;
    var b: string := "|b|";
    NotPrefix(b, t0, 1);
    NotPrefix(b, t1, 0);
    NotPrefix(b, t2, 0);
    NotPrefix(b, t3, 0);
    assert !StartsWith(t4, b);
    assert ReplaceAll(t4, b, "`") == t4;
    assert ReplaceAll(t3, b, "`") == t3;
    assert ReplaceAll(t2, b, "`") == t2;
    assert ReplaceAll(t1, b, "`") == t1;
  }

  /** Decoding does not give back the three-character name `'d'`: the end of
      the first escape, the letter and the start of the second escape read
      as a `|d|`. */
  lemma AsWrittenRoundTripFails()
    ensures DecodeString(EncodeString("'d'")) == "|s\"s|"
    ensures DecodeString(EncodeString("'d'")) != "'d'"
  {
    EncodeCounterexample();
    DecodeCounterexampleFirstPass();
    DecodeCounterexampleLaterPasses();
  }

  /** Encoding `a'd'` escapes both single quotes behind the `a`. */
  lemma EncodeListedCounterexample()
    ensures EncodeString("a'd'").text == "a|s|d|s|"
  {
    var q := {'"', '\'', '`'};
    var tail: string := "'d'";
    var name: string := "a'd'";
    EncodeEscapesQuotes(name);
    EncodeEscapesQuotes(tail);
    EncodeCounterexample();
    assert name == ['a'] + tail;
    EscapedCons('a', tail, q);
  }

  /** Decoding `a|s|d|s|` keeps the `a` and reads the rest as before. */
  lemma DecodeListedCounterexample()
    ensures ReplaceAll("a|s|d|s|", "|d|", "\"") == "a|s\"s|"
    ensures ReplaceAll("a|s\"s|", "|s|", "'") == "a|s\"s|"
    ensures ReplaceAll("a|s\"s|", "|b|", "`") == "a|s\"s|"
  {
    DecodeCounterexampleFirstPass();
    DecodeCounterexampleLaterPasses();
    var t: string := "a|s|d|s|";
    NotPrefix("|d|", t, 0);
    assert t[1..] == "|s|d|s|";
    var u: string := "a|s\"s|";
    NotPrefix("|s|", u, 0);
    NotPrefix("|b|", u, 0);
    assert u[1..] == "|s\"s|";
  }

  /** The same happens inside a name that does not start with a quote:
      `a'd'` decodes to `a|s"s|`. */
  lemma ListedRoundTripFails()
    ensures DecodeString(EncodeString("a'd'")) == "a|s\"s|"
    ensures DecodeString(EncodeString("a'd'")) != "a'd'"
  {
    EncodeListedCounterexample();
    DecodeListedCounterexample();
    var u: string := "a|s\"s|";
    var name: string := "a'd'";
    assert u[1] != name[1];
  }

  /** No escape of `q` can be read across a boundary: no character of `q`,
      then the letter `l`, then another character of `q`. */
  predicate NoBridge(s: string, q: set<char>, l: char)
  {
    forall i :: 0 <= i < |s| - 2 ==> !(s[i] in q && s[i + 1] == l && s[i + 2] in q)
  }

  /** Inputs the codec as written gives back unchanged: no `|`, and no quote,
      escape letter, quote triple. */
  predicate DecodesSafely(s: string)
  {
    && '|' !in s
    && forall i :: 0 <= i < |s| - 2 ==>
      !(IsQuote(s[i]) && s[i + 1] in "dsb" && IsQuote(s[i + 2]))
  }

  lemma {:induction false} EscapedWithNothing(s: string)
    ensures EscapedWith(s, {}) == s
    decreases |s|
  {
    if |s| > 0 {
      EscapedWithNothing(s[1..]);
    }
  }

  /** One encoding pass adds the escape of `c` to those already applied. */
  lemma {:induction false} EscapePass(s: string, q: set<char>, c: char)
    requires forall d | d in q :: Escapable(d)
    requires Escapable(c) && c !in q
    requires c == '|' ==> q == {}
    ensures ReplaceAll(EscapedWith(s, q), [c], Escape(c)) == EscapedWith(s, q + {c})
    decreases |s|
  {
    if |s| > 0 {
      var head := if s[0] in q then Escape(s[0]) else [s[0]];
      assert EscapedWith(s, q) == head + EscapedWith(s[1..], q);
      ReplaceCharConcat(head, EscapedWith(s[1..], q), c, Escape(c));
      EscapePass(s[1..], q, c);
      if s[0] in q {
        assert c !in head;
        ReplaceNoNewChar(head, c, Escape(c), c);
        assert ReplaceAll(head, [c], Escape(c)) == head by {
          assert ReplaceAll(head[2..], [c], Escape(c)) == head[2..];
          assert ReplaceAll(head[1..], [c], Escape(c)) == head[1..];
        }
      } else if s[0] == c {
        assert ReplaceAll(head, [c], Escape(c)) == Escape(c);
      } else {
        assert ReplaceAll(head, [c], Escape(c)) == head;
      }
    }
  }

  /** The encoder as written escapes exactly the three quote characters. */
  lemma EncodeEscapesQuotes(s: string)
    ensures EncodeString(s).text == EscapedWith(s, {'"', '\'', '`'})
  {
    EscapedWithNothing(s);
    EscapePass(s, {}, '"');
    assert {} + {'"'} == {'"'};
    EscapePass(s, {'"'}, '\'');
    assert {'"'} + {'\''} == {'"', '\''};
    EscapePass(s, {'"', '\''}, '`');
    assert {'"', '\''} + {'`'} == {'"', '\'', '`'};
  }

  /** One decoding pass undoes the escape of `c` when no escape of `c` can be
      read across a boundary. */
  lemma {:induction false} UnescapePass(s: string, q: set<char>, c: char)
    requires forall d | d in q :: IsQuote(d)
    requires c in q
    requires '|' !in s
    requires NoBridge(s, q, Letter(c))
    ensures ReplaceAll(EscapedWith(s, q), Escape(c), [c]) == EscapedWith(s, q - {c})
    decreases |s|
  {
    var p := Escape(c);
    if |s| > 0 {
      var rest := EscapedWith(s[1..], q);
      assert NoBridge(s[1..], q, Letter(c)) by {
        forall i | 0 <= i < |s[1..]| - 2
          ensures !(s[1..][i] in q && s[1..][i + 1] == Letter(c) && s[1..][i + 2] in q)
        {
          assert s[1..][i] == s[i + 1] && s[1..][i + 1] == s[i + 2] && s[1..][i + 2] == s[i + 3];
        }
      }
      UnescapePass(s[1..], q, c);
      if s[0] == c {
        assert EscapedWith(s, q) == p + rest;
        assert |p| == 3 && StartsWith(p + rest, p);
        assert (p + rest)[|p|..] == rest;
        assert c !in q - {c};
        assert EscapedWith(s, q - {c}) == [c] + EscapedWith(s[1..], q - {c});
      } else if s[0] in q {
        var e := Escape(s[0]);
        assert EscapedWith(s, q) == e + rest;
        assert !(|rest| >= 2 && rest[0] == Letter(c) && rest[1] == '|') by {
          if |rest| >= 2 && rest[0] == Letter(c) && rest[1] == '|' {
            EscapedHead(s[1..], q);
            EscapedSecond(s[1..], q);
            assert false;
          }
        }
        assert Letter(s[0]) != Letter(c);
        var u := e + rest;
        assert u[..3] == e && u[3..] == rest;
        SkipOtherEscape(u, p, c);
        assert s[0] in q - {c};
        assert EscapedWith(s, q - {c}) == e + EscapedWith(s[1..], q - {c});
      } else {
        assert EscapedWith(s, q) == [s[0]] + rest;
        assert s[0] in s && s[0] != '|';
        assert ([s[0]] + rest)[0] == s[0] && p[0] == '|';
        assert !StartsWith([s[0]] + rest, p);
        assert ([s[0]] + rest)[1..] == rest;
      }
    }
  }

  /** A decoding pass for the escape `p` steps over a different escape at the
      head of `u` when what follows cannot complete a `p` with its closing `|`. */
  lemma SkipOtherEscape(u: string, p: string, c: char)
    requires |u| >= 3 && u[0] == '|' && u[1] != '|' && u[2] == '|'
    requires |p| == 3 && p[0] == '|' && p[1] != '|' && p[2] == '|' && u[1] != p[1]
    requires !(|u| >= 5 && u[3] == p[1] && u[4] == '|')
    ensures ReplaceAll(u, p, [c]) == u[..3] + ReplaceAll(u[3..], p, [c])
  {
    var w := u[1..];
    var v := w[1..];
    assert w[0] != p[0];
    assert !StartsWith(v, p);
    ReplaceStepNoMatch(v, p, [c]);
    ReplaceStepNoMatch(w, p, [c]);
    ReplaceStepNoMatch(u, p, [c]);
    assert v[1..] == u[3..];
    assert u[..3] == [u[0], w[0], v[0]];
  }

  /** One step of a replacement pass where the pattern does not start here. */
  lemma ReplaceStepNoMatch(s: string, p: string, t: string)
    requires |s| > 0 && |p| > 0 && !StartsWith(s, p)
    ensures ReplaceAll(s, p, t) == [s[0]] + ReplaceAll(s[1..], p, t)
  {
  }

  /** The first character of an escaped string is `|` exactly when the first
      source character was escaped, and is the source character otherwise. */
  lemma EscapedHead(s: string, q: set<char>)
    requires forall d | d in q :: IsQuote(d)
    requires |s| > 0 && '|' !in s
    ensures EscapedWith(s, q)[0] == if s[0] in q then '|' else s[0]
  {
  }

  /** When an escaped string starts with a letter followed by `|`, the source
      has that letter followed by an escaped character. */
  lemma EscapedSecond(s: string, q: set<char>)
    requires forall d | d in q :: IsQuote(d)
    requires |s| > 0 && '|' !in s && s[0] !in q
    requires |EscapedWith(s, q)| >= 2 && EscapedWith(s, q)[1] == '|'
    ensures |s| >= 2 && s[1] in q
  {
    assert EscapedWith(s, q) == [s[0]] + EscapedWith(s[1..], q);
    if |s| >= 2 {
      EscapedHead(s[1..], q);
    }
  }

  /** Round trip of the codec as written, on the inputs it handles. */
  lemma AsWrittenRoundTrip(s: string)
    requires DecodesSafely(s)
    ensures DecodeString(EncodeString(s)) == s
  {
    var q3 := {'"', '\'', '`'};
    var q2 := {'\'', '`'};
    var q1 := {'`'};
    EncodeEscapesQuotes(s);
    SafeNoBridge(s, q3, '"');
    UnescapePass(s, q3, '"');
    assert q3 - {'"'} == q2;
    SafeNoBridge(s, q2, '\'');
    UnescapePass(s, q2, '\'');
    assert q2 - {'\''} == q1;
    SafeNoBridge(s, q1, '`');
    UnescapePass(s, q1, '`');
    assert q1 - {'`'} == {};
    EscapedWithNothing(s);
  }

  /** On such an input no escape can be read across a boundary. */
  lemma SafeNoBridge(s: string, q: set<char>, c: char)
    requires DecodesSafely(s)
    requires forall d | d in q :: IsQuote(d)
    requires IsQuote(c)
    ensures NoBridge(s, q, Letter(c))
  {
    assert Letter(c) in "dsb";
  }

  // ---------------------------------------------------------------------
  // The corrected codec: `|` is escaped too, first, and decoding reads the
  // escapes in a single left-to-right pass.

  function EncodeStringFixed(plain: string): (w: Wire)
    ensures w.text == EscapedWith(plain, {'|', '"', '\'', '`'})
  {
    var p := ReplaceAll(plain, "|", "|p|");
    var a := ReplaceAll(p, "\"", "|d|");
    var b := ReplaceAll(a, "'", "|s|");
    var c := ReplaceAll(b, "`", "|b|");
    EscapedWithNothing(plain);
    EscapePass(plain, {}, '|');
    assert {} + {'|'} == {'|'};
    EscapePass(plain, {'|'}, '"');
    assert {'|'} + {'"'} == {'|', '"'};
    EscapePass(plain, {'|', '"'}, '\'');
    assert {'|', '"'} + {'\''} == {'|', '"', '\''};
    EscapePass(plain, {'|', '"', '\''}, '`');
    assert {'|', '"', '\''} + {'`'} == {'|', '"', '\'', '`'};
    Wire(c)
  }

  /** Reads the escapes of a string left to right in one pass. */
  function Unescape(t: string): string
    decreases |t|
  {
    if |t| >= 3 && t[0] == '|' && t[2] == '|' && t[1] in "dsbp" then
      var c := if t[1] == 'd' then '"' else if t[1] == 's' then '\'' else if t[1] == 'b' then '`' else '|';
      [c] + Unescape(t[3..])
    else if |t| == 0 then ""
    else [t[0]] + Unescape(t[1..])
  }

  function DecodeStringFixed(encoded: Wire): string
  {
    Unescape(encoded.text)
  }

  /** The corrected codec gives back every string. */
  lemma {:induction false} FixedRoundTrip(s: string)
    ensures DecodeStringFixed(EncodeStringFixed(s)) == s
  {
    UnescapeEscaped(s);
  }

  lemma {:induction false} UnescapeEscaped(s: string)
    ensures Unescape(EscapedWith(s, {'|', '"', '\'', '`'})) == s
    decreases |s|
  {
    var q := {'|', '"', '\'', '`'};
    if |s| > 0 {
      var rest := EscapedWith(s[1..], q);
      UnescapeEscaped(s[1..]);
      if s[0] in q {
        var t := Escape(s[0]) + rest;
        assert EscapedWith(s, q) == t;
        assert t[3..] == rest;
      } else {
        var t := [s[0]] + rest;
        assert EscapedWith(s, q) == t;
        assert t[1..] == rest;
      }
    }
  }
}

=== FILE: request_queue.dfy ===
/** The fixed-capacity stack of track requests in lib/mpdclient/queue.go:
    a slice of `size` slots and `Count`, the index of the top entry, which
    is -1 when the stack is empty. */
module RequestQueue {
  import opened Wrappers

  /** `RequestQueueItem`. */
  datatype Item = Item(title: string, pos: int)

  /** `RequestQueue`: the slots (`None` for a nil pointer), `size` and
      `Count`. */
  datatype Queue = Queue(entries: seq<Option<Item>>, size: int, count: int)

  /** The shape every operation keeps: one slot per unit of capacity, the
      slots up to `count` filled and the rest empty. */
  predicate Valid(q: Queue)
  {
    && |q.entries| == q.size
    && -1 <= q.count < q.size
    && (forall i :: 0 <= i < |q.entries| ==> (q.entries[i].Some? <==> i <= q.count))
  }

  /** The queued items, bottom first. */
  function Items(q: Queue): (items: seq<Item>)
    requires Valid(q)
    ensures |items| == q.count + 1
    ensures forall i :: 0 <= i < |items| ==> Some(items[i]) == q.entries[i]
  {
    seq(q.count + 1, i requires 0 <= i < q.count + 1 && Valid(q) => q.entries[i].value)
  }

  /** `NewRequestQueue`: `make` rejects a negative size. */
  function NewRequestQueue(size: int): (q: Queue)
    requires size >= 0
    ensures Valid(q) && q.size == size && Items(q) == []
  {
    Queue(seq(size, _ => None), size, -1)
  }

  /** `Push`: refused when the top slot is in use; otherwise the item goes
      on top. */
  function Push(q: Queue, entry: Item): (r: (Queue, bool))
    requires Valid(q)
    ensures Valid(r.0) && r.0.size == q.size
    ensures r.1 <==> |Items(q)| < q.size
    ensures r.1 ==> Items(r.0) == Items(q) + [entry]
    ensures !r.1 ==> r.0 == q
  {
    if q.count == q.size - 1 then (q, false)
    else
      var q' := Queue(q.entries[q.count + 1 := Some(entry)], q.size, q.count + 1);
      assert Items(q') == Items(q) + [entry];
      (q', true)
  }

  /** `Pop`: nothing from an empty stack; otherwise the top item, whose slot
      is cleared. */
  function Pop(q: Queue): (r: (Queue, Option<Item>))
    requires Valid(q)
    ensures Valid(r.0) && r.0.size == q.size
    ensures Items(q) == [] ==> r == (q, None)
    ensures Items(q) != [] ==>
      r.1 == Some(Items(q)[|Items(q)| - 1]) && Items(r.0) == Items(q)[..|Items(q)| - 1]
  {
    if q.count < 0 then (q, None)
    else
      var value := q.entries[q.count];
      var q' := Queue(q.entries[q.count := None], q.size, q.count - 1);
      assert Items(q') == Items(q)[..|Items(q)| - 1];
      (q', value)
  }

  /** `Dump`: the titles keyed by position, bottom first. */
  function Dump(q: Queue): (m: map<int, string>)
    requires Valid(q)
    ensures forall i :: i in m <==> 0 <= i < |Items(q)|
    ensures forall i :: 0 <= i < |Items(q)| ==> m[i] == Items(q)[i].title
  {
    map i | 0 <= i < q.count + 1 :: q.entries[i].value.title
  }

  /** `Has`: whether some queued item has the title. */
  method Has(q: Queue, title: string) returns (found: bool)
    requires Valid(q)
    ensures found <==> exists i :: 0 <= i < |Items(q)| && Items(q)[i].title == title
  {
    var i := 0;
    while i < q.count + 1
      invariant 0 <= i <= q.count + 1
      invariant forall j :: 0 <= j < i ==> Items(q)[j].title != title
    {
      if q.entries[i].value.title == title {
        assert Items(q)[i].title == title;
        return true;
      }
      i := i + 1;
    }
    return false;
  }

  /** Popping right after a successful push gives the item back and
      restores the queue. */
  lemma PopUndoesPush(q: Queue, entry: Item)
    requires Valid(q) && Push(q, entry).1
    ensures Pop(Push(q, entry).0) == (q, Some(entry))
  {
    var q' := Push(q, entry).0;
    assert q'.entries[q'.count := None] == q.entries;
  }

  /** The queue holds at most `size` items: the push after the stack is
      full is refused and changes nothing. */
  lemma FullRefuses(q: Queue, entry: Item)
    requires Valid(q) && |Items(q)| == q.size
    ensures Push(q, entry) == (q, false)
  {
  }

  /** Items come back out in the reverse of the order they went in. */
  lemma {:induction false} LastInFirstOut(q: Queue, a: Item, b: Item)
    requires Valid(q) && |Items(q)| + 2 <= q.size
    ensures var q1 := Push(q, a).0;
      var q2 := Push(q1, b).0;
      var (q3, first) := Pop(q2);
      var (q4, second) := Pop(q3);
      first == Some(b) && second == Some(a) && q4 == q
  {
    var q1 := Push(q, a).0;
    PopUndoesPush(q1, b);
    PopUndoesPush(q, a);
  }
}

=== FILE: sanitize.dfy ===
/** The album-art search query cleaner (`SantizeQuery` in
    lib/albumart/utils.go; `sanitizeQuery` in lib/discogs/discogs.go is the
    same code): every character from an opening bracket `[`, `(` or `{`
    up to and including the next closing bracket `]`, `)` or `}` is
    dropped. Brackets do not nest, and an unmatched opener drops the rest
    of the query. */
module Sanitize {
  import opened Strings

  predicate IsOpener(c: char)
  {
    c == '[' || c == '(' || c == '{'
  }

  predicate IsCloser(c: char)
  {
    c == ']' || c == ')' || c == '}'
  }

  predicate IsBracket(c: char)
  {
    IsOpener(c) || IsCloser(c)
  }

  predicate NoBrackets(s: string)
  {
    forall i :: 0 <= i < |s| ==> !IsBracket(s[i])
  }

  predicate NoClosers(s: string)
  {
    forall i :: 0 <= i < |s| ==> !IsCloser(s[i])
  }

  /** The characters of `s` that survive, when the scan starts inside a
      bracketed region or not. */
  function Skim(s: string, inside: bool): (r: string)
    ensures NoBrackets(r)
    ensures IsSubsequence(r, s)
    decreases |s|
  {
    if |s| == 0 then ""
    else
      var c := s[0];
      var rest := Skim(s[1..], !IsCloser(c) && (IsOpener(c) || inside));
      if IsBracket(c) || inside then
        SubsequenceCons(rest, s[1..], c);
        assert s == [c] + s[1..];
        rest
      else
        assert s == [c] + s[1..];
        assert ([c] + rest)[1..] == rest;
        [c] + rest
  }

  /** The loop over the query's characters, with the flag `insideBrackets`. */
  method SanitizeQuery(q: string) returns (result: string)
    ensures NoBrackets(result)
    ensures IsSubsequence(result, q)
    ensures result == Skim(q, false)
  {
    result := "";
    var insideBrackets := false;
    var i := 0;
    while i < |q|
      invariant 0 <= i <= |q|
      invariant result + Skim(q[i..], insideBrackets) == Skim(q, false)
    {
      var chr := q[i];
      assert q[i..] == [chr] + q[i + 1..];
      if IsOpener(chr) {
        insideBrackets := true;
      } else if IsCloser(chr) {
        insideBrackets := false;
      } else if !insideBrackets {
        result := result + [chr];
      }
      i := i + 1;
    }
    assert q[|q|..] == "";
    assert result == Skim(q, false);
  }

  /** A query without brackets is left as it is. */
  lemma {:induction false} CleanQueryUnchanged(s: string)
    requires NoBrackets(s)
    ensures Skim(s, false) == s
    decreases |s|
  {
    if |s| > 0 {
      CleanQueryUnchanged(s[1..]);
    }
  }

  /** Cleaning twice is cleaning once. */
  lemma Idempotent(s: string)
    ensures Skim(Skim(s, false), false) == Skim(s, false)
  {
    CleanQueryUnchanged(Skim(s, false));
  }

  /** Inside a region, everything up to the first closer is dropped and the
      scan resumes outside after it. */
  lemma {:induction false} SkipToCloser(x: string, c: char, y: string)
    requires NoClosers(x) && IsCloser(c)
    ensures Skim(x + [c] + y, true) == Skim(y, false)
    decreases |x|
  {
    if |x| == 0 {
      assert x + [c] + y == [c] + y;
      assert ([c] + y)[1..] == y;
    } else {
      assert (x + [c] + y)[1..] == x[1..] + [c] + y;
      SkipToCloser(x[1..], c, y);
    }
  }

  /** Whether the scan is inside a region after reading `s`. */
  function After(s: string, inside: bool): bool
    decreases |s|
  {
    if |s| == 0 then inside else After(s[1..], !IsCloser(s[0]) && (IsOpener(s[0]) || inside))
  }

  /** The scan of a concatenation is the scan of the first part followed by
      the scan of the second, started in the state the first left. */
  lemma {:induction false} SkimConcat(a: string, b: string, inside: bool)
    ensures Skim(a + b, inside) == Skim(a, inside) + Skim(b, After(a, inside))
    decreases |a|
  {
    if |a| == 0 {
      assert a + b == b;
    } else {
      assert (a + b)[1..] == a[1..] + b;
      assert (a + b)[0] == a[0];
      SkimConcat(a[1..], b, !IsCloser(a[0]) && (IsOpener(a[0]) || inside));
    }
  }

  /** A bracketed region is cut out together with its brackets, when the
      text before it is not itself inside a region. */
  lemma RegionRemoved(a: string, o: char, x: string, c: char, y: string)
    requires IsOpener(o) && NoClosers(x) && IsCloser(c) && !After(a, false)
    ensures Skim(a + [o] + x + [c] + y, false) == Skim(a, false) + Skim(y, false)
  {
    var t := [o] + x + [c] + y;
    assert a + [o] + x + [c] + y == a + t;
    SkimConcat(a, t, false);
    assert t[1..] == x + [c] + y;
    SkipToCloser(x, c, y);
  }

  /** With no closer after an opener, the rest of the query is dropped. */
  lemma UnmatchedOpenerDropsRest(a: string, o: char, x: string)
    requires IsOpener(o) && NoClosers(x)
    ensures Skim(a + [o] + x, false) == Skim(a, false)
  {
    var t := [o] + x;
    assert a + [o] + x == a + t;
    SkimConcat(a, t, false);
    assert t[1..] == x;
    InsideNoCloser(x);
  }

  /** Inside a region with no closer, nothing survives. */
  lemma {:induction false} InsideNoCloser(x: string)
    requires NoClosers(x)
    ensures Skim(x, true) == ""
    decreases |x|
  {
    if |x| > 0 {
      InsideNoCloser(x[1..]);
    }
  }
}

=== FILE: stream_toggle.dfy ===
/** The play/stop button of the browser client (`ToggleStream` in
    webassets/js/site.js): the audio element, its `<source>` and the stream
    address remembered in `streamSrc`. */
module StreamToggle {

  /** The icon shown on the button. */
  datatype Glyph = PlayGlyph | PauseGlyph

  /** `isPlaying`, the remembered `streamSrc`, the `src` of the source
      element, the element's `currentTime` and the button's icon. */
  datatype Player = Player(isPlaying: bool, streamSrc: string, sourceSrc: string, position: real, glyph: Glyph)

  /** What a click leads to. */
  function Toggle(p: Player): (r: Player)
    // Nothing to play: the click is ignored.
    ensures p.streamSrc == "" && p.sourceSrc == "" ==> r == p
    // Stopping rewinds, detaches the source and shows the play icon.
    ensures (p.streamSrc != "" || p.sourceSrc != "") && p.isPlaying ==>
      && !r.isPlaying && r.sourceSrc == "" && r.position == 0.0 && r.glyph == PlayGlyph
    // Starting attaches the remembered stream, whose `load()` resets the
    // element to the start, and shows the pause icon.
    ensures (p.streamSrc != "" || p.sourceSrc != "") && !p.isPlaying ==>
      && r.isPlaying && r.sourceSrc == r.streamSrc && r.position == 0.0 && r.glyph == PauseGlyph
    // The address is remembered from the page the first time and kept after.
    ensures p.streamSrc != "" ==> r.streamSrc == p.streamSrc
    ensures p.streamSrc == "" ==> r.streamSrc == p.sourceSrc
  {
    if p.streamSrc == "" && p.sourceSrc == "" then p
    else
      var saved := if p.streamSrc == "" then p.sourceSrc else p.streamSrc;
      if p.isPlaying then Player(false, saved, "", 0.0, PlayGlyph)
      else Player(true, saved, saved, 0.0, PauseGlyph)
  }

  /** The icon offers the opposite of what the player does, and a playing
      player plays the remembered stream. */
  predicate Consistent(p: Player)
  {
    && (p.glyph == if p.isPlaying then PauseGlyph else PlayGlyph)
    && (p.isPlaying ==> p.sourceSrc == p.streamSrc && p.streamSrc != "")
  }

  /** A click keeps the player consistent. */
  lemma {:induction false} ToggleConsistent(p: Player)
    requires Consistent(p)
    ensures Consistent(Toggle(p))
  {
    if p.streamSrc != "" || p.sourceSrc != "" {
      assert Toggle(p).streamSrc != "";
    }
  }

  /** Two clicks on a playing player stop it and start the same stream again,
      from the start. */
  lemma StopThenPlay(p: Player)
    requires Consistent(p) && p.isPlaying
    ensures var q := Toggle(Toggle(p));
      && q.isPlaying && q.streamSrc == p.streamSrc && q.sourceSrc == p.sourceSrc && q.glyph == p.glyph
      && q.position == 0.0
  {
  }

  /** Two clicks on a stopped player with something to play start it and stop
      it again, rewound, and the stream address stays the one it started with. */
  lemma PlayThenStop(p: Player)
    requires !p.isPlaying && (p.streamSrc != "" || p.sourceSrc != "")
    ensures var q := Toggle(Toggle(p));
      !q.isPlaying && q.sourceSrc == "" && q.position == 0.0 && q.streamSrc == Toggle(p).streamSrc
  {
  }
}

=== FILE: strings.dfy ===
/** Character-sequence helpers shared by the Go and JavaScript parts of the
    model. Each one follows the library routine it stands for: Go's
    `strings.Contains`, `strings.HasPrefix`, `strings.ReplaceAll` and
    `strings.TrimSpace`, and JavaScript's `indexOf`, `substring`, `slice`,
    global literal `replace` and `toUpperCase`. */
module Strings {

  /** `p` occurs in `s` starting at index `i`. */
  predicate OccursAt(s: string, p: string, i: int)
  {
    0 <= i && i + |p| <= |s| && s[i..i + |p|] == p
  }

  /** Go `strings.HasPrefix` / JavaScript `startsWith`. */
  predicate StartsWith(s: string, p: string)
  {
    |p| <= |s| && s[..|p|] == p
  }

  /** Go `strings.HasSuffix` / JavaScript `endsWith`. */
  predicate EndsWith(s: string, p: string)
  {
    |p| <= |s| && s[|s| - |p|..] == p
  }

  /** Go `strings.Contains` / JavaScript `indexOf(p) > -1`. */
  predicate Contains(s: string, p: string)
  {
    exists i | 0 <= i <= |s| :: OccursAt(s, p, i)
  }

  /** First occurrence of `p` at or after `i`, or -1. */
  function IndexFrom(s: string, p: string, i: nat): (r: int)
    requires i <= |s|
    ensures r == -1 || (i <= r && OccursAt(s, p, r))
    ensures r == -1 ==> forall j :: i <= j ==> !OccursAt(s, p, j)
    ensures r >= 0 ==> forall j :: i <= j < r ==> !OccursAt(s, p, j)
    decreases |s| - i
  {
    if i + |p| > |s| then -1
    else if s[i..i + |p|] == p then i
    else IndexFrom(s, p, i + 1)
  }

  /** JavaScript `s.indexOf(p)`: the first occurrence, or -1 when there is none. */
  function IndexOf(s: string, p: string): (r: int)
    ensures r >= 0 <==> Contains(s, p)
    ensures r >= 0 ==> OccursAt(s, p, r) && forall j :: 0 <= j < r ==> !OccursAt(s, p, j)
  {
    IndexFrom(s, p, 0)
  }

  /** Left-to-right, non-overlapping replacement of every `p` by `t`: Go's
      `strings.ReplaceAll` and JavaScript's `replace` with a global literal
      pattern behave alike for a non-empty pattern. */
  function ReplaceAll(s: string, p: string, t: string): string
    requires |p| > 0
    decreases |s|
  {
    if |s| == 0 then s
    else if StartsWith(s, p) then t + ReplaceAll(s[|p|..], p, t)
    else [s[0]] + ReplaceAll(s[1..], p, t)
  }

  /** Replacing a character by a string that does not hold it leaves no
      occurrence of that character. */
  lemma {:induction false} ReplaceCharRemoves(s: string, c: char, t: string)
    requires c !in t
    ensures c !in ReplaceAll(s, [c], t)
    decreases |s|
  {
    if |s| > 0 {
      ReplaceCharRemoves(s[1..], c, t);
    }
  }

  /** Single-character replacement distributes over concatenation. */
  lemma {:induction false} ReplaceCharConcat(x: string, y: string, c: char, t: string)
    ensures ReplaceAll(x + y, [c], t) == ReplaceAll(x, [c], t) + ReplaceAll(y, [c], t)
    decreases |x|
  {
    if |x| == 0 {
      assert x + y == y;
    } else {
      assert (x + y)[1..] == x[1..] + y;
      assert StartsWith(x + y, [c]) <==> StartsWith(x, [c]);
      ReplaceCharConcat(x[1..], y, c, t);
    }
  }

  /** A pattern that occurs nowhere leaves the string unchanged. */
  lemma {:induction false} ReplaceAbsent(s: string, p: string, t: string)
    requires |p| > 0 && !Contains(s, p)
    ensures ReplaceAll(s, p, t) == s
    decreases |s|
  {
    if |s| > 0 {
      assert !OccursAt(s, p, 0);
      assert !Contains(s[1..], p) by {
        forall i | 0 <= i <= |s[1..]| && OccursAt(s[1..], p, i)
          ensures false
        {
          assert s[1..][i..i + |p|] == s[i + 1..i + 1 + |p|];
          assert OccursAt(s, p, i + 1);
        }
      }
      ReplaceAbsent(s[1..], p, t);
    }
  }

  /** Replacing a character by a one-character string keeps the length and
      changes exactly the positions that held it. */
  lemma {:induction false} ReplaceCharPointwise(s: string, c: char, d: char)
    ensures |ReplaceAll(s, [c], [d])| == |s|
    ensures forall i :: 0 <= i < |s| ==>
      ReplaceAll(s, [c], [d])[i] == (if s[i] == c then d else s[i])
    decreases |s|
  {
    if |s| > 0 {
      ReplaceCharPointwise(s[1..], c, d);
      assert StartsWith(s, [c]) <==> s[0] == c;
    }
  }

  /** Go `strings.Split` on a one-character separator: the pieces between
      separators, at least one. */
  function Split(s: string, c: char): (parts: seq<string>)
    ensures |parts| >= 1
    ensures forall i :: 0 <= i < |parts| ==> c !in parts[i]
    decreases |s|
  {
    if |s| == 0 then [""]
    else
      var rest := Split(s[1..], c);
      if s[0] == c then [""] + rest
      else [[s[0]] + rest[0]] + rest[1..]
  }

  /** Go `strings.Join` with a one-character separator. */
  function Join(parts: seq<string>, c: char): string
    requires |parts| >= 1
    decreases |parts|
  {
    if |parts| == 1 then parts[0] else parts[0] + [c] + Join(parts[1..], c)
  }

  /** Joining the pieces gives the text back. */
  lemma {:induction false} JoinSplit(s: string, c: char)
    ensures Join(Split(s, c), c) == s
    decreases |s|
  {
    if |s| > 0 {
      var rest := Split(s[1..], c);
      JoinSplit(s[1..], c);
      if s[0] == c {
        assert Split(s, c)[1..] == rest;
      } else {
        var parts := Split(s, c);
        if |rest| == 1 {
          assert parts == [[s[0]] + rest[0]];
        } else {
          assert parts[1..] == rest[1..];
          assert Join(rest, c) == rest[0] + [c] + Join(rest[1..], c);
        }
      }
    }
  }

  /** Splitting a join of separator-free pieces gives the pieces back. */
  lemma {:induction false} SplitJoin(parts: seq<string>, c: char)
    requires |parts| >= 1
    requires forall i :: 0 <= i < |parts| ==> c !in parts[i]
    ensures Split(Join(parts, c), c) == parts
    decreases |parts|
  {
    if |parts| == 1 {
      SplitNoSep(parts[0], c);
    } else {
      SplitJoin(parts[1..], c);
      SplitPrefix(parts[0], Join(parts[1..], c), c);
    }
  }

  /** A text without the separator is one piece. */
  lemma {:induction false} SplitNoSep(s: string, c: char)
    requires c !in s
    ensures Split(s, c) == [s]
    decreases |s|
  {
    if |s| > 0 {
      assert c !in s[1..] by {
        forall i | 0 <= i < |s| - 1 ensures s[1..][i] != c { assert s[1..][i] == s[i + 1]; }
      }
      SplitNoSep(s[1..], c);
      assert [s[0]] + s[1..] == s;
    }
  }

  /** A separator-free piece in front of a separator becomes the first
      piece. */
  lemma {:induction false} SplitPrefix(a: string, b: string, c: char)
    requires c !in a
    ensures Split(a + [c] + b, c) == [a] + Split(b, c)
    decreases |a|
  {
    if |a| == 0 {
      assert a + [c] + b == [c] + b;
      assert ([c] + b)[1..] == b;
    } else {
      assert (a + [c] + b)[1..] == a[1..] + [c] + b;
      assert c !in a[1..] by {
        forall i | 0 <= i < |a| - 1 ensures a[1..][i] != c { assert a[1..][i] == a[i + 1]; }
      }
      SplitPrefix(a[1..], b, c);
      assert [a[0]] + a[1..] == a;
    }
  }

  /** Whitespace as Go's `unicode.IsSpace` defines it. */
  predicate IsSpace(c: char)
  {
    var n := c as int;
    n == 0x20 || (0x09 <= n <= 0x0D) || n == 0x85 || n == 0xA0 || n == 0x1680
    || (0x2000 <= n <= 0x200A) || n == 0x2028 || n == 0x2029 || n == 0x202F
    || n == 0x205F || n == 0x3000
  }

  function TrimRight(s: string): (r: string)
    ensures |r| <= |s| && r == s[..|r|]
    ensures forall i :: |r| <= i < |s| ==> IsSpace(s[i])
    ensures |r| > 0 ==> !IsSpace(r[|r| - 1])
    decreases |s|
  {
    if |s| > 0 && IsSpace(s[|s| - 1]) then TrimRight(s[..|s| - 1]) else s
  }

  /** Number of white-space characters at the front of `s`. */
  function LeadingSpaces(s: string): (n: nat)
    ensures n <= |s|
    ensures forall i :: 0 <= i < n ==> IsSpace(s[i])
    ensures n < |s| ==> !IsSpace(s[n])
    decreases |s|
  {
    if |s| > 0 && IsSpace(s[0]) then 1 + LeadingSpaces(s[1..]) else 0
  }

  /** Go `strings.TrimSpace`: `s` without its leading and trailing white
      space; what is kept is one contiguous piece of `s`. */
  function TrimSpace(s: string): (r: string)
    ensures |r| > 0 ==> !IsSpace(r[0]) && !IsSpace(r[|r| - 1])
    ensures LeadingSpaces(s) + |r| <= |s|
    ensures r == s[LeadingSpaces(s)..LeadingSpaces(s) + |r|]
    ensures forall i :: 0 <= i < LeadingSpaces(s) ==> IsSpace(s[i])
    ensures forall i :: LeadingSpaces(s) + |r| <= i < |s| ==> IsSpace(s[i])
  {
    var a := LeadingSpaces(s);
    TrimRight(s[a..])
  }

  /** JavaScript clamps `substring` arguments into `[0, n]`. */
  function Clamp(x: int, n: nat): (r: nat)
    ensures r <= n
    ensures 0 <= x <= n ==> r == x
  {
    if x < 0 then 0 else if x > n then n else x
  }

  /** JavaScript `s.substring(a, b)`: both ends clamped, then swapped when
      the first is larger. */
  function JsSubstring(s: string, a: int, b: int): (r: string)
    ensures 0 <= a <= b <= |s| ==> r == s[a..b]
    ensures |r| <= |s|
  {
    var x := Clamp(a, |s|);
    var y := Clamp(b, |s|);
    if x <= y then s[x..y] else s[y..x]
  }

  /** JavaScript `slice` argument: a negative index counts from the end. */
  function SliceIndex(x: int, n: nat): (r: nat)
    ensures r <= n
    ensures x >= 0 ==> r == if x < n then x else n
  {
    if x < 0 then (if n + x < 0 then 0 else n + x) else if x < n then x else n
  }

  /** JavaScript `a.slice(start, end)` on a sequence. */
  function JsSlice<T>(a: seq<T>, start: int, end: int): (r: seq<T>)
    ensures |r| <= |a|
  {
    var from := SliceIndex(start, |a|);
    var to := SliceIndex(end, |a|);
    if from < to then a[from..to] else []
  }

  function UpperChar(c: char): char
  {
    if 'a' <= c <= 'z' then (c as int - 32) as char else c
  }

  /** JavaScript `toUpperCase`, restricted to the ASCII letters. */
  function ToUpper(s: string): (r: string)
    ensures |r| == |s|
    ensures forall i :: 0 <= i < |s| ==> r[i] == UpperChar(s[i])
  {
    seq(|s|, i requires 0 <= i < |s| => UpperChar(s[i]))
  }

  /** `a` is obtained from `b` by deleting characters. */
  predicate IsSubsequence<T(==)>(a: seq<T>, b: seq<T>)
    decreases |b|
  {
    if |a| == 0 then true
    else if |b| == 0 then false
    else if a[0] == b[0] then IsSubsequence(a[1..], b[1..])
    else IsSubsequence(a, b[1..])
  }

  lemma {:induction false} SubsequenceRefl<T>(a: seq<T>)
    ensures IsSubsequence(a, a)
    decreases |a|
  {
    if |a| > 0 {
      SubsequenceRefl(a[1..]);
    }
  }

  /** A subsequence of `b` is a subsequence of `b` with anything in front. */
  lemma {:induction false} SubsequenceCons<T>(a: seq<T>, b: seq<T>, x: T)
    requires IsSubsequence(a, b)
    ensures IsSubsequence(a, [x] + b)
    decreases |a| + |b|, 1
  {
    assert ([x] + b)[1..] == b;
    if |a| > 0 && a[0] == x {
      SubsequenceTail(a, b);
    }
  }

  /** Dropping the first element of a subsequence keeps it a subsequence. */
  lemma {:induction false} SubsequenceTail<T>(a: seq<T>, b: seq<T>)
    requires |a| > 0 && IsSubsequence(a, b)
    ensures IsSubsequence(a[1..], b)
    decreases |a| + |b|, 0
  {
    if a[0] == b[0] {
      SubsequenceCons(a[1..], b[1..], b[0]);
      assert [b[0]] + b[1..] == b;
    } else {
      SubsequenceTail(a, b[1..]);
      SubsequenceCons(a[1..], b[1..], b[0]);
      assert [b[0]] + b[1..] == b;
    }
  }
}

=== FILE: utils.dfy ===
/** Video-id helpers and the argument/environment/configuration fallback of
    lib/utils/utils.go. The two regular expressions are stated as the
    character tests they perform: Go's `$` without the multi-line flag
    matches only at the end of the text, and `.` matches anything but a
    newline. */
module Utils {
  import opened Wrappers

  /** `[a-zA-Z0-9_-]` */
  predicate IsYidChar(c: char)
  {
    ('a' <= c <= 'z') || ('A' <= c <= 'Z') || ('0' <= c <= '9') || c == '_' || c == '-'
  }

  /** `IsYid`: the value matches `^([a-zA-Z0-9_-]{11})$`. */
  predicate IsYid(value: string)
  {
    |value| == 11 && forall i :: 0 <= i < |value| ==> IsYidChar(value[i])
  }

  /** Length of the tail `-<11 id characters><any but newline>mp3` that the
      file-name pattern `.*-([a-zA-Z0-9_-]{11}).mp3$` anchors at the end. */
  const YidTail: nat := 16

  /** `GetYidFromFilename`: the pattern can only match with its fixed-length
      tail at the end of the name, so the id is always characters
      `[len-15, len-4)`; the `.*` in front accepts any prefix. */
  function GetYidFromFilename(fname: string): (r: Result<string>)
    ensures r.Ok? ==> IsYid(r.value)
    ensures r.Ok? ==> |fname| >= YidTail && r.value == fname[|fname| - 15..|fname| - 4]
    ensures r.Ok? ==> fname == fname[..|fname| - YidTail] + "-" + r.value + [fname[|fname| - 4]] + "mp3"
    ensures r.Err? ==> r.msg == "FindAllStringSubmatch: No yid found for " + fname
  {
    var n := |fname|;
    if n >= YidTail && fname[n - 16] == '-' && IsYid(fname[n - 15..n - 4]) && fname[n - 4] != '\n'
       && fname[n - 3..] == "mp3"
    then
      var id := fname[n - 15..n - 4];
      assert fname == fname[..n - 16] + "-" + id + [fname[n - 4]] + "mp3";
      Ok(id)
    else Err("FindAllStringSubmatch: No yid found for " + fname)
  }

  /** Every name built the way the downloader names its files yields its id:
      anything, a dash, the id, one character other than a newline, `mp3`. */
  lemma {:induction false} YidOfBuiltName(prefix: string, id: string, dot: char)
    requires IsYid(id) && dot != '\n'
    ensures GetYidFromFilename(prefix + "-" + id + [dot] + "mp3") == Ok(id)
  {
    var f := prefix + "-" + id + [dot] + "mp3";
    var n := |f|;
    assert n == |prefix| + 16;
    assert f[n - 16] == '-';
    assert f[n - 15..n - 4] == id;
    assert f[n - 4] == dot;
    assert f[n - 3..] == "mp3";
  }

  /** A name whose tail is not of that shape has no id. */
  lemma NoYidWithoutTail(fname: string)
    requires |fname| < YidTail || fname[|fname| - 16] != '-' || fname[|fname| - 3..] != "mp3"
    ensures GetYidFromFilename(fname).Err?
  {
  }

  // ---------------------------------------------------------------------

  /** The `interface{}` argument: a string, or a value of another type. */
  datatype Value = Str(s: string) | NonString(v: int)

  /** `ArgOrEnvVar`: a set environment variable overrides the argument; an
      empty string falls back to the configuration value; an empty string
      after that is an error. A non-string argument never equals `""`. The
      environment is the map `env`. */
  function ArgOrEnvVar(arg: Value, env: map<string, string>, envVarName: string, cfgFileValue: string): (r: Result<Value>)
    ensures envVarName in env && env[envVarName] != "" ==> r == Ok(Str(env[envVarName]))
    ensures envVarName !in env && arg != Str("") ==> r == Ok(arg)
    ensures (if envVarName in env then env[envVarName] == "" else arg == Str("")) ==>
      (if cfgFileValue == "" then r.Err? else r == Ok(Str(cfgFileValue)))
    ensures r.Ok? ==> r.value != Str("")
  {
    var result := if envVarName in env then Str(env[envVarName]) else arg;
    var result' := if result == Str("") then Str(cfgFileValue) else result;
    if result' == Str("") then Err("No value found") else Ok(result')
  }

  /** The first candidate that is not the empty string. */
  function FirstNonEmpty(candidates: seq<Value>): (r: Option<Value>)
    ensures r.Some? ==> r.value in candidates && r.value != Str("")
    ensures r.None? <==> forall i :: 0 <= i < |candidates| ==> candidates[i] == Str("")
    decreases |candidates|
  {
    if |candidates| == 0 then None
    else if candidates[0] != Str("") then Some(candidates[0])
    else FirstNonEmpty(candidates[1..])
  }

  /** `ArgOrEnvVar` takes the first non-empty value among the environment
      variable (the argument when it is unset) and the configuration value. */
  lemma ArgOrEnvVarPicksFirst(arg: Value, env: map<string, string>, envVarName: string, cfgFileValue: string)
    ensures var primary := if envVarName in env then Str(env[envVarName]) else arg;
      ArgOrEnvVar(arg, env, envVarName, cfgFileValue) ==
        match FirstNonEmpty([primary, Str(cfgFileValue)])
        case Some(v) => Ok(v)
        case None => Err("No value found")
  {
    var primary := if envVarName in env then Str(env[envVarName]) else arg;
    assert [primary, Str(cfgFileValue)][1..] == [Str(cfgFileValue)];
    assert [Str(cfgFileValue)][1..] == [];
  }

  /** A value found once is found again when it is passed back as the
      argument with the variable unset. */
  lemma ArgOrEnvVarSettled(arg: Value, env: map<string, string>, envVarName: string, cfgFileValue: string)
    ensures var r := ArgOrEnvVar(arg, env, envVarName, cfgFileValue);
      r.Ok? ==> ArgOrEnvVar(r.value, map[], envVarName, cfgFileValue) == r
  {
  }
}

=== FILE: webui.dfy ===
/** The web UI server (lib/webui/webui.go): reply construction, the static
    asset lookup, the client address used in the access log, the HTTP
    method check, and the routing of WebSocket requests. The API calls the
    handlers make are outside the model; a handler's outcome is a
    parameter. */
module WebUi {
  import opened Wrappers
  import opened Strings
  import opened Protocol
  import opened EmbedAssets

  // ---------------------------------------------------------------------
  // Replies

  /** `NewResponse`: the four fields as given. */
  function NewResponse(op: int, data: Data, status: bool, msg: string): (r: Response)
    ensures r.op == op && r.data == data && r.status == status && r.msg == msg
  {
    Response(op, data, status, msg)
  }

  /** `NewSuccesResponse`: a successful reply carries the content and no
      message. */
  function NewSuccessResponse(op: int, content: Data): (r: Response)
    ensures r.op == op && r.status && r.data == content && r.msg == ""
  {
    NewResponse(op, content, true, "")
  }

  /** `NewFailedResponse` as written: the message argument is not used, so
      the reply carries an empty message. */
  function NewFailedResponseAsWritten(op: int, msg: string): (r: Response)
    ensures r.op == op && !r.status && r.data == Null && r.msg == ""
  {
    NewResponse(op, Null, false, "")
  }

  /** `NewFailedResponse` as its signature intends: the reply carries the
      message. */
  function NewFailedResponse(op: int, msg: string): (r: Response)
    ensures r.op == op && !r.status && r.data == Null && r.msg == msg
  {
    NewResponse(op, Null, false, msg)
  }

  /** The written version loses every non-empty message; the corrected one
      keeps each message apart. */
  lemma FailedResponseLosesMessage(op: int, m1: string, m2: string)
    requires m1 != m2
    ensures NewFailedResponseAsWritten(op, m1) == NewFailedResponseAsWritten(op, m2)
    ensures NewFailedResponse(op, m1) != NewFailedResponse(op, m2)
  {
  }

  // ---------------------------------------------------------------------
  // Static assets

  /** The lookup key of a request path: the index page has its own key;
      otherwise the leading `/` is dropped and the rest mangled as the
      embedder mangles file paths. Go would panic on an empty path; every
      caller passes a path that starts with `/`. */
  function AssetKey(uri: string): (key: string)
    requires |uri| > 0
    ensures uri == "/" ==> key == "html_index_html"
    ensures uri != "/" ==> key == Mangle(uri[1..])
    ensures uri != "/" ==> |key| == |uri| - 1
    ensures uri != "/" ==> forall i :: 0 <= i < |key| ==> key[i] != '/' && key[i] != '.'
    ensures uri != "/" ==> forall i :: 0 <= i < |key| ==>
      key[i] == if uri[i + 1] == '/' || uri[i + 1] == '.' then '_' else uri[i + 1]
  {
    if uri == "/" then "html_index_html" else Mangle(uri[1..])
  }

  /** The server finds the file the embedder stored for `webui_assets/<p>`
      under the request path `/<p>`, for every `p` whose mangled form does
      not itself hold `webui_assets_`. */
  lemma ServerKeyMatchesEmbeddedName(p: string)
    requires p != "" && !Contains(Mangle(p), DirPrefix)
    ensures AssetKey("/" + p) == AssetName(AssetDir + "/" + p)
  {
    AssetNameBelowDir(p);
    assert ("/" + p)[1..] == p;
    assert "/" + p != "/" by { assert |"/" + p| > 1; }
  }

  /** The index page's key is the name the embedder gives
      `webui_assets/html/index.html`. */
  lemma IndexPageKey()
    ensures AssetKey("/") == AssetName(AssetDir + "/" + "html" + "/" + "index" + "." + "html")
  {
    var p := "html" + "/" + "index" + "." + "html";
    MangledFileName("html", "index", "html");
    assert "html" + "_" + "index" + "_" + "html" == "html_index_html";
    IndexPageNameClean();
    AssetNameBelowDir(p);
    assert AssetDir + "/" + "html" + "/" + "index" + "." + "html" == AssetDir + "/" + p;
  }

  /** The mangled index path holds no `webui_assets_`. */
  lemma IndexPageNameClean()
    ensures !Contains("html_index_html", DirPrefix)
  {
    var m := "html_index_html";
    forall i | 0 <= i <= |m| ensures !OccursAt(m, DirPrefix, i) {
      if i + |DirPrefix| <= |m| {
        assert m[i] != DirPrefix[0];
      }
    }
  }

  /** The embedded map, and a base64 decoder as the parameter `decode`. */
  function FetchGeneratedAsset(assets: map<string, Asset>, decode: string -> Option<string>, uri: string): (r: Result<(string, string)>)
    requires |uri| > 0
    ensures AssetKey(uri) !in assets ==> r == Err("asset not found")
    ensures AssetKey(uri) in assets && decode(assets[AssetKey(uri)].data).None? ==> r == Err("failed to decode asset")
    ensures r.Ok? <==> AssetKey(uri) in assets && decode(assets[AssetKey(uri)].data).Some?
    ensures r.Ok? ==> r.value == (decode(assets[AssetKey(uri)].data).value, assets[AssetKey(uri)].contentType)
  {
    var key := AssetKey(uri);
    if key !in assets then Err("asset not found")
    else match decode(assets[key].data)
      case None => Err("failed to decode asset")
      case Some(decoded) => Ok((decoded, assets[key].contentType))
  }

  /** An HTTP answer: status, content type and body. */
  datatype HttpReply = HttpReply(code: int, contentType: string, body: string)

  /** What `http.Error(w, "", code)` writes. */
  function HttpError(code: int): HttpReply
  {
    HttpReply(code, "text/plain; charset=utf-8", "\n")
  }

  /** `AssetHandler`. The album-art files are read from disk, which is the
      parameter `art`. */
  function AssetHandler(verb: string, path: string, assets: map<string, Asset>,
                        decode: string -> Option<string>, art: string -> Result<(string, string)>): (r: HttpReply)
    // Only GET is served.
    ensures verb != "GET" ==> r == HttpError(405)
    // Generated assets come from the embedded map.
    ensures verb == "GET" && (path == "/" || StartsWith(path, "/css") || StartsWith(path, "/js") || StartsWith(path, "/img")) ==>
      match FetchGeneratedAsset(assets, decode, path)
      case Ok(v) => r == HttpReply(200, v.1, v.0)
      case Err(_) => r == HttpError(500)
    // Album art is read from the cache directory.
    ensures (verb == "GET" && path != "/" && !StartsWith(path, "/css") && !StartsWith(path, "/js")
             && !StartsWith(path, "/img") && StartsWith(path, "/art")) ==>
      match art(path)
      case Ok(v) => r == HttpReply(200, v.1, v.0)
      case Err(_) => r == HttpError(500)
    // Paths outside the known prefixes get an empty plain-text page.
    ensures (verb == "GET" && path != "/" && !StartsWith(path, "/css") && !StartsWith(path, "/js")
             && !StartsWith(path, "/img") && !StartsWith(path, "/art")) ==> r == HttpReply(200, "text/plain", "")
  {
    if verb != "GET" then HttpError(405)
    else
      var fetched: Result<(string, string)> :=
        if path == "/" || StartsWith(path, "/css") || StartsWith(path, "/js") || StartsWith(path, "/img") then
          FetchGeneratedAsset(assets, decode, path)
        else if StartsWith(path, "/art") then art(path)
        else Ok(("", "text/plain"));
      match fetched
      case Err(_) => HttpError(500)
      case Ok(v) => HttpReply(200, v.1, v.0)
  }

  /** A request for an asset the embedder stored is answered with its
      decoded contents and recorded content type. */
  lemma ServesEmbeddedFile(assets: map<string, Asset>, decode: string -> Option<string>,
                           art: string -> Result<(string, string)>, p: string, contents: string)
    requires StartsWith(p, "js/") || StartsWith(p, "css/") || StartsWith(p, "img/")
    requires !Contains(Mangle(p), DirPrefix)
    requires AssetName(AssetDir + "/" + p) in assets
    requires decode(assets[AssetName(AssetDir + "/" + p)].data) == Some(contents)
    ensures AssetHandler("GET", "/" + p, assets, decode, art)
      == HttpReply(200, assets[AssetName(AssetDir + "/" + p)].contentType, contents)
  {
    ServerKeyMatchesEmbeddedName(p);
    AssetPathRouted(p);
    var key := AssetName(AssetDir + "/" + p);
    assert FetchGeneratedAsset(assets, decode, "/" + p) == Ok((contents, assets[key].contentType));
  }

  /** A path below `js/`, `css/` or `img/` is sent to the embedded assets. */
  lemma AssetPathRouted(p: string)
    requires StartsWith(p, "js/") || StartsWith(p, "css/") || StartsWith(p, "img/")
    ensures StartsWith("/" + p, "/js") || StartsWith("/" + p, "/css") || StartsWith("/" + p, "/img")
  {
    var path := "/" + p;
    if StartsWith(p, "js/") {
      assert path[..3] == "/" + p[..2];
    } else {
      assert path[..4] == "/" + p[..3];
    }
  }

  // ---------------------------------------------------------------------
  // Access log source

  /** `getSource`: the `X-Forwarded-For` header when set, else the peer
      address. */
  function GetSource(forwardedFor: string, remoteAddr: string): (source: string)
    ensures forwardedFor != "" ==> source == forwardedFor
    ensures forwardedFor == "" ==> source == remoteAddr
  {
    if forwardedFor == "" then remoteAddr else forwardedFor
  }

  // ---------------------------------------------------------------------
  // WebSocket requests

  /** The handler behind each request code, whose name prefixes its error. */
  function HandlerName(op: int): string
    requires IsRequestCode(op)
  {
    if op == RequestNowPlaying then "HandleNowPlaying"
    else if op == RequestNext then "HandleNext"
    else if op == RequestBoo then "HandleBoo"
    else if op == RequestTune then "HandleTune"
    else if op == RequestSearch then "HandleSearch"
    else if op == RequestTrack then "HandleRequestTrack"
    else "HandleQueue"
  }

  /** What the `SocketHandler` switch does with one request: hand it to its
      handler, whose replies go out under the request code plus 100, or,
      for any other code, close the connection. */
  datatype Action = Handle(handler: string, reply: int) | CloseConnection

  function Dispatch(op: int): (a: Action)
    ensures IsRequestCode(op) <==> a.Handle?
    ensures a.Handle? ==> IsReplyCode(a.reply) && a.reply - 100 == op
    ensures a == CloseConnection <==> !(0 <= op <= 6)
  {
    if IsRequestCode(op) then Handle(HandlerName(op), op + 100) else CloseConnection
  }

  /** How the connection stands after one request. */
  datatype Ending =
    | StillOpen        // the loop reads the next request
    | ClosedByServer   // an unknown code: the switch closes the connection
    | HandlerPanicked  // the handler read the nil reply of a failed API call

  /** The replies one request produces, and how the connection stands after
      them. */
  datatype Exchange = Exchange(replies: seq<Response>, ending: Ending)

  /** The handlers that call the music bot's API; the other two answer from
      the state the server keeps. */
  predicate CallsApi(op: int)
  {
    RequestNext <= op <= RequestTrack
  }

  /** The handlers that answer a failed API call themselves and then go on
      to read the reply they did not get. */
  predicate RepliesOnOwnFailure(op: int)
  {
    RequestNext <= op <= RequestTune
  }

  /** The message those handlers send when the API call fails. */
  function OwnFailureMessage(op: int): string
    requires RepliesOnOwnFailure(op)
  {
    if op == RequestNext then "Failed to skip to next track"
    else if op == RequestBoo then "failed to downvote track"
    else "Failed to upvote track"
  }

  /** The error the search and track handlers return when the API call
      fails; the API's own error text is only logged. */
  function HandlerError(op: int): string
    requires CallsApi(op) && !RepliesOnOwnFailure(op)
  {
    if op == RequestSearch then "failed to search" else "failed to request track"
  }

  /** The text a failure reply carries when the API call of `op` fails:
      the handler's own message, or the switch's "<handler>: <error>". */
  function FailureText(op: int): (t: string)
    requires CallsApi(op)
    ensures t != ""
    ensures RepliesOnOwnFailure(op) ==> t == OwnFailureMessage(op)
    ensures !RepliesOnOwnFailure(op) ==> StartsWith(t, HandlerName(op) + ": ")
  {
    if RepliesOnOwnFailure(op) then OwnFailureMessage(op) else HandlerName(op) + ": " + HandlerError(op)
  }

  /** One turn of the `SocketHandler` loop with the given failure-reply
      builder. `state` is what the now-playing and queue handlers send;
      `api` is the outcome of the API call the other handlers make. */
  function Serve(op: int, state: Data, api: Result<Data>, fail: (int, string) -> Response): Exchange
  {
    match Dispatch(op)
    case CloseConnection => Exchange([], ClosedByServer)
    case Handle(name, reply) =>
      if !CallsApi(op) then Exchange([NewSuccessResponse(reply, state)], StillOpen)
      else match api
        case Ok(d) => Exchange([NewSuccessResponse(reply, d)], StillOpen)
        case Err(_) =>
          if RepliesOnOwnFailure(op) then Exchange([fail(reply, OwnFailureMessage(op))], HandlerPanicked)
          else Exchange([fail(reply, name + ": " + HandlerError(op))], StillOpen)
  }

  /** What the client receives for one request, with the corrected failure
      reply: exactly one reply under the request code plus 100 for a known
      code, nothing for an unknown one, which closes the connection. When
      the API call of the skip, downvote or upvote handler fails, its own
      failure reply goes out and the handler then panics. */
  function Respond(op: int, state: Data, api: Result<Data>): (x: Exchange)
    ensures !IsRequestCode(op) <==> x == Exchange([], ClosedByServer)
    ensures IsRequestCode(op) ==> |x.replies| == 1 && x.replies[0].op == op + 100
    ensures x.ending == HandlerPanicked <==> RepliesOnOwnFailure(op) && api.Err?
    ensures IsRequestCode(op) && !CallsApi(op) ==>
      x == Exchange([Response(op + 100, state, true, "")], StillOpen)
    ensures CallsApi(op) && api.Ok? ==>
      x == Exchange([Response(op + 100, api.value, true, "")], StillOpen)
    ensures CallsApi(op) && api.Err? ==>
      x.replies == [Response(op + 100, Null, false, FailureText(op))]
  {
    Serve(op, state, api, NewFailedResponse)
  }

  /** The API's error text never reaches the client: two failures of the
      same call give the same exchange. */
  lemma ApiErrorTextOnlyLogged(op: int, state: Data, e1: string, e2: string)
    ensures Respond(op, state, Err(e1)) == Respond(op, state, Err(e2))
  {
  }

  /** The same, with `NewFailedResponse` as written: a failure reply never
      carries its text. */
  function RespondAsWritten(op: int, state: Data, api: Result<Data>): (x: Exchange)
    ensures x.ending == Respond(op, state, api).ending
    ensures CallsApi(op) && api.Err? ==> x.replies == [Response(op + 100, Null, false, "")]
    ensures !(CallsApi(op) && api.Err?) ==> x == Respond(op, state, api)
  {
    Serve(op, state, api, NewFailedResponseAsWritten)
  }

  /** The `d` member of a request frame: missing, a JSON string, or any
      other JSON value. */
  datatype Payload = Absent | Text(text: string) | OtherJson

  /** A WebSocket frame: one `json.Unmarshal` rejects, or a request. */
  datatype Frame = Unparsable | Parsed(op: int, d: Payload)

  /** One frame as the loop meets it, with what its handler would find: the
      now-playing track once the first fetch has stored one, the queue
      entries, and the outcome of the handler's API call. */
  datatype Incoming = Incoming(frame: Frame, nowPlaying: Option<Data>, queue: Data, api: Result<Data>)

  /** The handler of `op` finds what it reads: the search and track
      handlers assert that `d` is a string, and the now-playing handler
      writes through the stored track pointer. */
  predicate InputsPresent(op: int, d: Payload, nowPlaying: Option<Data>)
  {
    && (op == RequestSearch || op == RequestTrack ==> d.Text?)
    && (op == RequestNowPlaying ==> nowPlaying.Some?)
  }

  /** What the now-playing and queue handlers send. */
  function StateFor(op: int, nowPlaying: Option<Data>, queue: Data): Data
    requires op == RequestNowPlaying ==> nowPlaying.Some?
  {
    if op == RequestNowPlaying then nowPlaying.value else queue
  }

  /** One turn of the loop with the given failure-reply builder. */
  function Receive(m: Incoming, fail: (int, string) -> Response): Exchange
  {
    match m.frame
    case Unparsable => Exchange([], StillOpen)
    case Parsed(op, d) =>
      if IsRequestCode(op) && !InputsPresent(op, d, m.nowPlaying) then Exchange([], HandlerPanicked)
      else Serve(op, StateFor(op, m.nowPlaying, m.queue), m.api, fail)
  }

  /** What one frame gets, with the corrected failure reply. A frame that
      does not parse is skipped and the loop reads on. A search or track
      request whose `d` is not a string, and a now-playing request before
      the first fetch has stored a track, panic before any reply. Every
      other request is answered as `Respond` says. */
  function Turn(m: Incoming): (x: Exchange)
    ensures m.frame.Unparsable? ==> x == Exchange([], StillOpen)
    ensures m.frame.Parsed? && !IsRequestCode(m.frame.op) ==> x == Exchange([], ClosedByServer)
    ensures m.frame.Parsed? && IsRequestCode(m.frame.op) && !InputsPresent(m.frame.op, m.frame.d, m.nowPlaying) ==>
      x == Exchange([], HandlerPanicked)
    ensures m.frame.Parsed? && IsRequestCode(m.frame.op) && InputsPresent(m.frame.op, m.frame.d, m.nowPlaying) ==>
      x == Respond(m.frame.op, StateFor(m.frame.op, m.nowPlaying, m.queue), m.api)
    ensures |x.replies| == 1 <==>
      m.frame.Parsed? && IsRequestCode(m.frame.op) && InputsPresent(m.frame.op, m.frame.d, m.nowPlaying)
  {
    Receive(m, NewFailedResponse)
  }

  /** The same, with `NewFailedResponse` as written: the same replies, in
      the same number, and the same ending, except that a failure reply
      carries no text. */
  function TurnAsWritten(m: Incoming): (x: Exchange)
    ensures x.ending == Turn(m).ending
    ensures |x.replies| == |Turn(m).replies|
    ensures m.frame.Parsed? && IsRequestCode(m.frame.op) && InputsPresent(m.frame.op, m.frame.d, m.nowPlaying) ==>
      x == RespondAsWritten(m.frame.op, StateFor(m.frame.op, m.nowPlaying, m.queue), m.api)
    ensures forall i :: 0 <= i < |x.replies| ==>
      x.replies[i] == if x.replies[i].status then Turn(m).replies[i] else Turn(m).replies[i].(msg := "")
  {
    Receive(m, NewFailedResponseAsWritten)
  }

  /** The replies a connection sends for a run of frames: each frame is
      served in turn until one closes the connection or panics its handler. */
  function Session(ms: seq<Incoming>): (out: seq<Response>)
    decreases |ms|
  {
    if |ms| == 0 then []
    else if Turn(ms[0]).ending == StillOpen then Turn(ms[0]).replies + Session(ms[1..])
    else Turn(ms[0]).replies
  }

  /** A frame that does not parse changes nothing in the session. */
  lemma SessionSkipsUnparsable(m: Incoming, ms: seq<Incoming>)
    requires m.frame.Unparsable?
    ensures Session([m] + ms) == Session(ms)
  {
    assert ([m] + ms)[1..] == ms;
  }

  /** A run of known requests whose handlers find their inputs and none of
      which panics after a failed API call is answered one reply per
      request, in order, each under its request code plus 100. */
  lemma {:induction false} SessionAnswersEach(ms: seq<Incoming>)
    requires forall i :: 0 <= i < |ms| ==> ms[i].frame.Parsed? && IsRequestCode(ms[i].frame.op)
    requires forall i :: 0 <= i < |ms| ==> InputsPresent(ms[i].frame.op, ms[i].frame.d, ms[i].nowPlaying)
    requires forall i :: 0 <= i < |ms| ==> !(RepliesOnOwnFailure(ms[i].frame.op) && ms[i].api.Err?)
    ensures |Session(ms)| == |ms|
    ensures forall i :: 0 <= i < |ms| ==> Session(ms)[i] == Turn(ms[i]).replies[0]
    ensures forall i :: 0 <= i < |ms| ==> Session(ms)[i].op == ms[i].frame.op + 100
    decreases |ms|
  {
    if |ms| > 0 {
      SessionAnswersEach(ms[1..]);
      assert forall i :: 1 <= i < |ms| ==> ms[1..][i - 1] == ms[i];
    }
  }

  /** Nothing after a request that closes the connection or panics its
      handler is answered: the session is that of the requests up to it. */
  lemma {:induction false} SessionStopsAt(ms: seq<Incoming>, k: int)
    requires 0 <= k < |ms|
    requires forall i :: 0 <= i < k ==> Turn(ms[i]).ending == StillOpen
    requires Turn(ms[k]).ending != StillOpen
    ensures Session(ms) == Session(ms[..k + 1])
    decreases k
  {
    if k > 0 {
      assert ms[1..][..k] == ms[..k + 1][1..];
      SessionStopsAt(ms[1..], k - 1);
    }
  }
}

=== FILE: wrappers.dfy ===
/** Failure-carrying wrappers used across the model: `Option` for values that
    may be absent (a JavaScript `null`, a Go nil pointer) and `Result` for Go's
    `(value, error)` pairs. */
module Wrappers {

  datatype Option<+T> = None | Some(value: T) {

    /** Returns the value, or `default` when absent. */
    function GetOr(default: T): T {
      match this
      case Some(v) => v
      case None => default
    }
  }

  /** The error side of a Go `(value, error)` return carries the message text. */
  datatype Result<+R> = Ok(value: R) | Err(msg: string) {

    predicate IsFailure() {
      Err?
    }

    function PropagateFailure<U>(): Result<U>
      requires Err?
    {
      Err(msg)
    }

    function Extract(): R
      requires Ok?
    {
      value
    }
  }
}
